=== FILE: README.md ===
# Server table browser — a Dafny model

The application shows a large list of managed servers in a table. Each server has an id,
serial, name, asset, version, server type, licence, hardware, status, warning count and
last-communication date. Around the table sit:

- a filter bar: a free-text search with a three-entry history, multi-select filters per
  group, a date preset menu with custom bounds and a searchable asset list;
- sortable, re-orderable columns;
- pagination with a page-number strip;
- row selection: single click, shift-click range, select-all-on-page;
- inline renaming of a server;
- a context menu that emits actions for the selected rows;
- a CSV export;
- preferences that persist in the browser's key-value store: column order, filter
  visibility, search history and the "more filters" flag.

One store holds all of this state. Its derived views are functions of the state: the
filtered list, the sorted list, the current page, the page count, badge counts, the page's
selection state and the "x-y of n" text.

The model's modules follow the program's structure:

| module | file | models |
|---|---|---|
| `ServerModel`, `TableModel`, `FilterModel`, `ActionModel` | `server_model.dfy`, `table_model.dfy`, `filter_model.dfy`, `action_model.dfy` | the records, the union types and the constant tables |
| `Derivation` | `derivation.dfy` | the store's derived views as functions of the state |
| `StableSort` | `stable_sort.dfy` | the stable sort that `Array.prototype.sort` performs, and its properties |
| `Selection`, `QueryState` | `selection.dfy`, `query_state.dfy` | the value-level updates the store's actions apply to the selection, the sort, the page and the column list |
| `StorageService` | `storage_service.dfy` | the persistence service, as a class over a key-value map |
| `StateStore` | `table_state_store.dfy` | the store, as a class whose fields the actions replace |
| `TablePagination`, `DataTable`, `FilterBar`, `TableWidget` | `table_pagination.dfy`, `data_table.dfy`, `filter_bar.dfy`, `table_widget.dfy` | the four components' controller logic, as classes that hold the store |
| `Text`, `Seqs`, `Wrappers` | `text.dfy`, `seqs.dfy`, `wrappers.dfy` | the JavaScript string and array operations used: lower-casing, `includes`, `trim`, `localeCompare`, `join`/`split`, `slice`, number rendering |

## Model

| member | source | states |
|---|---|---|
| ServerModel.ServerStatuses | src/app/models/server.model.ts:24 | every status appears exactly once, at its declaration position, and the names are distinct |
| ServerModel.ServerTypes | src/app/models/server.model.ts:25 | every server type appears exactly once, in declaration order, and the names are distinct |
| ServerModel.LicenseTypes | src/app/models/server.model.ts:26 | every licence appears exactly once, in declaration order, and the names are distinct |
| ServerModel.HardwareTypes | src/app/models/server.model.ts:27 | every hardware type appears exactly once, in declaration order, and the names are distinct |
| ServerModel.AssetTypes | src/app/models/server.model.ts:28 | every asset type appears exactly once, in declaration order, and the names are distinct |
| ServerModel.AssetNames | src/app/models/server.model.ts:28 | the asset option strings are the asset types' names, in order |
| ServerModel.StatusColors | src/app/models/server.model.ts:33-39 | the red badge is used exactly for the stopped and error statuses |
| ServerModel.StatusColorsShared | src/app/models/server.model.ts:33-39 | two distinct statuses share colours only when they are stopped and error |
| ServerModel.Field | src/app/models/server.model.ts:4-16 | a field lookup by key is numeric exactly for `id` and `warningsCount`, and missing exactly for a key that is not a field |
| ServerModel.FieldText | src/app/store/table-state.store.ts:176 | `String(value)` for the comparator's mixed case: a string as it is, a missing field as `undefined`, a number as its decimal digits (a minus sign exactly when negative) that read back as its magnitude |
| TableModel.DefaultColumns | src/app/models/table.model.ts:18-29 | ten columns, from `name` to `lastCommDate`; ids are distinct, every column is sortable, only `name` is editable, and every id is a server field other than `id` |
| TableModel.RowsPerPageOptions | src/app/models/table.model.ts:67 | four positive page sizes in strictly increasing order |
| TableModel.DefaultPaginationOffered | src/app/models/table.model.ts:72-76 | the default page size is one of the offered sizes, and the default state is page 1 of an empty table |
| TableModel.DefaultSortInactive | src/app/models/table.model.ts:81-84 | by default there is no sort column and no direction |
| FilterModel.WithGroup | src/app/store/table-state.store.ts:308-314 | replacing one group's values leaves every other group, the search and the dates unchanged |
| FilterModel.DefaultFilters | src/app/models/filter.model.ts:65-74 | the default filters have an empty search, no date bounds and every group empty |
| FilterModel.DatePresets | src/app/models/filter.model.ts:44-51 | one option per preset, in declaration order, with distinct labels |
| FilterModel.WithVisible | src/app/store/table-state.store.ts:383-395 | setting one filter's visibility leaves the other filters' visibility unchanged |
| FilterModel.DefaultFilterVisibility | src/app/models/filter.model.ts:76-80 | every filter is visible by default |
| Text.Lower | src/app/store/table-state.store.ts:109-112 | lower-casing keeps the length and maps each character on its own |
| Text.LowerIdempotent | src/app/store/table-state.store.ts:109-112 | lower-casing twice is lower-casing once |
| Text.Contains | src/app/store/table-state.store.ts:110-112 | `includes` holds exactly when the needle occurs at some position of the text |
| Text.Trim | src/app/store/table-state.store.ts:302-303 | trimming never lengthens the text; `TrimSpec` states what is removed |
| Text.TrimSpec | src/app/store/table-state.store.ts:302-303 | the trimmed text is empty exactly when the text is all whitespace; otherwise it neither starts nor ends with whitespace; and it is what remains of the input after a blank prefix and a blank suffix are removed |
| Text.TrimIdempotent | src/app/components/filter-bar/filter-bar.component.ts:125-126 | trimming twice is trimming once, so the store's second trim keeps the query the component trimmed |
| Text.CompareStrings | src/app/store/table-state.store.ts:172 | the comparison result is -1, 0 or 1 |
| Text.CompareStringsAntisymmetric | src/app/store/table-state.store.ts:172 | swapping the arguments negates the comparison |
| Text.CompareStringsZero | src/app/store/table-state.store.ts:172 | two strings compare equal exactly when they are equal |
| Text.CompareStringsTransitive | src/app/store/table-state.store.ts:172 | "not after" is transitive |
| Text.JoinExcludes | src/app/components/table-widget/table-widget.component.ts:53 | a character absent from the parts and from the separator is absent from the joined text |
| Text.Join | src/app/components/table-widget/table-widget.component.ts:45-53 | `join`: the parts with the separator between neighbours; `JoinExcludes` and `SplitJoin` state its properties |
| Text.SplitNoSeparator | src/app/components/table-widget/table-widget.component.ts:53 | text without the separator splits into itself |
| Text.Split | src/app/components/table-widget/table-widget.component.ts:53 | splitting at a one-character separator yields at least one field; `SplitJoin` shows it undoes `join` |
| Text.SplitAfterSeparator | src/app/components/table-widget/table-widget.component.ts:53 | splitting at the first separator yields the first field, then the split of the rest |
| Text.SplitJoin | src/app/components/table-widget/table-widget.component.ts:45-53 | joining parts that do not contain the separator, and splitting the result, gives the parts back |
| Text.NatToString | src/app/components/table-widget/table-widget.component.ts:48-50 | a number is rendered as a non-empty string of digits without a leading zero |
| Text.NatToStringRoundTrip | src/app/components/table-widget/table-widget.component.ts:48-50 | reading the rendered digits back gives the number |
| Text.IntToString | src/app/components/table-widget/table-widget.component.ts:48-50 | an integer is rendered with digits and a minus sign only |
| Seqs.Slice | src/app/store/table-state.store.ts:191 | `slice` clamps its bounds to the list and returns the elements between them |
| Seqs.SubsequenceMembers | src/app/store/table-state.store.ts:102-153 | every member of a subsequence is a member of the list it came from |
| Seqs.RemoveAll | src/app/services/storage.service.ts:60 | `filter(q => q !== x)` removes every copy of `x` and keeps the rest in order |
| Seqs.RemoveAllKeepsDistinct | src/app/services/storage.service.ts:60 | removing a value from a list without duplicates leaves it without duplicates |
| Seqs.SetToSeq | src/app/components/data-table/data-table.component.ts:235 | `Array.from(set)`: a list as long as the set, without duplicates, holding exactly the set's members |
| Derivation.PassesIffMatches | src/app/store/table-state.store.ts:102-153 | the filter's chain of early returns admits a server exactly when the search, every non-empty group and every set date bound admit it |
| Derivation.Passes | src/app/store/table-state.store.ts:106-152 | the filter callback with its early returns; `PassesIffMatches` states which servers it admits |
| Derivation.FilteredServers | src/app/store/table-state.store.ts:102-153 | `filteredServers`: the servers that match the filters, in their original order, and no others |
| Derivation.FilterKeepsCopies | src/app/store/table-state.store.ts:102-153 | the filter keeps every copy of a matching server and no copy of another one, so it neither drops nor duplicates rows |
| Derivation.FilterAppend | src/app/store/table-state.store.ts:102-153 | filtering distributes over concatenation |
| Derivation.FilterDefaultIsIdentity | src/app/models/filter.model.ts:65-74 | the default filters list every server |
| Derivation.FilterIdempotent | src/app/store/table-state.store.ts:102-153 | filtering an already filtered list changes nothing |
| Derivation.FilterSearchCaseInsensitive | src/app/store/table-state.store.ts:108-116 | the letter case of the search does not change the list |
| Derivation.FilterUnsetBoundsIgnored | src/app/store/table-state.store.ts:143-149 | empty-string date bounds filter like absent ones |
| Derivation.FilterGroupNarrows | src/app/store/table-state.store.ts:118-141 | restricting a previously empty group only removes servers from the list |
| Derivation.CompareValues | src/app/store/table-state.store.ts:170-177 | equal values compare 0; two strings compare 0 exactly when they are equal ignoring letter case; two numbers compare by their order; any other pair compares the `FieldText` renderings |
| Derivation.CompareValuesAntisymmetric | src/app/store/table-state.store.ts:166-180 | comparing two values of the same kind is antisymmetric |
| Derivation.CompareValuesTransitive | src/app/store/table-state.store.ts:166-180 | comparing values of one kind is transitive |
| Derivation.CompareAntisymmetric | src/app/store/table-state.store.ts:166-180 | the column comparator, in either direction, is antisymmetric |
| Derivation.CompareTransitive | src/app/store/table-state.store.ts:166-180 | the column comparator, in either direction, is transitive |
| Derivation.Compare | src/app/store/table-state.store.ts:166-180 | servers with the same value in the column compare equal in either direction; on numbers, `asc` puts the smaller first and `desc` the larger |
| Derivation.Comparator | src/app/store/table-state.store.ts:166-180 | the function handed to the sort, for one column and direction; `ComparatorIsPreorder` proves it a total preorder |
| Derivation.ComparatorIsPreorder | src/app/store/table-state.store.ts:166-180 | the comparator of every column and direction is a total preorder |
| Derivation.SortActive | src/app/store/table-state.store.ts:162-164 | a sort applies only with a non-empty column and a direction; otherwise `SortedServers` returns the filtered list unchanged |
| Derivation.SortedServers | src/app/store/table-state.store.ts:158-181 | `sortedServers` is a permutation of the filtered list; without an active sort it is the filtered list; otherwise it is ordered by the comparator, and servers that compare equal keep their filtered order |
| Derivation.SortDescending | src/app/store/table-state.store.ts:178 | with 'desc' the list is in non-increasing order of the ascending comparator |
| Derivation.PageStart | src/app/store/table-state.store.ts:188 | the page starts `(page - 1) * rowsPerPage` rows in |
| Derivation.Paginated | src/app/store/table-state.store.ts:186-192 | `paginatedServers` is at most one page of rows, taken from the page's start; it is empty past the end |
| Derivation.TotalPages | src/app/store/table-state.store.ts:197-201 | `totalPages` is at least 1, and it is the fewest pages that hold every filtered row |
| Derivation.PagesUpToPrefix | src/app/store/table-state.store.ts:186-192 | the first n pages, concatenated, are the list's first `n * rowsPerPage` rows |
| Derivation.PagesCoverAll | src/app/store/table-state.store.ts:186-201 | the pages from 1 to `totalPages`, concatenated, are exactly the sorted list |
| Derivation.HasActiveFilters | src/app/store/table-state.store.ts:206-218 | `hasActiveFilters` holds exactly when the filters differ from the defaults |
| Derivation.InactiveFiltersListAll | src/app/store/table-state.store.ts:206-218 | without active filters every server is listed |
| Derivation.FilterBadgeCounts | src/app/store/table-state.store.ts:223-233 | each group's badge counts its selected values; the date badge is 1 exactly when a bound is set |
| Derivation.DateBadgeZeroIgnoresDates | src/app/store/table-state.store.ts:223-233 | when the date badge shows 0, the date bounds do not affect the list |
| Derivation.InactiveFiltersNoBadges | src/app/store/table-state.store.ts:206-233 | without active filters every badge is 0 |
| Derivation.EveryRowSelected | src/app/store/table-state.store.ts:241 | holds exactly when every row of the page is selected |
| Derivation.AnyRowSelected | src/app/store/table-state.store.ts:242 | holds exactly when some row of the page is selected |
| Derivation.PageSelectionState | src/app/store/table-state.store.ts:238-250 | "all selected" means a non-empty page with every row selected; "some selected" means some row but not all; the count is the whole selection's size; the two flags never hold together |
| Derivation.PaginationInfoMatchesPage | src/app/store/table-state.store.ts:255-261 | an empty list shows `0-0`; on a page that holds rows, the range numbers exactly that page's rows, counting from 1 |
| Derivation.PaginationBounds | src/app/store/table-state.store.ts:258-259 | the last row number never passes the total and is not negative; on a non-empty list the first row number is at least 1 |
| Derivation.PaginationInfo | src/app/store/table-state.store.ts:255-261 | the `"start-end of total"` text; `PaginationInfoReadBack` states what it contains |
| Derivation.PaginationInfoReadBack | src/app/store/table-state.store.ts:255-261 | the text splits at the dash into the first row number and the rest, and the rest at spaces into the last row number, `of` and the total; each number reads back as its value |
| StableSort.Insert | src/app/store/table-state.store.ts:166 | inserting adds exactly one element |
| StableSort.Sort | src/app/store/table-state.store.ts:166 | sorting keeps the length |
| StableSort.InsertPermutation | src/app/store/table-state.store.ts:166 | inserting adds the element to the multiset and nothing else |
| StableSort.SortPermutation | src/app/store/table-state.store.ts:166 | the sort is a permutation |
| StableSort.InsertSorted | src/app/store/table-state.store.ts:166 | inserting into a sorted list keeps it sorted |
| StableSort.SortSorted | src/app/store/table-state.store.ts:166-180 | under a total preorder, the sort's output is sorted |
| StableSort.InsertTied | src/app/store/table-state.store.ts:166 | insertion places the element after every element that compares equal to it |
| StableSort.SortStable | src/app/store/table-state.store.ts:166 | the elements that compare equal to a key keep their input order |
| StableSort.SortStableAll | src/app/store/table-state.store.ts:166 | for every key, the elements that compare equal to it keep their input order |
| Selection.FindIndex | src/app/store/table-state.store.ts:511-512 | `findIndex` returns the first position holding the id, or -1 exactly when no server has it |
| Selection.RangeSelection | src/app/store/table-state.store.ts:509-527 | `selectRange` keeps the selection and adds every id between the two positions in either order; it adds nothing else; when either id is missing it changes nothing |
| Selection.RangeSelectionSymmetric | src/app/store/table-state.store.ts:509-527 | the range does not depend on the order of its two ends |
| Selection.RangeSelectionHasEnds | src/app/store/table-state.store.ts:509-527 | both ends of a range are selected |
| Selection.AddIdsBetween | src/app/store/table-state.store.ts:520-524 | the loop adds exactly the ids of the rows from start to end |
| Selection.ToggleId | src/app/store/table-state.store.ts:497-507 | `toggleSelection` flips the id's membership and leaves every other id alone |
| Selection.ToggleIdInvolution | src/app/store/table-state.store.ts:497-507 | toggling the same id twice restores the selection |
| Selection.PageIds | src/app/store/table-state.store.ts:529-545 | the page's ids: an id of each row, and only those |
| Selection.AddPageIds | src/app/store/table-state.store.ts:529-536 | the loop adds exactly the page's ids |
| Selection.RemovePageIds | src/app/store/table-state.store.ts:538-545 | the loop removes exactly the page's ids |
| Selection.SelectPageSelectsAll | src/app/store/table-state.store.ts:529-536 | after selecting all on a non-empty page, the page shows all selected |
| Selection.DeselectPageClearsPage | src/app/store/table-state.store.ts:538-545 | after deselecting all on a page, the page shows neither all nor some selected |
| Selection.ToggleAll | src/app/store/table-state.store.ts:547-554 | `toggleSelectAll` changes no id outside the page |
| Selection.ToggleAllFlips | src/app/store/table-state.store.ts:547-554 | on a non-empty page it flips "all selected" |
| Selection.ToggleAllTwiceFromAll | src/app/store/table-state.store.ts:547-554 | from an all-selected page, toggling twice restores the selection |
| Selection.SelectedServers | src/app/store/table-state.store.ts:560-563 | `getSelectedServers`: the selected servers, in list order, and no others |
| Selection.SelectedServersCount | src/app/store/table-state.store.ts:560-563 | with unique ids, it returns one server per selected id that exists |
| Selection.SelectedServersKeepsCopies | src/app/store/table-state.store.ts:560-563 | the selection keeps every copy of a selected server and no copy of another one |
| Selection.ServersByIds | src/app/store/table-state.store.ts:624-626 | `getServersByIds`: the servers whose id is listed, in store order, and no others; it is the selection of the listed ids |
| Selection.ServerById | src/app/store/table-state.store.ts:620-622 | `getServerById`: undefined exactly when no server has the id, otherwise the first server with it |
| QueryState.ToggleSort | src/app/store/table-state.store.ts:405-417 | another column, or the column without a direction, starts ascending; an ascending column turns descending; a descending column goes back to no sort, and only that does |
| QueryState.ToggleSortCycle | src/app/store/table-state.store.ts:405-417 | from no sort, a column goes to ascending, then descending, then back to no sort |
| QueryState.ToggleSortPeriod | src/app/store/table-state.store.ts:405-417 | after one toggle, three more toggles of the column come back to the same state |
| QueryState.ClampPage | src/app/store/table-state.store.ts:427-431 | the page is at least 1 and at most the page count; a page in range is kept |
| QueryState.ClampPageIdempotent | src/app/store/table-state.store.ts:427-431 | clamping twice is clamping once |
| QueryState.ToggleValue | src/app/store/table-state.store.ts:316-328 | the value's membership flips and other values keep theirs; a new value is appended at the end |
| QueryState.ToggleValueTwice | src/app/store/table-state.store.ts:316-328 | toggling an unlisted value twice restores the group |
| QueryState.ToggleValueKeepsDistinct | src/app/store/table-state.store.ts:316-328 | a group without duplicates stays without duplicates |
| QueryState.SpliceIndex | src/app/store/table-state.store.ts:475-476 | `splice` puts a negative start that many positions before the end, and clamps the start to the list |
| QueryState.RemoveAt | src/app/store/table-state.store.ts:475 | removing one position shifts the later elements down by one |
| QueryState.InsertAt | src/app/store/table-state.store.ts:476 | inserting at a position shifts the later elements up by one |
| QueryState.RemoveInsert | src/app/store/table-state.store.ts:475-476 | removing what was just inserted restores the list |
| QueryState.InsertRemove | src/app/store/table-state.store.ts:475-476 | re-inserting what was just removed, at the same place, restores the list |
| QueryState.InsertRemoveMultiset | src/app/store/table-state.store.ts:475-476 | moving an element is a permutation |
| QueryState.Reorder | src/app/store/table-state.store.ts:472-481 | `reorderColumns` is a permutation; the moved column lands at the normalised target; removing it there leaves the other columns in their old order |
| QueryState.ReorderInverse | src/app/store/table-state.store.ts:472-481 | moving a column and moving it back restores the order |
| QueryState.ReorderSamePlace | src/app/store/table-state.store.ts:472-481 | moving a column onto its own position changes nothing |
| QueryState.ColumnIndex | src/app/store/table-state.store.ts:486-487 | the first position with that id, or -1 exactly when no column has it |
| QueryState.ReorderById | src/app/store/table-state.store.ts:484-491 | a permutation that puts the dragged column at the target's position and keeps the other columns in their old order; when either id is missing nothing changes |
| StorageService.StorageKeys | src/app/services/storage.service.ts:5-10 | the four storage keys are distinct |
| StorageService.AddToHistory | src/app/services/storage.service.ts:58-63 | the query comes first, then the older entries without it, in order; at most three entries |
| StorageService.AddToHistoryPushesDown | src/app/services/storage.service.ts:58-63 | the previous most recent entry, when it is another query, becomes second |
| StorageService.AddToHistoryKeepsDistinct | src/app/services/storage.service.ts:58-63 | a history without duplicates stays without duplicates |
| StorageService.AddToHistoryIdempotent | src/app/services/storage.service.ts:58-63 | recording the same query twice in a row records it once |
| StorageService.Storage.constructor | src/app/services/storage.service.ts:12-21 | the service starts over the given store and platform |
| StorageService.Storage.GetColumnOrder | src/app/services/storage.service.ts:23-27 | outside a browser, or with nothing stored, `null`; a list is returned only when that list is stored under the column key |
| StorageService.Storage.GetFilterVisibility | src/app/services/storage.service.ts:35-39 | outside a browser, or with nothing stored, every filter visible |
| StorageService.Storage.GetSearchHistory | src/app/services/storage.service.ts:47-51 | outside a browser, or with nothing stored, the empty list; a non-empty list is returned only when that list is stored under the history key |
| StorageService.Storage.GetMoreFiltersVisible | src/app/services/storage.service.ts:66-69 | outside a browser, or with nothing stored, false |
| StorageService.Storage.EmptyStoreDefaults | src/app/services/storage.service.ts:23-69 | with nothing stored, every read returns its default |
| StorageService.Storage.SetColumnOrder | src/app/services/storage.service.ts:29-32 | writes the column key in a browser only; a later read returns the written list |
| StorageService.Storage.SetFilterVisibility | src/app/services/storage.service.ts:41-44 | writes the visibility key in a browser only; a later read returns the written record |
| StorageService.Storage.SetSearchHistory | src/app/services/storage.service.ts:53-56 | writes the history key in a browser only; a later read returns the written list |
| StorageService.Storage.AddToSearchHistory | src/app/services/storage.service.ts:58-63 | returns the stored history with the query recorded, and stores that list |
| StorageService.Storage.SetMoreFiltersVisible | src/app/services/storage.service.ts:71-74 | stores the flag as text; a later read gives back the flag in a browser, and false elsewhere |
| StorageService.Storage.ClearAll | src/app/services/storage.service.ts:77-82 | removes the four keys and nothing else; every read then returns its default |
| StateStore.DefaultUIState | src/app/store/table-state.store.ts:30-36 | the initial UI state: no dropdown open, no row hovered or being edited, the context menu hidden and without targets |
| StateStore.ToggleOpen | src/app/store/table-state.store.ts:573-578 | `toggleDropdown` closes the dropdown when it is the open one, otherwise opens it |
| StateStore.ToggleDropdownTwice | src/app/store/table-state.store.ts:573-578 | toggling the same dropdown twice comes back to the starting state |
| StateStore.MenuPosition | src/app/store/table-state.store.ts:592-598 | under test the menu opens at the pointer; otherwise 200 pixels to its left and 10 below |
| StateStore.RenameServer | src/app/store/table-state.store.ts:612-618 | only the name of the servers with that id changes |
| StateStore.RenameKeepsIds | src/app/store/table-state.store.ts:612-618 | a rename keeps id uniqueness and every id lookup |
| StateStore.RenameThenLookup | src/app/store/table-state.store.ts:612-622 | after a rename, a lookup by id finds the renamed server |
| StateStore.RenameWithoutSearch | src/app/store/table-state.store.ts:612-618 | without a search, a rename changes neither which servers are listed nor how many |
| StateStore.RenameCanStrandPage | src/app/store/table-state.store.ts:612-618 | under a search, a rename can shrink the page count below the current page |
| StateStore.TableStateStore.constructor | src/app/store/table-state.store.ts:265-290 | the defaults, the generated records and their count, the persisted preferences, and a stored column order over the defaults; the persisting effects' first run writes the column order, the visibility and the more-filters flag back, in a browser only |
| StateStore.TableStateStore.PersistPreferences | src/app/store/table-state.store.ts:269-282 | one run of the three persisting effects: in a browser the three keys are written and read back as the store's values; elsewhere storage is untouched |
| StateStore.TableStateStore.Filtered | src/app/store/table-state.store.ts:102-153 | the `filteredServers` view: the store's servers that match its filters, in store order, and no others |
| StateStore.TableStateStore.Sorted | src/app/store/table-state.store.ts:158-181 | the `sortedServers` view: a permutation of the filtered servers |
| StateStore.TableStateStore.Page | src/app/store/table-state.store.ts:186-192 | the `paginatedServers` view: at most one page of rows; empty when the page starts past the filtered list |
| StateStore.TableStateStore.PageCount | src/app/store/table-state.store.ts:197-201 | the `totalPages` view: at least 1, and enough pages to hold every filtered row |
| StateStore.TableStateStore.SelectionState | src/app/store/table-state.store.ts:238-250 | the `pageSelectionState` view: the count is the whole selection's size; "all" and "some" never hold together; "all" needs a non-empty page |
| StateStore.TableStateStore.SetSearchQuery | src/app/store/table-state.store.ts:296-299 | sets the search and returns to page 1 |
| StateStore.TableStateStore.AddToSearchHistory | src/app/store/table-state.store.ts:301-306 | ignores a blank query and leaves storage alone; otherwise records the trimmed query in the history and keeps the new list, and storage changes only in a browser, where the history key alone now holds that list |
| StateStore.TableStateStore.RecordHistory | src/app/store/table-state.store.ts:303-304 | the stored history gains the trimmed query and the store keeps it; only the history key changes, and only in a browser |
| StateStore.TableStateStore.SetMultiSelectFilter | src/app/store/table-state.store.ts:308-314 | replaces one group and returns to page 1 |
| StateStore.TableStateStore.ToggleFilterValue | src/app/store/table-state.store.ts:316-328 | toggles one value of a group and returns to page 1 |
| StateStore.TableStateStore.SetDateRange | src/app/store/table-state.store.ts:330-333 | sets both bounds and returns to page 1 |
| StateStore.TableStateStore.SetDatePreset | src/app/store/table-state.store.ts:335-367 | 'all' clears the bounds; 'custom' changes nothing; any other preset sets the range from the preset's start to today and returns to page 1 |
| StateStore.TableStateStore.SetAssetSearchQuery | src/app/store/table-state.store.ts:369-371 | sets the asset search |
| StateStore.TableStateStore.ClearAllFilters | src/app/store/table-state.store.ts:373-377 | restores the default filters, clears the asset search and returns to page 1; every server is then listed |
| StateStore.TableStateStore.ToggleFilterVisibility | src/app/store/table-state.store.ts:383-388 | flips one filter's visibility and, through the persisting effect, stores the new record in a browser |
| StateStore.TableStateStore.SetFilterVisibility | src/app/store/table-state.store.ts:390-395 | sets one filter's visibility and, through the persisting effect, stores the new record in a browser |
| StateStore.TableStateStore.ToggleMoreFilters | src/app/store/table-state.store.ts:397-399 | flips the "more filters" flag and, through the persisting effect, stores it; a later read gives the new flag in a browser and false elsewhere |
| StateStore.TableStateStore.ToggleSort | src/app/store/table-state.store.ts:405-417 | applies the three-state sort cycle to the column |
| StateStore.TableStateStore.SetSort | src/app/store/table-state.store.ts:419-421 | sets the column and the direction |
| StateStore.TableStateStore.SetPage | src/app/store/table-state.store.ts:427-431 | moves to the requested page clamped to the page count; the page is then in range |
| StateStore.TableStateStore.NextPage | src/app/store/table-state.store.ts:433-435 | advances one page, and stays put on the last page |
| StateStore.TableStateStore.PrevPage | src/app/store/table-state.store.ts:437-439 | goes back one page, and stays put on page 1 |
| StateStore.TableStateStore.FirstPage | src/app/store/table-state.store.ts:441-443 | moves to page 1 |
| StateStore.TableStateStore.LastPage | src/app/store/table-state.store.ts:445-447 | moves to the last page |
| StateStore.TableStateStore.SetRowsPerPage | src/app/store/table-state.store.ts:449-455 | sets the page size and returns to page 1 |
| StateStore.TableStateStore.ResetToFirstPage | src/app/store/table-state.store.ts:457-459 | returns to page 1, which is always in range |
| StateStore.TableStateStore.ReorderColumns | src/app/store/table-state.store.ts:472-481 | moves one column and persists the new order |
| StateStore.TableStateStore.ReorderColumnById | src/app/store/table-state.store.ts:484-491 | moves the dragged column to the target's place; when both ids are present, only the column-order key is written, and only in a browser; when an id is missing, storage is untouched |
| StateStore.TableStateStore.ToggleSelection | src/app/store/table-state.store.ts:497-507 | flips one id in the selection |
| StateStore.TableStateStore.SelectRange | src/app/store/table-state.store.ts:509-527 | adds the range of filtered rows between the two ids |
| StateStore.TableStateStore.SelectAllOnPage | src/app/store/table-state.store.ts:529-536 | adds the page's ids; a non-empty page then shows all selected |
| StateStore.TableStateStore.DeselectAllOnPage | src/app/store/table-state.store.ts:538-545 | removes the page's ids; the page then shows nothing selected |
| StateStore.TableStateStore.ToggleSelectAll | src/app/store/table-state.store.ts:547-554 | on a non-empty page, flips whether the page is all selected |
| StateStore.TableStateStore.ClearSelection | src/app/store/table-state.store.ts:556-558 | empties the selection |
| StateStore.TableStateStore.SetOpenDropdown | src/app/store/table-state.store.ts:569-571 | sets the open dropdown and nothing else of the UI state |
| StateStore.TableStateStore.ToggleDropdown | src/app/store/table-state.store.ts:573-578 | opens or closes the dropdown |
| StateStore.TableStateStore.CloseAllDropdowns | src/app/store/table-state.store.ts:580-582 | closes every dropdown |
| StateStore.TableStateStore.SetHoveredRow | src/app/store/table-state.store.ts:584-586 | sets the hovered row |
| StateStore.TableStateStore.SetEditingCell | src/app/store/table-state.store.ts:588-590 | sets the edited row |
| StateStore.TableStateStore.ShowContextMenu | src/app/store/table-state.store.ts:592-598 | opens the menu at the computed position, for the given targets |
| StateStore.TableStateStore.HideContextMenu | src/app/store/table-state.store.ts:600-606 | closes the menu and drops its targets |
| StateStore.TableStateStore.UpdateServerName | src/app/store/table-state.store.ts:612-618 | renames the server; without a search, a page in range stays in range |
| StateStore.TableStateStore.LoadLargeDataset | src/app/store/table-state.store.ts:631-636 | replaces the records, updates the total, clears the selection and returns to page 1 |
| TablePagination.PageWindow | src/app/components/data-table/table-pagination/table-pagination.component.ts:19-37 | with at most five pages, every page from 1 up; otherwise at most seven entries from 1 to the last page, strictly increasing, adjacent page numbers consecutive, each '...' between two numbers that skip a page, and always showing the current page |
| TablePagination.TablePaginationComponent.constructor | src/app/components/data-table/table-pagination/table-pagination.component.ts:14-16 | the bar holds the store |
| TablePagination.TablePaginationComponent.PageNumbers | src/app/components/data-table/table-pagination/table-pagination.component.ts:19-37 | the strip for the store's page count and current page |
| DataTable.DataTableComponent.constructor | src/app/components/data-table/data-table.component.ts:31-46 | no drag, no anchor, no events yet |
| DataTable.DataTableComponent.PageNumbers | src/app/components/data-table/data-table.component.ts:48-66 | the same strip as the pagination bar |
| DataTable.DataTableComponent.OnDocumentClick | src/app/components/data-table/data-table.component.ts:69-74 | a click outside the menus and buttons closes the context menu |
| DataTable.DataTableComponent.OnEscapeKey | src/app/components/data-table/data-table.component.ts:77-82 | closes the context menu and the editor |
| DataTable.DataTableComponent.OnRowSelect | src/app/components/data-table/data-table.component.ts:104-114 | a shift-click with an anchor selects the range from the anchor; any other click toggles the row; the row becomes the anchor |
| DataTable.DataTableComponent.OnDragStart | src/app/components/data-table/data-table.component.ts:117-123 | remembers the dragged column |
| DataTable.DataTableComponent.OnDragOver | src/app/components/data-table/data-table.component.ts:125-132 | the header under the cursor becomes the drop highlight when it has an id and is not the dragged column; otherwise the highlight stays; a new highlight is never the dragged column |
| DataTable.DataTableComponent.OnDragLeave | src/app/components/data-table/data-table.component.ts:134-140 | leaving the highlighted header clears the highlight; leaving another header keeps it |
| DataTable.DataTableComponent.OnDrop | src/app/components/data-table/data-table.component.ts:142-152 | moves the dragged column onto the target when they differ; storage changes only when the move happens with both columns present, in a browser, and then only at the column-order key; the drag state is cleared either way |
| DataTable.DataTableComponent.OnDragEnd | src/app/components/data-table/data-table.component.ts:154-157 | clears the drag state |
| DataTable.DataTableComponent.StartEditing | src/app/components/data-table/data-table.component.ts:160-173 | opens the editor on the row |
| DataTable.DataTableComponent.SaveEdit | src/app/components/data-table/data-table.component.ts:207-225 | an existing server with a non-blank value gets the trimmed name, and one edit event records the old and new names; otherwise nothing changes; the editor closes |
| DataTable.DataTableComponent.OnEditBlur | src/app/components/data-table/data-table.component.ts:197-205 | the delayed blur callback leaves the editor only when the blurred row is still being edited; otherwise the UI state is unchanged |
| DataTable.DataTableComponent.CancelEdit | src/app/components/data-table/data-table.component.ts:227-229 | closes the editor without a change |
| DataTable.DataTableComponent.OnEditKeydown | src/app/components/data-table/data-table.component.ts:175-195 | Enter saves; Escape cancels; Tab saves and then edits the next row of the page, if there is one; other keys do nothing |
| DataTable.DataTableComponent.ShowContextMenu | src/app/components/data-table/data-table.component.ts:232-241 | the menu targets every selected id once, or the clicked row when nothing is selected |
| DataTable.DataTableComponent.ExecuteAction | src/app/components/data-table/data-table.component.ts:243-262 | emits one event with the menu's targets and their servers, then closes the menu |
| FilterBar.OptionsContaining | src/app/components/filter-bar/filter-bar.component.ts:46-48 | the options whose lower-cased text contains the query, in order, and no others |
| FilterBar.OptionsContainingKeepsCopies | src/app/components/filter-bar/filter-bar.component.ts:46-48 | every copy of a matching option is kept and no copy of another one |
| FilterBar.FilteredAssetOptions | src/app/components/filter-bar/filter-bar.component.ts:43-49 | every option for an empty query; otherwise the options containing the query regardless of case, in order |
| FilterBar.IsSubsequenceRefl | src/app/components/filter-bar/filter-bar.component.ts:45 | a list is a subsequence of itself |
| FilterBar.FilteredAssetOptionsCaseInsensitive | src/app/components/filter-bar/filter-bar.component.ts:44-47 | the query's letter case does not change the options offered |
| FilterBar.FilterButtonClass | src/app/components/filter-bar/filter-bar.component.ts:111-117 | the accent style exactly for a positive count, the plain style otherwise |
| FilterBar.FilterButtonHighlightsActiveGroups | src/app/components/filter-bar/filter-bar.component.ts:111-117 | a group's button is highlighted exactly when the group has a value; the date button exactly when a bound is set |
| FilterBar.BoundInput | src/app/components/filter-bar/filter-bar.component.ts:141-142 | an input shows a set bound's text, otherwise the empty string |
| FilterBar.InputBound | src/app/components/filter-bar/filter-bar.component.ts:150-151 | an empty input yields no bound, any other input yields itself |
| FilterBar.CustomDateRoundTrip | src/app/components/filter-bar/filter-bar.component.ts:136-154 | opening the custom inputs and applying them unchanged keeps every set bound |
| FilterBar.CustomDateRoundTripKeepsList | src/app/components/filter-bar/filter-bar.component.ts:136-154 | that round trip leaves the listed servers unchanged |
| FilterBar.FilterBarComponent.constructor | src/app/components/filter-bar/filter-bar.component.ts:37-40 | the custom date inputs start empty and hidden |
| FilterBar.FilterBarComponent.AssetOptions | src/app/components/filter-bar/filter-bar.component.ts:43-49 | every asset name for an empty asset search; otherwise the asset names that contain the search regardless of case, in their order |
| FilterBar.FilterBarComponent.OnDocumentClick | src/app/components/filter-bar/filter-bar.component.ts:98-104 | a click outside the dropdowns and buttons closes the open dropdown |
| FilterBar.FilterBarComponent.OnEscapeKey | src/app/components/filter-bar/filter-bar.component.ts:106-109 | closes the open dropdown |
| FilterBar.FilterBarComponent.OnSearchChange | src/app/components/filter-bar/filter-bar.component.ts:119-121 | sets the search and returns to page 1 |
| FilterBar.FilterBarComponent.OnSearchSubmit | src/app/components/filter-bar/filter-bar.component.ts:123-129 | a search that trims to something is recorded in the history and closes the dropdowns; storage changes only at the history key and only in a browser, where it then holds the new history; a blank search changes nothing |
| FilterBar.FilterBarComponent.RecordSearch | src/app/components/filter-bar/filter-bar.component.ts:126-127 | records the trimmed query in the history and closes the dropdowns; storage changes only at the history key and only in a browser, where it then holds the new history |
| FilterBar.FilterBarComponent.SelectSearchHistory | src/app/components/filter-bar/filter-bar.component.ts:131-134 | searches for the history entry and closes the dropdowns |
| FilterBar.FilterBarComponent.OnDatePresetChange | src/app/components/filter-bar/filter-bar.component.ts:136-147 | 'custom' shows inputs pre-filled from the bounds and changes no filter; other presets hide them, apply the preset and close the dropdowns |
| FilterBar.FilterBarComponent.ApplyCustomDate | src/app/components/filter-bar/filter-bar.component.ts:149-154 | applies the inputs as bounds, empty ones as absent, and closes the dropdowns |
| TableWidget.CsvCells | src/app/components/table-widget/table-widget.component.ts:47-50 | one cell per column, holding that column's field of the server |
| TableWidget.CsvCell | src/app/components/table-widget/table-widget.component.ts:48-49 | `value ?? ''` as `join` renders it; `NumberCellsFree` shows a number cell holds neither a comma nor a line break |
| TableWidget.Captions | src/app/components/table-widget/table-widget.component.ts:45 | one caption per column, in order |
| TableWidget.CsvHeader | src/app/components/table-widget/table-widget.component.ts:45 | the captions joined by commas; `CsvHeaderFields` shows the split gives them back |
| TableWidget.CsvRows | src/app/components/table-widget/table-widget.component.ts:46-51 | one line per exported server, in order |
| TableWidget.CsvRow | src/app/components/table-widget/table-widget.component.ts:46-51 | one server's cells joined by commas; `CsvRowFields` shows the split gives them back |
| TableWidget.ExportRows | src/app/components/table-widget/table-widget.component.ts:38-41 | the selected servers when something is selected, otherwise the filtered servers; in list order |
| TableWidget.ExportAllByDefault | src/app/components/table-widget/table-widget.component.ts:38-41 | with no selection and default filters, every server is exported |
| TableWidget.NumberCellsFree | src/app/components/table-widget/table-widget.component.ts:48-50 | a rendered number contains neither a comma nor a line break |
| TableWidget.CsvHeaderFields | src/app/components/table-widget/table-widget.component.ts:45 | splitting the header at commas gives the captions back, when no caption contains a comma |
| TableWidget.CsvRowFields | src/app/components/table-widget/table-widget.component.ts:46-51 | splitting a line at commas gives the cells back, when no cell contains a comma |
| TableWidget.CsvLines | src/app/components/table-widget/table-widget.component.ts:53 | the file has the header line, then one line per exported server, when nothing contains a line break |
| TableWidget.Csv | src/app/components/table-widget/table-widget.component.ts:53 | the header line and the row lines joined by line breaks; `CsvLines` shows the split gives them back |
| TableWidget.TableWidgetComponent.constructor | src/app/components/table-widget/table-widget.component.ts:22-27 | no events and no downloads yet |
| TableWidget.TableWidgetComponent.OnAction | src/app/components/table-widget/table-widget.component.ts:29-31 | re-emits the action event |
| TableWidget.TableWidgetComponent.OnEdit | src/app/components/table-widget/table-widget.component.ts:33-35 | re-emits the edit event |
| TableWidget.TableWidgetComponent.OnExport | src/app/components/table-widget/table-widget.component.ts:37-64 | downloads the CSV of the export rows under the current columns, and emits one export event |

## Left out

- Angular signals, `computed` and `effect`: each signal is a field and each computed view a function of the fields. The three persisting effects are modelled as writes made by the actions that change their signal, and by the constructor for their first run. The effect that copies the filtered count into `pagination.totalItems` is not modelled; `totalItems` changes only in the constructor and `LoadLargeDataset`.
- The clock: `setDatePreset` computes its range from the current date. The preset's start day and today are parameters (`presetStart`, `today`). The filter bar's `dateLabel` and `selectedDatePreset` are not modelled, because they only format the clock's dates for display.
- Date filtering compares ISO `YYYY-MM-DD` strings. The model compares them as strings with `CompareStrings`; no calendar is modelled.
- `toLowerCase` and `localeCompare` are modelled for ASCII: `Lower` maps A-Z only, and `CompareStrings` is code-point order. Unicode case mapping and locale collation are not modelled.
- Text.Trim: strips the ECMAScript white-space and line-terminator characters that `IsWhitespace` lists. Its own ensures states only the length bound, to keep the contract cheap at every call site; `TrimSpec` states exactly what is removed.
- JSON and the browser's key-value store are a map of already decoded values of the right type. `JSON.parse` errors, which throw out of the getters and out of the store's constructor, are not modelled, and neither are well-formed values of the wrong shape, which the getters would return unchanged. Quota errors are not modelled either.
- DOM and browser detail is not modelled: `closest(...)` tests are a boolean parameter, `preventDefault` and `setTimeout` focusing are dropped, and the Blob and anchor download is a `downloads` list. `ngAfterViewInit`, `getCellValue` and `getStatusClasses` only affect rendering and are not modelled.
- DataTable.DataTableComponent.OnEditBlur: models the callback that `onEditBlur` schedules, as it runs when the 100 ms timer fires. The timer itself is not modelled, so the model does not say which other events (such as the Tab of `OnEditKeydown`) reach the store before the callback runs.
- Seqs.SetToSeq: `Array.from(set)` yields insertion order. The model promises the members, without duplicates, but no particular order.
- DataTable.DataTableComponent.ShowContextMenu: the selection is a set, so the menu's target list holds every selected id once but not in the order the rows were selected, which `Array.from` would give.
- The store's test helpers `resetForTests`, `setServersForTests` and `setColumnsForTests` are not modelled; they only exist for unit tests.
- The action facade, the console logging and the event `timestamp` are not modelled. The mock data generator is not part of this model; `LoadLargeDataset` takes the generated records as a parameter.
- StateStore.TableStateStore.SetRowsPerPage: requires a page size of at least 1. The UI only offers the sizes in `RowsPerPageOptions`, and a size of 0 would make `totalPages` divide by zero.
- QueryState.Reorder: requires the removal to find a column, for the reason given on the next line; `ReorderById` only calls it with indices that do.
- StateStore.TableStateStore.ReorderColumns: requires the removal to find a column. The code would otherwise insert `undefined` into the column list.
- StateStore.TableStateStore.UpdateServerName: does not re-clamp the current page. Neither does the code; `RenameCanStrandPage` shows a rename that leaves the page out of range.
- TableWidget.TableWidgetComponent.OnExport: cells are written unquoted. A name that contains a comma or a line break shifts the columns of its line; `CsvRowFields` and `CsvLines` state the round trip only for cells without them.
- Number formatting in CSV cells is integer only; the table has no fractional fields.

=== FILE: action_model.dfy ===
/** The events the table emits: context-menu actions and inline edits
    (src/app/models/action.model.ts). */
module ActionModel {
  import opened ServerModel

  datatype TableActionType = OpenAdmin | MoveServer | ConnectRemote | Debug

  /** `TableActionEvent` without its `timestamp`, which comes from the clock. */
  datatype TableActionEvent = TableActionEvent(actionType: TableActionType, targetIds: seq<int>, servers: seq<Server>)

  datatype InlineEditEvent = InlineEditEvent(serverId: int, field: string, oldValue: string, newValue: string)
}

=== FILE: data_table.dfy ===
/** The table component's controller logic (src/app/components/data-table/data-table.component.ts):
    row selection with a shift-click anchor, column drag and drop, the inline name editor and
    the context menu. Emitted events are recorded in order in `actionEvents` and `editEvents`. */
module DataTable {
  import opened Wrappers
  import opened Seqs
  import opened Text
  import opened ServerModel
  import opened ActionModel
  import opened Selection
  import opened QueryState
  import opened StorageService
  import opened StateStore
  import opened TablePagination

  /** What `saveEdit(serverId, newValue)` does to the records and the edit events: when the
      server exists and the trimmed value is not empty, the name becomes the trimmed value
      and one event records the old and new names; otherwise nothing changes. */
  ghost predicate SaveOutcome(before: seq<Server>, after: seq<Server>, eventsBefore: seq<InlineEditEvent>,
                              eventsAfter: seq<InlineEditEvent>, serverId: int, newValue: string)
  {
    var found := ServerById(before, serverId);
    if found.Some? && Trim(newValue) != "" then
      after == RenameServer(before, serverId, Trim(newValue))
      && eventsAfter == eventsBefore + [InlineEditEvent(serverId, "name", found.value.name, Trim(newValue))]
    else after == before && eventsAfter == eventsBefore
  }

  class DataTableComponent {
    const store: TableStateStore
    var draggedColumnId: Option<string>
    var dragOverColumnId: Option<string>
    /** The anchor of a shift-click range: the row clicked last. */
    var lastSelectedId: Option<int>
    var actionEvents: seq<TableActionEvent>
    var editEvents: seq<InlineEditEvent>

    constructor(store: TableStateStore)
      ensures this.store == store
      ensures draggedColumnId == None && dragOverColumnId == None && lastSelectedId == None
      ensures actionEvents == [] && editEvents == []
    {
      this.store := store;
      draggedColumnId := None;
      dragOverColumnId := None;
      lastSelectedId := None;
      actionEvents := [];
      editEvents := [];
    }

    /** `pageNumbers` for the store's page count and current page. */
    method PageNumbers() returns (pages: seq<PageEntry>)
      requires store.Valid()
      ensures IsPageWindow(pages, store.PageCount(), store.pagination.currentPage)
    {
      pages := PageWindow(store.PageCount(), store.pagination.currentPage);
    }

    /** A click outside every menu and button closes the context menu. Whether the click
        landed inside one is given, as the DOM decides it. */
    method OnDocumentClick(insideMenuOrButton: bool)
      modifies store`uiState
      ensures store.uiState == if insideMenuOrButton then old(store.uiState)
                               else old(store.uiState).(contextMenuPosition := None, contextMenuTargetIds := [])
    {
      if !insideMenuOrButton {
        store.HideContextMenu();
      }
    }

    /** Escape closes the context menu and leaves the editor. */
    method OnEscapeKey()
      modifies store`uiState
      ensures store.uiState == old(store.uiState).(contextMenuPosition := None, contextMenuTargetIds := [], editingCellId := None)
    {
      store.HideContextMenu();
      if store.uiState.editingCellId != None {
        store.SetEditingCell(None);
      }
    }

    /** `onRowSelect`: a shift-click with an anchor selects the range from the anchor, any
        other click toggles the row; the clicked row becomes the anchor. */
    method OnRowSelect(id: int, shiftKey: bool)
      modifies this`lastSelectedId, store`selectedIds
      ensures shiftKey && old(lastSelectedId).Some? ==>
        store.selectedIds == RangeSelection(old(store.selectedIds), store.Filtered(), old(lastSelectedId).value, id)
      ensures !(shiftKey && old(lastSelectedId).Some?) ==> store.selectedIds == ToggleId(old(store.selectedIds), id)
      ensures lastSelectedId == Some(id)
    {
      if shiftKey && lastSelectedId.Some? {
        store.SelectRange(lastSelectedId.value, id);
      } else {
        store.ToggleSelection(id);
      }
      lastSelectedId := Some(id);
    }

    method OnDragStart(columnId: string)
      modifies this`draggedColumnId
      ensures draggedColumnId == Some(columnId)
    {
      draggedColumnId := Some(columnId);
    }

    /** `onDrop`: reorders only when a (non-empty) dragged column exists and differs from the
        target; the drag state is cleared in every case. */
    method OnDrop(targetColumnId: string)
      modifies this`draggedColumnId, this`dragOverColumnId, store`columns, store.storage`entries
      ensures var src := old(draggedColumnId);
        store.columns == if src.Some? && src.value != "" && src.value != targetColumnId
                         then ReorderById(old(store.columns), src.value, targetColumnId)
                         else old(store.columns)
      ensures var src := old(draggedColumnId);
        store.storage.entries ==
          if src.Some? && src.value != "" && src.value != targetColumnId
             && ColumnIndex(old(store.columns), src.value) >= 0 && ColumnIndex(old(store.columns), targetColumnId) >= 0
             && store.storage.isBrowser
          then old(store.storage.entries)[ColumnOrderKey := Columns(store.columns)]
          else old(store.storage.entries)
      ensures draggedColumnId == None && dragOverColumnId == None
    {
      var source := draggedColumnId;
      if source.Some? && source.value != "" && source.value != targetColumnId {
        store.ReorderColumnById(source.value, targetColumnId);
      }
      draggedColumnId := None;
      dragOverColumnId := None;
    }

    /** `onDragOver`: highlights the header under the cursor unless it is the dragged column.
        The id read from the header (`closest('th')` and its `data-column-id`) is a parameter,
        `None` when there is no such header or attribute. */
    method OnDragOver(columnId: Option<string>)
      modifies this`dragOverColumnId
      ensures dragOverColumnId == if columnId.Some? && columnId.value != "" && columnId != draggedColumnId
                                  then columnId else old(dragOverColumnId)
      ensures dragOverColumnId != old(dragOverColumnId) ==> dragOverColumnId.Some? && dragOverColumnId != draggedColumnId
    {
      if columnId.Some? && columnId.value != "" && columnId != draggedColumnId {
        dragOverColumnId := columnId;
      }
    }

    /** `onDragLeave`: leaving the highlighted header clears the highlight; leaving any other
        header keeps it. */
    method OnDragLeave(columnId: Option<string>)
      modifies this`dragOverColumnId
      ensures dragOverColumnId == if columnId == old(dragOverColumnId) then None else old(dragOverColumnId)
      ensures dragOverColumnId == None || dragOverColumnId == old(dragOverColumnId)
    {
      if columnId == dragOverColumnId {
        dragOverColumnId := None;
      }
    }

    method OnDragEnd()
      modifies this`draggedColumnId, this`dragOverColumnId
      ensures draggedColumnId == None && dragOverColumnId == None
    {
      draggedColumnId := None;
      dragOverColumnId := None;
    }

    method StartEditing(id: int)
      modifies store`uiState
      ensures store.uiState == old(store.uiState).(editingCellId := Some(id))
    {
      store.SetEditingCell(Some(id));
    }

    /** `saveEdit`: see `SaveOutcome`; the editor is closed in every case. */
    method SaveEdit(serverId: int, newValue: string)
      requires store.Valid()
      modifies store`servers, store`uiState, this`editEvents
      ensures SaveOutcome(old(store.servers), store.servers, old(editEvents), editEvents, serverId, newValue)
      ensures store.uiState == old(store.uiState).(editingCellId := None)
    {
      var server := ServerById(store.servers, serverId);
      var trimmed := Trim(newValue);
      if server.Some? && trimmed != "" {
        var oldValue := server.value.name;
        store.UpdateServerName(serverId, trimmed);
        editEvents := editEvents + [InlineEditEvent(serverId, "name", oldValue, trimmed)];
      }
      store.SetEditingCell(None);
    }

    /** The callback `onEditBlur` schedules: when it runs, it leaves the editor only if the
        blurred row is still the one being edited, so a Tab that moved the editor on is kept. */
    method OnEditBlur(serverId: int)
      modifies store`uiState
      ensures store.uiState == if old(store.uiState.editingCellId) == Some(serverId)
                               then old(store.uiState).(editingCellId := None) else old(store.uiState)
    {
      if store.uiState.editingCellId == Some(serverId) {
        CancelEdit();
      }
    }

    method CancelEdit()
      modifies store`uiState
      ensures store.uiState == old(store.uiState).(editingCellId := None)
    {
      store.SetEditingCell(None);
    }

    /** `onEditKeydown`: Enter saves, Escape cancels, Tab saves and then edits the row after
        the edited one on the page as it is after the save. A row that is not on the page has
        index -1, so Tab then edits the first row. Other keys do nothing. */
    method OnEditKeydown(key: string, serverId: int, inputValue: string)
      requires store.Valid()
      modifies store`servers, store`uiState, this`editEvents
      ensures key == "Enter" ==>
        SaveOutcome(old(store.servers), store.servers, old(editEvents), editEvents, serverId, inputValue)
        && store.uiState == old(store.uiState).(editingCellId := None)
      ensures key == "Escape" ==>
        store.servers == old(store.servers) && editEvents == old(editEvents)
        && store.uiState == old(store.uiState).(editingCellId := None)
      ensures key == "Tab" ==>
        SaveOutcome(old(store.servers), store.servers, old(editEvents), editEvents, serverId, inputValue)
        && var page := store.Page();
           var next := FindIndex(page, serverId) + 1;
           store.uiState == old(store.uiState).(editingCellId := if next < |page| then Some(page[next].id) else None)
      ensures key != "Enter" && key != "Escape" && key != "Tab" ==>
        store.servers == old(store.servers) && editEvents == old(editEvents) && store.uiState == old(store.uiState)
    {
      if key == "Enter" {
        SaveEdit(serverId, inputValue);
      } else if key == "Escape" {
        CancelEdit();
      } else if key == "Tab" {
        SaveEdit(serverId, inputValue);
        var servers := store.Page();
        var currentIndex := FindIndex(servers, serverId);
        if currentIndex + 1 < |servers| {
          StartEditing(servers[currentIndex + 1].id);
        }
      }
    }

    /** `showContextMenu`: the menu targets the whole selection when there is one, otherwise
        the clicked row. */
    method ShowContextMenu(serverId: int, x: int, y: int)
      modifies store`uiState
      ensures var targets := store.uiState.contextMenuTargetIds;
        store.uiState == old(store.uiState).(contextMenuPosition := Some(MenuPosition(x, y, store.isTest)),
                                             contextMenuTargetIds := targets)
        && (store.selectedIds == {} ==> targets == [serverId])
        && (store.selectedIds != {} ==>
              |targets| == |store.selectedIds| && forall t :: t in targets <==> t in store.selectedIds)
    {
      var targetIds: seq<int>;
      if |store.selectedIds| > 0 {
        targetIds := SetToSeq(store.selectedIds);
      } else {
        targetIds := [serverId];
      }
      store.ShowContextMenu(x, y, targetIds);
    }

    /** `executeAction`: emits one event carrying the menu's target ids and their servers,
        read before the menu is hidden. */
    method ExecuteAction(actionType: TableActionType)
      modifies store`uiState, this`actionEvents
      ensures var ids := old(store.uiState.contextMenuTargetIds);
        actionEvents == old(actionEvents) + [TableActionEvent(actionType, ids, ServersByIds(store.servers, ids))]
      ensures store.uiState == old(store.uiState).(contextMenuPosition := None, contextMenuTargetIds := [])
    {
      var targetIds := store.uiState.contextMenuTargetIds;
      var servers := ServersByIds(store.servers, targetIds);
      actionEvents := actionEvents + [TableActionEvent(actionType, targetIds, servers)];
      store.HideContextMenu();
    }
  }
}

=== FILE: derivation.dfy ===
/** The derived views of the table state store: the filter, the stable sort by a column,
    the page slice, the page count and the summaries shown beside the table
    (src/app/store/table-state.store.ts:102-261). Each view is a function of the store
    fields it reads. */
module Derivation {
  import opened Wrappers
  import opened Seqs
  import opened Text
  import opened ServerModel
  import opened TableModel
  import opened FilterModel
  import opened StableSort

  // ===========================================================================
  // Filtering
  // ===========================================================================

  /** The lower-cased query occurs in the lower-cased name, serial or asset name. */
  predicate SearchHit(s: Server, query: string) {
    Contains(Lower(s.name), query) || Contains(Lower(s.serial), query) || Contains(Lower(s.assetName), query)
  }

  /** The record attribute a multi-select group tests, as the string the filter list holds. */
  function GroupField(s: Server, g: FilterGroup): string {
    match g
    case StatusGroup => StatusName(s.status)
    case AssetGroup => s.assetName
    case TypeGroup => ServerTypeName(s.serverType)
    case LicenseGroup => LicenseName(s.license)
    case HardwareGroup => HardwareName(s.hardware)
  }

  /** A date bound takes part only when it is a non-empty string (JavaScript truthiness). */
  predicate BoundSet(b: Option<string>) {
    b.Some? && b.value != ""
  }

  /** The filter callback as the source writes it: one early rejection per criterion. */
  predicate Passes(s: Server, f: ActiveFilters) {
    if f.search != "" && !SearchHit(s, Lower(f.search)) then false
    else if |f.status| > 0 && StatusName(s.status) !in f.status then false
    else if |f.asset| > 0 && s.assetName !in f.asset then false
    else if |f.serverType| > 0 && ServerTypeName(s.serverType) !in f.serverType then false
    else if |f.license| > 0 && LicenseName(s.license) !in f.license then false
    else if |f.hardware| > 0 && HardwareName(s.hardware) !in f.hardware then false
    else if BoundSet(f.dateFrom) && StrLess(s.lastCommDate, f.dateFrom.value) then false
    else if BoundSet(f.dateTo) && StrLess(f.dateTo.value, s.lastCommDate) then false
    else true
  }

  /** An empty group does not restrict; a non-empty one must list the attribute. */
  predicate GroupAdmits(values: seq<string>, v: string) {
    values == [] || v in values
  }

  /** The search criterion: skipped for the empty string, otherwise a case-insensitive
      substring of name, serial or asset name. */
  predicate SearchAdmits(s: Server, search: string) {
    search == "" || SearchHit(s, Lower(search))
  }

  /** Every set bound admits the date: `dateFrom <= lastCommDate <= dateTo` as strings. */
  predicate DatesAdmit(s: Server, f: ActiveFilters) {
    (BoundSet(f.dateFrom) ==> !StrLess(s.lastCommDate, f.dateFrom.value))
    && (BoundSet(f.dateTo) ==> !StrLess(f.dateTo.value, s.lastCommDate))
  }

  /** What a server must satisfy to be listed: every active criterion admits it. */
  predicate Matches(s: Server, f: ActiveFilters) {
    SearchAdmits(s, f.search)
    && (forall g: FilterGroup :: GroupAdmits(GroupValues(f, g), GroupField(s, g)))
    && DatesAdmit(s, f)
  }

  lemma PassesIffMatches(s: Server, f: ActiveFilters)
    ensures Passes(s, f) <==> Matches(s, f)
  {
    if Passes(s, f) {
      forall g: FilterGroup ensures GroupAdmits(GroupValues(f, g), GroupField(s, g)) {
        match g
        case StatusGroup =>
        case AssetGroup =>
        case TypeGroup =>
        case LicenseGroup =>
        case HardwareGroup =>
      }
    }
    if Matches(s, f) {
      assert GroupAdmits(GroupValues(f, StatusGroup), GroupField(s, StatusGroup));
      assert GroupAdmits(GroupValues(f, AssetGroup), GroupField(s, AssetGroup));
      assert GroupAdmits(GroupValues(f, TypeGroup), GroupField(s, TypeGroup));
      assert GroupAdmits(GroupValues(f, LicenseGroup), GroupField(s, LicenseGroup));
      assert GroupAdmits(GroupValues(f, HardwareGroup), GroupField(s, HardwareGroup));
    }
  }

  /** `filteredServers`: the servers that match, in store order. */
  function FilteredServers(servers: seq<Server>, f: ActiveFilters): (r: seq<Server>)
    ensures |r| <= |servers|
    ensures IsSubsequence(r, servers)
    ensures forall x :: x in r <==> x in servers && Matches(x, f)
  {
    if servers == [] then []
    else
      var rest := FilteredServers(servers[1..], f);
      PassesIffMatches(servers[0], f);
      assert forall x :: x in servers <==> x == servers[0] || x in servers[1..];
      if Passes(servers[0], f) then
        assert ([servers[0]] + rest)[1..] == rest;
        [servers[0]] + rest
      else rest
  }

  /** Every copy of a matching server is kept and no copy of another one: the filter neither
      drops nor duplicates rows. */
  lemma {:induction false} FilterKeepsCopies(servers: seq<Server>, f: ActiveFilters, x: Server)
    ensures Count(FilteredServers(servers, f), x) == if Matches(x, f) then Count(servers, x) else 0
  {
    if servers != [] {
      FilterKeepsCopies(servers[1..], f, x);
      var rest := FilteredServers(servers[1..], f);
      PassesIffMatches(servers[0], f);
      if Passes(servers[0], f) {
        assert ([servers[0]] + rest)[1..] == rest;
      }
    }
  }

  /** Filtering distributes over concatenation. */
  lemma {:induction false} FilterAppend(a: seq<Server>, b: seq<Server>, f: ActiveFilters)
    ensures FilteredServers(a + b, f) == FilteredServers(a, f) + FilteredServers(b, f)
  {
    if a != [] {
      assert (a + b)[0] == a[0];
      assert (a + b)[1..] == a[1..] + b;
      FilterAppend(a[1..], b, f);
    } else {
      assert a + b == b;
    }
  }

  /** With the default filters every server is listed. */
  lemma {:induction false} FilterDefaultIsIdentity(servers: seq<Server>)
    ensures FilteredServers(servers, DefaultFilters()) == servers
  {
    if servers != [] {
      FilterDefaultIsIdentity(servers[1..]);
      assert Passes(servers[0], DefaultFilters());
    }
  }

  /** Filtering twice with the same criteria changes nothing. */
  lemma {:induction false} FilterIdempotent(servers: seq<Server>, f: ActiveFilters)
    ensures FilteredServers(FilteredServers(servers, f), f) == FilteredServers(servers, f)
  {
    if servers != [] {
      FilterIdempotent(servers[1..], f);
    }
  }

  /** The query's letter case does not matter. */
  lemma {:induction false} FilterSearchCaseInsensitive(servers: seq<Server>, f: ActiveFilters)
    ensures FilteredServers(servers, f.(search := Lower(f.search))) == FilteredServers(servers, f)
  {
    LowerIdempotent(f.search);
    if servers != [] {
      FilterSearchCaseInsensitive(servers[1..], f);
    }
  }

  /** Bounds that are null or empty strings leave the dates unrestricted. */
  lemma {:induction false} FilterUnsetBoundsIgnored(servers: seq<Server>, f: ActiveFilters)
    requires !BoundSet(f.dateFrom) && !BoundSet(f.dateTo)
    ensures FilteredServers(servers, f) == FilteredServers(servers, f.(dateFrom := None, dateTo := None))
  {
    if servers != [] {
      FilterUnsetBoundsIgnored(servers[1..], f);
    }
  }

  /** Listing a value in a group that was empty only removes servers. */
  lemma {:induction false} FilterGroupNarrows(servers: seq<Server>, f: ActiveFilters, g: FilterGroup, values: seq<string>)
    requires GroupValues(f, g) == []
    ensures IsSubsequence(FilteredServers(servers, WithGroup(f, g, values)), FilteredServers(servers, f))
  {
    if servers != [] {
      FilterGroupNarrows(servers[1..], f, g, values);
      var f2 := WithGroup(f, g, values);
      PassesIffMatches(servers[0], f);
      PassesIffMatches(servers[0], f2);
      var a := FilteredServers(servers, f2);
      var b := FilteredServers(servers, f);
      var a1 := FilteredServers(servers[1..], f2);
      var b1 := FilteredServers(servers[1..], f);
      if Passes(servers[0], f2) {
        assert Matches(servers[0], f) by {
          forall h: FilterGroup ensures GroupAdmits(GroupValues(f, h), GroupField(servers[0], h)) {
            if h != g {
              assert GroupValues(f2, h) == GroupValues(f, h);
            }
          }
        }
        assert a == [servers[0]] + a1 && b == [servers[0]] + b1;
        assert a[1..] == a1 && b[1..] == b1;
      } else if Passes(servers[0], f) {
        assert b == [servers[0]] + b1;
        assert b[1..] == b1;
        assert a == a1;
        if a != [] {
          assert IsSubsequence(a, b[1..]);
        }
      }
    }
  }

  // ===========================================================================
  // Sorting
  // ===========================================================================

  /** The comparator: strings compare case-insensitively, numbers by subtraction, and any
      other pair by comparing their `String(...)` renderings. */
  function CompareValues(a: FieldValue, b: FieldValue): (r: int)
    ensures a == b ==> r == 0
    ensures a.Str? && b.Str? ==> (r == 0 <==> Lower(a.s) == Lower(b.s))
    ensures a.Num? && b.Num? ==> (r < 0 <==> a.n < b.n) && (r == 0 <==> a.n == b.n)
  {
    if a.Str? && b.Str? then
      CompareStringsZero(Lower(a.s), Lower(b.s));
      CompareStrings(Lower(a.s), Lower(b.s))
    else if a.Num? && b.Num? then a.n - b.n
    else
      CompareStringsZero(FieldText(a), FieldText(b));
      CompareStrings(FieldText(a), FieldText(b))
  }

  /** The comparator for a column and direction: `'desc'` negates the comparison. */
  function Compare(x: Server, y: Server, col: string, dir: SortDirection): (r: int)
    ensures Field(x, col) == Field(y, col) ==> r == 0
    ensures Field(x, col).Num? && Field(y, col).Num? ==>
      (r < 0 <==> if dir == Asc then Field(x, col).n < Field(y, col).n else Field(x, col).n > Field(y, col).n)
  {
    var c := CompareValues(Field(x, col), Field(y, col));
    if dir == Asc then c else -c
  }

  /** The comparator as the function value handed to the sort. */
  function Comparator(col: string, dir: SortDirection): (Server, Server) -> int {
    (x: Server, y: Server) => Compare(x, y, col, dir)
  }

  /** For a fixed column both servers yield values of the same kind. */
  lemma SameKind(x: Server, y: Server, col: string)
    ensures Field(x, col).Str? == Field(y, col).Str?
    ensures Field(x, col).Num? == Field(y, col).Num?
  {
  }

  lemma CompareValuesAntisymmetric(a: FieldValue, b: FieldValue)
    requires a.Str? == b.Str? && a.Num? == b.Num?
    ensures CompareValues(a, b) == -CompareValues(b, a)
  {
    if a.Str? {
      CompareStringsAntisymmetric(Lower(a.s), Lower(b.s));
    } else if !a.Num? {
      CompareStringsAntisymmetric(FieldText(a), FieldText(b));
    }
  }

  lemma CompareValuesTransitive(a: FieldValue, b: FieldValue, c: FieldValue)
    requires a.Str? == b.Str? == c.Str? && a.Num? == b.Num? == c.Num?
    requires CompareValues(a, b) <= 0 && CompareValues(b, c) <= 0
    ensures CompareValues(a, c) <= 0
  {
    if a.Str? {
      CompareStringsTransitive(Lower(a.s), Lower(b.s), Lower(c.s));
    } else if !a.Num? {
      CompareStringsTransitive(FieldText(a), FieldText(b), FieldText(c));
    }
  }

  lemma CompareAntisymmetric(x: Server, y: Server, col: string, dir: SortDirection)
    ensures Compare(x, y, col, dir) == -Compare(y, x, col, dir)
  {
    SameKind(x, y, col);
    CompareValuesAntisymmetric(Field(x, col), Field(y, col));
  }

  lemma CompareTransitive(x: Server, y: Server, z: Server, col: string, dir: SortDirection)
    requires Compare(x, y, col, dir) <= 0 && Compare(y, z, col, dir) <= 0
    ensures Compare(x, z, col, dir) <= 0
  {
    SameKind(x, y, col);
    SameKind(y, z, col);
    var a, b, c := Field(x, col), Field(y, col), Field(z, col);
    if dir == Asc {
      CompareValuesTransitive(a, b, c);
    } else {
      CompareValuesAntisymmetric(a, b);
      CompareValuesAntisymmetric(b, c);
      CompareValuesAntisymmetric(a, c);
      CompareValuesTransitive(c, b, a);
    }
  }

  /** The column comparator is a total preorder in either direction, so the sort is well
      defined for every column id, including ids the record does not have. */
  lemma ComparatorIsPreorder(col: string, dir: SortDirection)
    ensures TotalPreorder(Comparator(col, dir))
  {
    var cmp := Comparator(col, dir);
    forall x, y ensures Cmp(cmp, x, y) == -Cmp(cmp, y, x) {
      CompareAntisymmetric(x, y, col, dir);
    }
    forall x, y, z | Cmp(cmp, x, y) <= 0 && Cmp(cmp, y, z) <= 0 ensures Cmp(cmp, x, z) <= 0 {
      CompareTransitive(x, y, z, col, dir);
    }
  }

  /** The store's sort is active only with a non-empty column and a direction. */
  predicate SortActive(sort: SortState) {
    sort.column.Some? && sort.column.value != "" && sort.direction.Some?
  }

  /** `sortedServers`: a permutation of the filtered list; unchanged without an active sort,
      otherwise ordered by the column comparator with ties in filtered order. */
  function SortedServers(filtered: seq<Server>, sort: SortState): (r: seq<Server>)
    ensures multiset(r) == multiset(filtered)
    ensures !SortActive(sort) ==> r == filtered
    ensures SortActive(sort) ==> SortedBy(r, Comparator(sort.column.value, sort.direction.value))
    ensures SortActive(sort) ==> forall k :: Tied(r, k, Comparator(sort.column.value, sort.direction.value))
                                           == Tied(filtered, k, Comparator(sort.column.value, sort.direction.value))
  {
    if !SortActive(sort) then filtered
    else
      var cmp := Comparator(sort.column.value, sort.direction.value);
      ComparatorIsPreorder(sort.column.value, sort.direction.value);
      SortPermutation(filtered, cmp);
      SortSorted(filtered, cmp);
      SortStableAll(filtered, cmp);
      Sort(filtered, cmp)
  }

  /** With `'desc'` the list is in non-increasing order of the ascending comparator. */
  lemma SortDescending(filtered: seq<Server>, col: string)
    requires col != ""
    ensures var r := SortedServers(filtered, SortState(Some(col), Some(Desc)));
      forall i, j :: 0 <= i < j < |r| ==> Compare(r[i], r[j], col, Asc) >= 0
  {
    var r := SortedServers(filtered, SortState(Some(col), Some(Desc)));
    forall i, j | 0 <= i < j < |r| ensures Compare(r[i], r[j], col, Asc) >= 0 {
      assert Comparator(col, Desc)(r[i], r[j]) <= 0;
    }
  }

  // ===========================================================================
  // Pages
  // ===========================================================================

  /** Index of the first row of `page`: `(page - 1) * rows`. */
  function PageStart(page: int, rows: int): (n: nat)
    requires page >= 1 && rows >= 1
    ensures n == (page - 1) * rows
  {
    (page - 1) * rows
  }

  /** `paginatedServers`: the rows from the page start up to `rows` further, as far as the
      list goes. */
  function Paginated(sorted: seq<Server>, page: int, rows: int): (r: seq<Server>)
    requires page >= 1 && rows >= 1
    ensures |r| <= rows
    ensures PageStart(page, rows) <= |sorted|
            ==> r == sorted[PageStart(page, rows)..Min(PageStart(page, rows) + rows, |sorted|)]
    ensures PageStart(page, rows) >= |sorted| ==> r == []
  {
    var start := PageStart(page, rows);
    Slice(sorted, start, start + rows)
  }

  /** `totalPages`: `Math.ceil(total / rows) || 1`, the least page count that holds every
      row, and at least one. */
  function TotalPages(total: nat, rows: int): (r: int)
    requires rows >= 1
    ensures r >= 1
    ensures total <= r * rows
    ensures r == 1 || (r - 1) * rows < total
  {
    var c := (total + rows - 1) / rows;
    if c == 0 then 1 else c
  }

  /** The rows of pages `1..n`, in order. */
  function PagesUpTo(sorted: seq<Server>, rows: int, n: nat): seq<Server>
    requires rows >= 1
  {
    if n == 0 then [] else PagesUpTo(sorted, rows, n - 1) + Paginated(sorted, n, rows)
  }

  lemma {:induction false} PagesUpToPrefix(sorted: seq<Server>, rows: int, n: nat)
    requires rows >= 1
    ensures PagesUpTo(sorted, rows, n) == sorted[..Min(n * rows, |sorted|)]
  {
    if n > 0 {
      PagesUpToPrefix(sorted, rows, n - 1);
      var a := Min((n - 1) * rows, |sorted|);
      var b := Min(n * rows, |sorted|);
      assert sorted[..b] == sorted[..a] + sorted[a..b];
    }
  }

  /** Pages `1..totalPages` together list every sorted row exactly once, in order. */
  lemma PagesCoverAll(sorted: seq<Server>, rows: int)
    requires rows >= 1
    ensures PagesUpTo(sorted, rows, TotalPages(|sorted|, rows)) == sorted
  {
    PagesUpToPrefix(sorted, rows, TotalPages(|sorted|, rows));
  }

  // ===========================================================================
  // Summaries
  // ===========================================================================

  /** `hasActiveFilters`: some criterion differs from the default. A bound set to the empty
      string counts as active here although the filter ignores it. */
  function HasActiveFilters(f: ActiveFilters): (r: bool)
    ensures r <==> f != DefaultFilters()
  {
    f.search != "" || |f.status| > 0 || |f.asset| > 0 || |f.serverType| > 0 || |f.license| > 0
    || |f.hardware| > 0 || f.dateFrom != None || f.dateTo != None
  }

  /** Without active filters the filter lists every server. */
  lemma InactiveFiltersListAll(servers: seq<Server>, f: ActiveFilters)
    requires !HasActiveFilters(f)
    ensures FilteredServers(servers, f) == servers
  {
    FilterDefaultIsIdentity(servers);
  }

  datatype BadgeCounts = BadgeCounts(status: int, asset: int, serverType: int, license: int, hardware: int, date: int)

  function Badge(b: BadgeCounts, g: FilterGroup): int {
    match g
    case StatusGroup => b.status
    case AssetGroup => b.asset
    case TypeGroup => b.serverType
    case LicenseGroup => b.license
    case HardwareGroup => b.hardware
  }

  /** `filterBadgeCounts`: the number of listed values per group, and 1 for the date when a
      bound takes part in filtering. */
  function FilterBadgeCounts(f: ActiveFilters): (r: BadgeCounts)
    ensures forall g :: Badge(r, g) == |GroupValues(f, g)|
    ensures r.date == (if BoundSet(f.dateFrom) || BoundSet(f.dateTo) then 1 else 0)
  {
    BadgeCounts(|f.status|, |f.asset|, |f.serverType|, |f.license|, |f.hardware|,
      if BoundSet(f.dateFrom) || BoundSet(f.dateTo) then 1 else 0)
  }

  /** A zero date badge means the dates do not affect the listed servers. */
  lemma DateBadgeZeroIgnoresDates(servers: seq<Server>, f: ActiveFilters)
    requires FilterBadgeCounts(f).date == 0
    ensures FilteredServers(servers, f) == FilteredServers(servers, f.(dateFrom := None, dateTo := None))
  {
    FilterUnsetBoundsIgnored(servers, f);
  }

  /** Without active filters every badge is zero. */
  lemma InactiveFiltersNoBadges(f: ActiveFilters)
    requires !HasActiveFilters(f)
    ensures forall g :: Badge(FilterBadgeCounts(f), g) == 0
    ensures FilterBadgeCounts(f).date == 0
  {
  }

  /** Every row of `page` is selected. */
  function EveryRowSelected(page: seq<Server>, selected: set<int>): (b: bool)
    ensures b <==> forall i :: 0 <= i < |page| ==> page[i].id in selected
  {
    if page == [] then true
    else
      assert forall i :: 0 < i < |page| ==> page[i] == page[1..][i - 1];
      page[0].id in selected && EveryRowSelected(page[1..], selected)
  }

  /** Some row of `page` is selected. */
  function AnyRowSelected(page: seq<Server>, selected: set<int>): (b: bool)
    ensures b <==> exists i :: 0 <= i < |page| && page[i].id in selected
  {
    if page == [] then false
    else
      assert forall i :: 0 < i < |page| ==> page[i] == page[1..][i - 1];
      assert forall i :: 0 <= i < |page| - 1 ==> page[1..][i] == page[i + 1];
      page[0].id in selected || AnyRowSelected(page[1..], selected)
  }

  datatype PageSelection = PageSelection(allSelected: bool, someSelected: bool, selectedCount: int)

  /** `pageSelectionState`: all rows of a non-empty page selected; some but not all selected;
      and the size of the whole selection. */
  function PageSelectionState(page: seq<Server>, selected: set<int>): (r: PageSelection)
    ensures r.allSelected <==> |page| > 0 && forall i :: 0 <= i < |page| ==> page[i].id in selected
    ensures r.someSelected <==> (exists i :: 0 <= i < |page| && page[i].id in selected) && !r.allSelected
    ensures r.selectedCount == |selected|
    ensures !(r.allSelected && r.someSelected)
  {
    var all := |page| > 0 && EveryRowSelected(page, selected);
    var some := AnyRowSelected(page, selected);
    PageSelection(all, some && !all, |selected|)
  }

  /** The first and last row numbers `paginationInfo` prints. */
  function PaginationBounds(total: int, page: int, rows: int): (r: (int, int))
    ensures r.1 <= total
    ensures total > 0 && page >= 1 && rows >= 1 ==> r.0 >= 1
    ensures total >= 0 && page >= 1 && rows >= 1 ==> r.1 >= 0
  {
    var start := if total > 0 then (page - 1) * rows + 1 else 0;
    var end := Min(page * rows, total);
    assert page >= 1 && rows >= 1 ==> page * rows >= 1 && (page - 1) * rows >= 0;
    (start, end)
  }

  /** `paginationInfo`: `"<start>-<end> of <total>"`. */
  function PaginationInfo(total: int, page: int, rows: int): string {
    var (start, end) := PaginationBounds(total, page, rows);
    IntToString(start) + "-" + IntToString(end) + " of " + IntToString(total)
  }

  /** On a page that holds rows, the printed range numbers exactly those rows, counting
      from 1; an empty list prints `0-0`. */
  lemma PaginationInfoMatchesPage(sorted: seq<Server>, page: int, rows: int)
    requires page >= 1 && rows >= 1
    ensures var (start, end) := PaginationBounds(|sorted|, page, rows);
      (|sorted| == 0 ==> start == 0 && end == 0)
      && ((page - 1) * rows < |sorted| ==>
            start == (page - 1) * rows + 1 && end - start + 1 == |Paginated(sorted, page, rows)|)
  {
  }

  /** The printed text reads back: it splits at the dash into the first row number and the
      rest, and the rest splits at spaces into the last row number, `of` and the total. */
  lemma PaginationInfoReadBack(total: int, page: int, rows: int)
    requires page >= 1 && rows >= 1 && total >= 0
    ensures var (start, end) := PaginationBounds(total, page, rows);
      start >= 0 && end >= 0
      && Split(PaginationInfo(total, page, rows), '-') == [NatToString(start), NatToString(end) + " of " + NatToString(total)]
      && Split(NatToString(end) + " of " + NatToString(total), ' ') == [NatToString(end), "of", NatToString(total)]
      && DigitsValue(NatToString(start)) == start
      && DigitsValue(NatToString(end)) == end
      && DigitsValue(NatToString(total)) == total
  {
    var (start, end) := PaginationBounds(total, page, rows);
    assert start >= 0 by {
      if total > 0 {
        assert start == PageStart(page, rows) + 1;
      }
    }
    var a, b, c := NatToString(start), NatToString(end), NatToString(total);
    assert PaginationInfo(total, page, rows) == a + "-" + b + " of " + c;
    DashSplit(a, b, c);
    OfSplit(b, c);
    NatToStringRoundTrip(start);
    NatToStringRoundTrip(end);
    NatToStringRoundTrip(total);
  }

  /** A string of digits holds no character other than a digit. */
  lemma DigitsExclude(s: string, ch: char)
    requires forall i :: 0 <= i < |s| ==> IsDigit(s[i])
    requires !IsDigit(ch)
    ensures ch !in s
  {
  }

  /** `"a-b of c"` splits at the dash into `a` and `"b of c"`, for digit strings. */
  lemma DashSplit(a: string, b: string, c: string)
    requires forall i :: 0 <= i < |a| ==> IsDigit(a[i])
    requires forall i :: 0 <= i < |b| ==> IsDigit(b[i])
    requires forall i :: 0 <= i < |c| ==> IsDigit(c[i])
    ensures Split(a + "-" + b + " of " + c, '-') == [a, b + " of " + c]
  {
    var rest := b + " of " + c;
    DigitsExclude(a, '-');
    DigitsExclude(b, '-');
    DigitsExclude(c, '-');
    assert '-' !in rest;
    assert a + "-" + b + " of " + c == a + ['-'] + rest;
    SplitAfterSeparator(a, '-', rest);
    SplitNoSeparator(rest, '-');
  }

  /** `"b of c"` splits at spaces into `b`, `of` and `c`, for digit strings. */
  lemma OfSplit(b: string, c: string)
    requires forall i :: 0 <= i < |b| ==> IsDigit(b[i])
    requires forall i :: 0 <= i < |c| ==> IsDigit(c[i])
    ensures Split(b + " of " + c, ' ') == [b, "of", c]
  {
    DigitsExclude(b, ' ');
    DigitsExclude(c, ' ');
    assert b + " of " + c == b + [' '] + ("of" + [' '] + c);
    SplitAfterSeparator(b, ' ', "of" + [' '] + c);
    SplitAfterSeparator("of", ' ', c);
    SplitNoSeparator(c, ' ');
  }
}

=== FILE: filter_bar.dfy ===
/** The filter bar (src/app/components/filter-bar/filter-bar.component.ts): the asset-option
    search, the highlighted filter buttons, the search box with its history and the date
    preset menu with its custom range inputs. */
module FilterBar {
  import opened Wrappers
  import opened Seqs
  import opened Text
  import opened ServerModel
  import opened FilterModel
  import opened Derivation
  import opened StorageService
  import opened StateStore

  /** The options whose lower-cased text contains `q`, in their order. */
  function OptionsContaining(options: seq<string>, q: string): (r: seq<string>)
    ensures IsSubsequence(r, options)
    ensures forall x :: x in r <==> x in options && Contains(Lower(x), q)
  {
    if options == [] then []
    else
      var rest := OptionsContaining(options[1..], q);
      assert forall x :: x in options <==> x == options[0] || x in options[1..];
      if Contains(Lower(options[0]), q) then
        assert ([options[0]] + rest)[1..] == rest;
        [options[0]] + rest
      else rest
  }

  /** Every copy of a matching option is kept and no copy of another one. */
  lemma {:induction false} OptionsContainingKeepsCopies(options: seq<string>, q: string, x: string)
    ensures Count(OptionsContaining(options, q), x) == if Contains(Lower(x), q) then Count(options, x) else 0
  {
    if options != [] {
      OptionsContainingKeepsCopies(options[1..], q, x);
      var rest := OptionsContaining(options[1..], q);
      if Contains(Lower(options[0]), q) {
        assert ([options[0]] + rest)[1..] == rest;
      }
    }
  }

  /** `filteredAssetOptions`: every option for an empty query, otherwise the options that
      contain the query, ignoring letter case, in their order. */
  function FilteredAssetOptions(options: seq<string>, query: string): (r: seq<string>)
    ensures query == "" ==> r == options
    ensures IsSubsequence(r, options)
    ensures forall x :: x in r <==> x in options && Contains(Lower(x), Lower(query))
  {
    var q := Lower(query);
    if q == "" then
      assert forall x :: Contains(Lower(x), q) by {
        forall x ensures Contains(Lower(x), q) { assert OccursAt(Lower(x), q, 0); }
      }
      IsSubsequenceRefl(options);
      options
    else OptionsContaining(options, q)
  }

  lemma {:induction false} IsSubsequenceRefl<T>(s: seq<T>)
    ensures IsSubsequence(s, s)
  {
    if s != [] {
      IsSubsequenceRefl(s[1..]);
    }
  }

  /** The query's letter case does not change the options offered. */
  lemma FilteredAssetOptionsCaseInsensitive(options: seq<string>, query: string)
    ensures forall x :: x in FilteredAssetOptions(options, Lower(query)) <==> x in FilteredAssetOptions(options, query)
  {
    LowerIdempotent(query);
  }

  const HighlightedClass: string := "border border-accent bg-accent/10"
  const PlainClass: string := "border border-border"

  /** `getFilterButtonClass(count)`: the accent border for a filter that restricts something. */
  function FilterButtonClass(count: int): (r: string)
    ensures r == HighlightedClass <==> count > 0
    ensures r == PlainClass <==> count <= 0
  {
    if count > 0 then HighlightedClass else PlainClass
  }

  /** A group's button is highlighted exactly when the group lists a value, and the date
      button exactly when a date bound takes part in filtering. */
  lemma FilterButtonHighlightsActiveGroups(f: ActiveFilters)
    ensures forall g :: FilterButtonClass(Badge(FilterBadgeCounts(f), g)) == HighlightedClass <==> GroupValues(f, g) != []
    ensures FilterButtonClass(FilterBadgeCounts(f).date) == HighlightedClass <==> BoundSet(f.dateFrom) || BoundSet(f.dateTo)
  {
  }

  /** What a date input shows for a bound: `bound || ''`. */
  function BoundInput(b: Option<string>): (s: string)
    ensures BoundSet(b) <==> s != ""
    ensures BoundSet(b) ==> s == b.value
  {
    b.GetOr("")
  }

  /** What a date input yields as a bound: `value || null`. */
  function InputBound(s: string): (b: Option<string>)
    ensures BoundSet(b) <==> s != ""
    ensures b == None <==> s == ""
    ensures BoundSet(b) ==> b.value == s
  {
    if s == "" then None else Some(s)
  }

  /** Opening the custom inputs and applying them unchanged keeps every bound that takes
      part in filtering, and turns an empty-string bound into `null`. */
  lemma CustomDateRoundTrip(b: Option<string>)
    ensures BoundSet(InputBound(BoundInput(b))) <==> BoundSet(b)
    ensures BoundSet(b) ==> InputBound(BoundInput(b)) == b
    ensures !BoundSet(b) ==> InputBound(BoundInput(b)) == None
  {
  }

  /** Hence the listed servers do not change. */
  lemma {:induction false} CustomDateRoundTripKeepsList(servers: seq<Server>, f: ActiveFilters)
    ensures FilteredServers(servers, f.(dateFrom := InputBound(BoundInput(f.dateFrom)),
                                        dateTo := InputBound(BoundInput(f.dateTo))))
         == FilteredServers(servers, f)
  {
    if servers != [] {
      CustomDateRoundTripKeepsList(servers[1..], f);
    }
  }

  class FilterBarComponent {
    const store: TableStateStore
    var customDateFrom: string
    var customDateTo: string
    var showCustomDateInputs: bool

    constructor(store: TableStateStore)
      ensures this.store == store
      ensures customDateFrom == "" && customDateTo == "" && !showCustomDateInputs
    {
      this.store := store;
      customDateFrom := "";
      customDateTo := "";
      showCustomDateInputs := false;
    }

    /** `filteredAssetOptions` over `ASSET_TYPES` and the store's asset search. */
    function AssetOptions(): (r: seq<string>)
      reads store`assetSearchQuery
      ensures store.assetSearchQuery == "" ==> r == AssetNames()
      ensures IsSubsequence(r, AssetNames())
      ensures forall x :: x in r <==> x in AssetNames() && Contains(Lower(x), Lower(store.assetSearchQuery))
    {
      FilteredAssetOptions(AssetNames(), store.assetSearchQuery)
    }

    /** Escape, or a click outside every dropdown and button, closes the open dropdown. */
    method OnDocumentClick(insideDropdownOrButton: bool)
      modifies store`uiState
      ensures store.uiState == if insideDropdownOrButton then old(store.uiState)
                               else old(store.uiState).(openDropdown := None)
    {
      if !insideDropdownOrButton {
        store.CloseAllDropdowns();
      }
    }

    method OnEscapeKey()
      modifies store`uiState
      ensures store.uiState == old(store.uiState).(openDropdown := None)
    {
      store.CloseAllDropdowns();
    }

    method OnSearchChange(value: string)
      requires store.Valid()
      modifies store`filters, store`pagination
      ensures store.filters == old(store.filters).(search := value)
      ensures store.pagination == old(store.pagination).(currentPage := 1)
      ensures store.Valid()
    {
      store.SetSearchQuery(value);
    }

    /** `onSearchSubmit`: a search that trims to something is recorded in the history and
        closes the dropdowns; a blank one changes nothing. */
    method OnSearchSubmit()
      modifies store`searchHistory, store.storage`entries, store`uiState
      ensures var q := Trim(old(store.filters.search));
        if q == "" then
          store.searchHistory == old(store.searchHistory) && store.storage.entries == old(store.storage.entries)
          && store.uiState == old(store.uiState)
        else
          store.searchHistory == AddToHistory(old(store.storage.GetSearchHistory()), q)
          && (store.storage.isBrowser ==> store.storage.GetSearchHistory() == store.searchHistory)
          && store.storage.entries == (if store.storage.isBrowser
                                       then old(store.storage.entries)[SearchHistoryKey := History(store.searchHistory)]
                                       else old(store.storage.entries))
          && store.uiState == old(store.uiState).(openDropdown := None)
    {
      var search := store.filters.search;
      var query := Trim(search);
      if query != "" {
        TrimIdempotent(search);
        RecordSearch(query);
      }
    }

    /** `addToSearchHistory(query)` then `closeAllDropdowns()`, for a query that trims to
        something: the trimmed query is recorded and the dropdowns close. */
    method RecordSearch(query: string)
      requires Trim(query) != ""
      modifies store`searchHistory, store.storage`entries, store`uiState
      ensures store.searchHistory == AddToHistory(old(store.storage.GetSearchHistory()), Trim(query))
      ensures store.storage.isBrowser ==> store.storage.GetSearchHistory() == store.searchHistory
      ensures store.storage.entries == if store.storage.isBrowser
                                       then old(store.storage.entries)[SearchHistoryKey := History(store.searchHistory)]
                                       else old(store.storage.entries)
      ensures store.uiState == old(store.uiState).(openDropdown := None)
    {
      store.AddToSearchHistory(query);
      ghost var recorded := store.searchHistory;
      ghost var stored := store.storage.entries;
      store.CloseAllDropdowns();
      assert store.searchHistory == recorded && store.storage.entries == stored;
    }

    method SelectSearchHistory(term: string)
      requires store.Valid()
      modifies store`filters, store`pagination, store`uiState
      ensures store.filters == old(store.filters).(search := term)
      ensures store.pagination == old(store.pagination).(currentPage := 1)
      ensures store.uiState == old(store.uiState).(openDropdown := None)
      ensures store.Valid()
    {
      store.SetSearchQuery(term);
      store.CloseAllDropdowns();
    }

    /** `onDatePresetChange`: 'custom' opens the inputs pre-filled with the current bounds and
        changes no filter; any other preset hides them, applies the preset and closes the
        dropdowns. `presetStart` and `today` are the clock's days, as for the store. */
    method OnDatePresetChange(preset: DatePreset, presetStart: string, today: string)
      requires store.Valid()
      modifies this`showCustomDateInputs, this`customDateFrom, this`customDateTo
      modifies store`filters, store`pagination, store`uiState
      ensures showCustomDateInputs <==> preset == Custom
      ensures preset == Custom ==>
        customDateFrom == BoundInput(store.filters.dateFrom) && customDateTo == BoundInput(store.filters.dateTo)
        && store.filters == old(store.filters) && store.pagination == old(store.pagination)
        && store.uiState == old(store.uiState)
      ensures preset != Custom ==>
        customDateFrom == old(customDateFrom) && customDateTo == old(customDateTo)
        && store.filters == (if preset == All then old(store.filters).(dateFrom := None, dateTo := None)
                             else old(store.filters).(dateFrom := Some(presetStart), dateTo := Some(today)))
        && store.pagination == old(store.pagination).(currentPage := 1)
        && store.uiState == old(store.uiState).(openDropdown := None)
      ensures store.Valid()
    {
      if preset == Custom {
        showCustomDateInputs := true;
        customDateFrom := BoundInput(store.filters.dateFrom);
        customDateTo := BoundInput(store.filters.dateTo);
      } else {
        showCustomDateInputs := false;
        store.SetDatePreset(preset, presetStart, today);
        store.CloseAllDropdowns();
      }
    }

    /** `applyCustomDate`: empty inputs become `null` bounds. */
    method ApplyCustomDate()
      requires store.Valid()
      modifies store`filters, store`pagination, store`uiState
      ensures store.filters == old(store.filters).(dateFrom := InputBound(customDateFrom), dateTo := InputBound(customDateTo))
      ensures store.pagination == old(store.pagination).(currentPage := 1)
      ensures store.uiState == old(store.uiState).(openDropdown := None)
      ensures store.Valid()
    {
      store.SetDateRange(InputBound(customDateFrom), InputBound(customDateTo));
      store.CloseAllDropdowns();
    }
  }
}

=== FILE: filter_model.dfy ===
/** The active filter record, the date presets and the "more filters" visibility record
    (src/app/models/filter.model.ts). */
module FilterModel {
  import opened Wrappers

  /** `ActiveFilters`: a search string, five multi-select groups (an empty list does not
      restrict) and two optional ISO date bounds. The source's `type` group is `serverType`
      here, `type` being a reserved word. */
  datatype ActiveFilters = ActiveFilters(
    search: string,
    status: seq<string>,
    asset: seq<string>,
    serverType: seq<string>,
    license: seq<string>,
    hardware: seq<string>,
    dateFrom: Option<string>,
    dateTo: Option<string>)

  /** The five multi-select groups, the `'status' | 'asset' | 'type' | 'license' | 'hardware'`
      key of the store's group mutators. */
  datatype FilterGroup = StatusGroup | AssetGroup | TypeGroup | LicenseGroup | HardwareGroup

  /** `f[group]`. */
  function GroupValues(f: ActiveFilters, g: FilterGroup): seq<string> {
    match g
    case StatusGroup => f.status
    case AssetGroup => f.asset
    case TypeGroup => f.serverType
    case LicenseGroup => f.license
    case HardwareGroup => f.hardware
  }

  /** `{ ...f, [group]: values }`. */
  function WithGroup(f: ActiveFilters, g: FilterGroup, values: seq<string>): (r: ActiveFilters)
    ensures GroupValues(r, g) == values
    ensures forall h :: h != g ==> GroupValues(r, h) == GroupValues(f, h)
    ensures r.search == f.search && r.dateFrom == f.dateFrom && r.dateTo == f.dateTo
  {
    match g
    case StatusGroup => f.(status := values)
    case AssetGroup => f.(asset := values)
    case TypeGroup => f.(serverType := values)
    case LicenseGroup => f.(license := values)
    case HardwareGroup => f.(hardware := values)
  }

  /** `DEFAULT_FILTERS`: nothing restricts. */
  function DefaultFilters(): (r: ActiveFilters)
    ensures r.search == "" && r.dateFrom.None? && r.dateTo.None?
    ensures forall g :: GroupValues(r, g) == []
  {
    ActiveFilters("", [], [], [], [], [], None, None)
  }

  datatype DatePreset = All | Today | Week | Month | Year | Custom

  /** Position of each preset in the declaration order of the union. */
  function PresetIndex(p: DatePreset): nat {
    match p
    case All => 0
    case Today => 1
    case Week => 2
    case Month => 3
    case Year => 4
    case Custom => 5
  }

  datatype DatePresetOption = DatePresetOption(value: DatePreset, caption: string)

  /** `DATE_PRESETS`: one option per preset, in declaration order, with distinct labels. */
  function DatePresets(): (r: seq<DatePresetOption>)
    ensures |r| == 6
    ensures forall p: DatePreset :: PresetIndex(p) < |r| && r[PresetIndex(p)].value == p
    ensures forall i, j :: 0 <= i < j < |r| ==> r[i].caption != r[j].caption
  {
    [ DatePresetOption(All, "All time"),
      DatePresetOption(Today, "Last 24h"),
      DatePresetOption(Week, "Last 7 days"),
      DatePresetOption(Month, "Last 30 days"),
      DatePresetOption(Year, "Last year"),
      DatePresetOption(Custom, "Custom range") ]
  }

  /** `FilterVisibility`: which optional filter buttons are shown. */
  datatype FilterVisibility = FilterVisibility(serverType: bool, license: bool, date: bool)

  /** `keyof FilterVisibility`. */
  datatype VisibilityKey = TypeKey | LicenseKey | DateKey

  function Visible(v: FilterVisibility, k: VisibilityKey): bool {
    match k
    case TypeKey => v.serverType
    case LicenseKey => v.license
    case DateKey => v.date
  }

  /** `{ ...v, [key]: visible }`. */
  function WithVisible(v: FilterVisibility, k: VisibilityKey, visible: bool): (r: FilterVisibility)
    ensures Visible(r, k) == visible
    ensures forall j :: j != k ==> Visible(r, j) == Visible(v, j)
  {
    match k
    case TypeKey => v.(serverType := visible)
    case LicenseKey => v.(license := visible)
    case DateKey => v.(date := visible)
  }

  /** `DEFAULT_FILTER_VISIBILITY`: every optional filter shown. */
  function DefaultFilterVisibility(): (r: FilterVisibility)
    ensures forall k :: Visible(r, k)
  {
    FilterVisibility(true, true, true)
  }
}

=== FILE: query_state.dfy ===
/** The value-level transitions of the store's query state (src/app/store/table-state.store.ts):
    the update each mutator applies to its slice of state, as a function of the old slice. */
module QueryState {
  import opened Wrappers
  import opened Seqs
  import opened TableModel

  // ---------------------------------------------------------------------------
  // Sort
  // ---------------------------------------------------------------------------

  /** `toggleSort(columnId)`: on the sorted column 'asc' goes to 'desc' and 'desc' to no sort;
      anything else starts an ascending sort on the column. */
  function ToggleSort(s: SortState, col: string): (r: SortState)
    ensures r == DefaultSort() || r.column == Some(col)
    ensures s.column != Some(col) ==> r == SortState(Some(col), Some(Asc))
    ensures r == DefaultSort() <==> s == SortState(Some(col), Some(Desc))
    ensures s.column == Some(col) && s.direction == Some(Asc) ==> r == SortState(Some(col), Some(Desc))
    ensures s.column == Some(col) && s.direction == None ==> r == SortState(Some(col), Some(Asc))
  {
    if s.column == Some(col) && s.direction == Some(Asc) then SortState(Some(col), Some(Desc))
    else if s.column == Some(col) && s.direction == Some(Desc) then DefaultSort()
    else SortState(Some(col), Some(Asc))
  }

  /** From no sort, three toggles of one column pass through ascending and descending and
      come back to no sort. */
  lemma ToggleSortCycle(col: string)
    ensures ToggleSort(DefaultSort(), col) == SortState(Some(col), Some(Asc))
    ensures ToggleSort(SortState(Some(col), Some(Asc)), col) == SortState(Some(col), Some(Desc))
    ensures ToggleSort(SortState(Some(col), Some(Desc)), col) == DefaultSort()
  {
  }

  /** After one toggle the state is on the three-state cycle: three more toggles of the same
      column return to it. */
  lemma ToggleSortPeriod(s: SortState, col: string)
    ensures var t := ToggleSort(s, col);
      ToggleSort(ToggleSort(ToggleSort(t, col), col), col) == t
  {
    ToggleSortCycle(col);
  }

  // ---------------------------------------------------------------------------
  // Pages
  // ---------------------------------------------------------------------------

  /** `Math.max(1, Math.min(page, totalPages))`. */
  function ClampPage(page: int, totalPages: int): (r: int)
    ensures r >= 1
    ensures totalPages >= 1 ==> r <= totalPages
    ensures 1 <= page <= totalPages ==> r == page
    ensures page < 1 ==> r == 1
    ensures page > totalPages ==> r == Max(1, totalPages)
  {
    Max(1, Min(page, totalPages))
  }

  /** Clamping twice is clamping once. */
  lemma ClampPageIdempotent(page: int, totalPages: int)
    requires totalPages >= 1
    ensures ClampPage(ClampPage(page, totalPages), totalPages) == ClampPage(page, totalPages)
  {
  }

  // ---------------------------------------------------------------------------
  // Multi-select values
  // ---------------------------------------------------------------------------

  /** `toggleFilterValue`'s update of one group: remove every copy of a listed value, append an
      unlisted one. */
  function ToggleValue(current: seq<string>, v: string): (r: seq<string>)
    ensures v in r <==> v !in current
    ensures forall w :: w != v ==> (w in r <==> w in current)
    ensures v !in current ==> r == current + [v]
    ensures IsSubsequence(r, current) || r == current + [v]
  {
    if v in current then RemoveAll(current, v) else current + [v]
  }

  /** Toggling a value that was not listed, twice, restores the group. */
  lemma ToggleValueTwice(current: seq<string>, v: string)
    requires v !in current
    ensures ToggleValue(ToggleValue(current, v), v) == current
  {
    RemoveAllAppend(current, v);
  }

  lemma {:induction false} RemoveAllAppend(s: seq<string>, v: string)
    requires v !in s
    ensures RemoveAll(s + [v], v) == s
  {
    if s != [] {
      assert (s + [v])[1..] == s[1..] + [v];
      RemoveAllAppend(s[1..], v);
      assert [s[0]] + s[1..] == s;
    } else {
      assert [v][1..] == [];
    }
  }

  /** Toggling keeps a group free of duplicates. */
  lemma ToggleValueKeepsDistinct(current: seq<string>, v: string)
    requires Distinct(current)
    ensures Distinct(ToggleValue(current, v))
  {
    if v in current {
      RemoveAllKeepsDistinct(current, v);
    }
  }

  // ---------------------------------------------------------------------------
  // Column reordering
  // ---------------------------------------------------------------------------

  /** Where `Array.prototype.splice(i, ...)` starts on an array of length `len`: a negative
      index counts from the end, and the result is clamped to `0..len`. */
  function SpliceIndex(i: int, len: nat): (r: nat)
    ensures r <= len
    ensures 0 <= i <= len ==> r == i
  {
    if i < 0 then Max(len + i, 0) else Min(i, len)
  }

  /** `s.splice(i, 1)` on a valid index: the list without position `i`. */
  function RemoveAt<T>(s: seq<T>, i: nat): (r: seq<T>)
    requires i < |s|
    ensures |r| == |s| - 1
    ensures forall k :: 0 <= k < i ==> r[k] == s[k]
    ensures forall k :: i <= k < |r| ==> r[k] == s[k + 1]
  {
    s[..i] + s[i + 1..]
  }

  /** `s.splice(i, 0, x)`: `x` placed at position `i`. */
  function InsertAt<T>(s: seq<T>, i: nat, x: T): (r: seq<T>)
    requires i <= |s|
    ensures |r| == |s| + 1 && r[i] == x
    ensures forall k :: 0 <= k < i ==> r[k] == s[k]
    ensures forall k :: i < k < |r| ==> r[k] == s[k - 1]
  {
    s[..i] + [x] + s[i..]
  }

  lemma RemoveInsert<T>(s: seq<T>, i: nat, x: T)
    requires i <= |s|
    ensures RemoveAt(InsertAt(s, i, x), i) == s
  {
  }

  lemma InsertRemove<T>(s: seq<T>, i: nat)
    requires i < |s|
    ensures InsertAt(RemoveAt(s, i), i, s[i]) == s
  {
  }

  lemma InsertRemoveMultiset<T>(s: seq<T>, i: nat, j: nat)
    requires i < |s| && j < |s|
    ensures multiset(InsertAt(RemoveAt(s, i), j, s[i])) == multiset(s)
  {
    var rest := RemoveAt(s, i);
    var x := s[i];
    calc {
      multiset(s);
      { assert s == s[..i] + [x] + s[i + 1..]; }
      multiset(s[..i]) + multiset{x} + multiset(s[i + 1..]);
      { assert rest == s[..i] + s[i + 1..]; }
      multiset(rest) + multiset{x};
      { assert rest == rest[..j] + rest[j..]; }
      multiset(rest[..j]) + multiset{x} + multiset(rest[j..]);
      { assert InsertAt(rest, j, x) == rest[..j] + [x] + rest[j..]; }
      multiset(InsertAt(rest, j, x));
    }
  }

  /** `reorderColumns(fromIndex, toIndex)`: the column removed at `fromIndex` is inserted at
      `toIndex` of the shortened list; the others keep their relative order. The removal
      must find a column (`fromIndex` addresses a position after splice's normalisation). */
  function Reorder<T>(cols: seq<T>, fromIndex: int, toIndex: int): (r: seq<T>)
    requires SpliceIndex(fromIndex, |cols|) < |cols|
    ensures |r| == |cols|
    ensures multiset(r) == multiset(cols)
    ensures r[SpliceIndex(toIndex, |cols| - 1)] == cols[SpliceIndex(fromIndex, |cols|)]
    ensures RemoveAt(r, SpliceIndex(toIndex, |cols| - 1)) == RemoveAt(cols, SpliceIndex(fromIndex, |cols|))
  {
    var f := SpliceIndex(fromIndex, |cols|);
    var rest := RemoveAt(cols, f);
    var t := SpliceIndex(toIndex, |rest|);
    InsertRemoveMultiset(cols, f, t);
    RemoveInsert(rest, t, cols[f]);
    InsertAt(rest, t, cols[f])
  }

  /** Moving a column and moving it back restores the order. */
  lemma ReorderInverse<T>(cols: seq<T>, i: int, j: int)
    requires 0 <= i < |cols| && 0 <= j < |cols|
    ensures Reorder(Reorder(cols, i, j), j, i) == cols
  {
    var r := Reorder(cols, i, j);
    assert SpliceIndex(j, |cols| - 1) == j;
    InsertRemove(cols, i);
  }

  /** Moving a column onto its own position changes nothing. */
  lemma ReorderSamePlace<T>(cols: seq<T>, i: int)
    requires 0 <= i < |cols|
    ensures Reorder(cols, i, i) == cols
  {
    InsertRemove(cols, i);
  }

  /** `columns.findIndex(c => c.id === id)`. */
  function ColumnIndex(cols: seq<ColumnDefinition>, id: string): (i: int)
    ensures -1 <= i < |cols|
    ensures i == -1 <==> forall k :: 0 <= k < |cols| ==> cols[k].id != id
    ensures i >= 0 ==> cols[i].id == id && forall k :: 0 <= k < i ==> cols[k].id != id
  {
    if cols == [] then -1
    else if cols[0].id == id then 0
    else
      var j := ColumnIndex(cols[1..], id);
      assert forall k :: 0 < k < |cols| ==> cols[k] == cols[1..][k - 1];
      if j == -1 then -1 else j + 1
  }

  /** `reorderColumnById(fromId, toId)`: when both ids are present, the dragged column takes
      the target's position; otherwise nothing changes. */
  function ReorderById(cols: seq<ColumnDefinition>, fromId: string, toId: string): (r: seq<ColumnDefinition>)
    ensures |r| == |cols| && multiset(r) == multiset(cols)
    ensures ColumnIndex(cols, fromId) == -1 || ColumnIndex(cols, toId) == -1 ==> r == cols
    ensures ColumnIndex(cols, fromId) >= 0 && ColumnIndex(cols, toId) >= 0 ==>
      r[ColumnIndex(cols, toId)].id == fromId
    ensures ColumnIndex(cols, fromId) >= 0 && ColumnIndex(cols, toId) >= 0 ==>
      RemoveAt(r, ColumnIndex(cols, toId)) == RemoveAt(cols, ColumnIndex(cols, fromId))
  {
    var f := ColumnIndex(cols, fromId);
    var t := ColumnIndex(cols, toId);
    if f != -1 && t != -1 then
      assert SpliceIndex(t, |cols| - 1) == t;
      Reorder(cols, f, t)
    else cols
  }
}

=== FILE: selection.dfy ===
/** The selection algebra of the store (src/app/store/table-state.store.ts): the selection is
    a set of server ids, and each selection action is the old set with ids added or removed.
    The store's methods perform these updates step by step and are proved against the
    functions here. */
module Selection {
  import opened Wrappers
  import opened Seqs
  import opened ServerModel
  import opened Derivation

  /** `servers.findIndex(s => s.id === id)`: the first position holding `id`, or -1. */
  function FindIndex(servers: seq<Server>, id: int): (i: int)
    ensures -1 <= i < |servers|
    ensures i == -1 <==> forall k :: 0 <= k < |servers| ==> servers[k].id != id
    ensures i >= 0 ==> servers[i].id == id && forall k :: 0 <= k < i ==> servers[k].id != id
  {
    if servers == [] then -1
    else if servers[0].id == id then 0
    else
      var j := FindIndex(servers[1..], id);
      assert forall k :: 0 < k < |servers| ==> servers[k] == servers[1..][k - 1];
      if j == -1 then -1 else j + 1
  }

  /** The ids at positions `lo..hi` inclusive. */
  function IdsBetween(servers: seq<Server>, lo: int, hi: int): set<int>
    requires 0 <= lo && hi < |servers|
  {
    set k | lo <= k <= hi :: servers[k].id
  }

  /** `selectRange(fromId, toId)` as a value: when both ids are listed, the old selection plus
      the ids listed between their first positions, inclusive; otherwise the old selection. */
  function RangeSelection(selected: set<int>, servers: seq<Server>, fromId: int, toId: int): (r: set<int>)
    ensures selected <= r
    ensures FindIndex(servers, fromId) == -1 || FindIndex(servers, toId) == -1 ==> r == selected
    ensures FindIndex(servers, fromId) >= 0 && FindIndex(servers, toId) >= 0 ==>
      var lo := Min(FindIndex(servers, fromId), FindIndex(servers, toId));
      var hi := Max(FindIndex(servers, fromId), FindIndex(servers, toId));
      (forall k :: lo <= k <= hi ==> servers[k].id in r)
      && (forall id :: id in r && id !in selected ==> exists k :: lo <= k <= hi && servers[k].id == id)
  {
    var a := FindIndex(servers, fromId);
    var b := FindIndex(servers, toId);
    if a == -1 || b == -1 then selected
    else selected + IdsBetween(servers, Min(a, b), Max(a, b))
  }

  /** The range does not depend on which end was clicked first. */
  lemma RangeSelectionSymmetric(selected: set<int>, servers: seq<Server>, a: int, b: int)
    ensures RangeSelection(selected, servers, a, b) == RangeSelection(selected, servers, b, a)
  {
    var i, j := FindIndex(servers, a), FindIndex(servers, b);
    if i >= 0 && j >= 0 {
      assert Min(i, j) == Min(j, i) && Max(i, j) == Max(j, i);
    }
  }

  /** Both ends of a range over listed ids end up selected. */
  lemma RangeSelectionHasEnds(selected: set<int>, servers: seq<Server>, a: int, b: int)
    requires FindIndex(servers, a) >= 0 && FindIndex(servers, b) >= 0
    ensures a in RangeSelection(selected, servers, a, b) && b in RangeSelection(selected, servers, a, b)
  {
    var i, j := FindIndex(servers, a), FindIndex(servers, b);
    assert Min(i, j) <= i <= Max(i, j) && Min(i, j) <= j <= Max(i, j);
  }

  /** The loop of `selectRange`: adds the ids at positions `start..end`, one at a time. */
  method AddIdsBetween(ids: set<int>, list: seq<Server>, start: int, end: int) returns (r: set<int>)
    requires 0 <= start <= end < |list|
    ensures r == ids + IdsBetween(list, start, end)
  {
    r := ids;
    for i := start to end + 1
      invariant r == ids + (set k | start <= k < i :: list[k].id)
    {
      r := r + {list[i].id};
    }
  }

  /** `toggleSelection(id)`: `id` flips, every other id is kept. */
  function ToggleId(selected: set<int>, id: int): (r: set<int>)
    ensures id in r <==> id !in selected
    ensures r - {id} == selected - {id}
  {
    if id in selected then selected - {id} else selected + {id}
  }

  /** Toggling the same id twice restores the selection. */
  lemma ToggleIdInvolution(selected: set<int>, id: int)
    ensures ToggleId(ToggleId(selected, id), id) == selected
  {
  }

  /** The ids of the rows of a page. */
  function PageIds(page: seq<Server>): (r: set<int>)
    ensures forall i :: 0 <= i < |page| ==> page[i].id in r
    ensures forall id :: id in r ==> exists i :: 0 <= i < |page| && page[i].id == id
  {
    set s | s in page :: s.id
  }

  /** The `forEach` of `selectAllOnPage`: adds the page's ids one row at a time. */
  method AddPageIds(ids: set<int>, page: seq<Server>) returns (r: set<int>)
    ensures r == ids + PageIds(page)
  {
    r := ids;
    for i := 0 to |page|
      invariant r == ids + (set k | 0 <= k < i :: page[k].id)
    {
      r := r + {page[i].id};
    }
    assert (set k | 0 <= k < |page| :: page[k].id) == PageIds(page);
  }

  /** The `forEach` of `deselectAllOnPage`: removes the page's ids one row at a time. */
  method RemovePageIds(ids: set<int>, page: seq<Server>) returns (r: set<int>)
    ensures r == ids - PageIds(page)
  {
    r := ids;
    for i := 0 to |page|
      invariant r == ids - (set k | 0 <= k < i :: page[k].id)
    {
      r := r - {page[i].id};
    }
    assert (set k | 0 <= k < |page| :: page[k].id) == PageIds(page);
  }

  /** After `selectAllOnPage` every row of a non-empty page is selected. */
  lemma SelectPageSelectsAll(page: seq<Server>, selected: set<int>)
    requires page != []
    ensures PageSelectionState(page, selected + PageIds(page)).allSelected
  {
  }

  /** After `deselectAllOnPage` no row of the page is selected. */
  lemma DeselectPageClearsPage(page: seq<Server>, selected: set<int>)
    ensures var st := PageSelectionState(page, selected - PageIds(page));
      !st.allSelected && !st.someSelected
  {
    var st := PageSelectionState(page, selected - PageIds(page));
    if page != [] {
      assert page[0].id !in selected - PageIds(page);
    }
    assert !st.allSelected;
  }

  /** `toggleSelectAll` on a page: deselect the page when it is all selected, else select it. */
  function ToggleAll(page: seq<Server>, selected: set<int>): (r: set<int>)
    ensures forall id :: id !in PageIds(page) ==> (id in r <==> id in selected)
  {
    if PageSelectionState(page, selected).allSelected then selected - PageIds(page)
    else selected + PageIds(page)
  }

  /** On a non-empty page `toggleSelectAll` flips `allSelected`. */
  lemma ToggleAllFlips(page: seq<Server>, selected: set<int>)
    requires page != []
    ensures PageSelectionState(page, ToggleAll(page, selected)).allSelected
            == !PageSelectionState(page, selected).allSelected
  {
    if PageSelectionState(page, selected).allSelected {
      DeselectPageClearsPage(page, selected);
    } else {
      SelectPageSelectsAll(page, selected);
    }
  }

  /** From a fully selected page, toggling twice gives the selection back. */
  lemma ToggleAllTwiceFromAll(page: seq<Server>, selected: set<int>)
    requires page != [] && PageSelectionState(page, selected).allSelected
    ensures ToggleAll(page, ToggleAll(page, selected)) == selected
  {
    ToggleAllFlips(page, selected);
    assert PageIds(page) <= selected;
  }

  /** `getSelectedServers`: the selected servers, in store order. */
  function SelectedServers(servers: seq<Server>, selected: set<int>): (r: seq<Server>)
    ensures IsSubsequence(r, servers)
    ensures forall x :: x in r <==> x in servers && x.id in selected
  {
    if servers == [] then []
    else if servers[0].id in selected then [servers[0]] + SelectedServers(servers[1..], selected)
    else SelectedServers(servers[1..], selected)
  }

  /** The ids of a list of servers. */
  function IdSet(servers: seq<Server>): set<int> {
    set s | s in servers :: s.id
  }

  lemma IdSetCons(servers: seq<Server>)
    requires servers != []
    ensures IdSet(servers) == {servers[0].id} + IdSet(servers[1..])
  {
    assert servers == [servers[0]] + servers[1..];
  }

  /** With unique ids the tail is unique too, and misses the head's id. */
  lemma UniqueTail(servers: seq<Server>)
    requires servers != [] && UniqueIds(servers)
    ensures UniqueIds(servers[1..])
    ensures servers[0].id !in IdSet(servers[1..])
  {
    var tail := servers[1..];
    forall i, j | 0 <= i < j < |tail| ensures tail[i].id != tail[j].id {
      assert tail[i] == servers[i + 1] && tail[j] == servers[j + 1];
    }
    forall s | s in tail ensures s.id != servers[0].id {
      var j :| 0 <= j < |tail| && tail[j] == s;
      assert servers[j + 1] == s;
    }
  }

  /** With unique ids, the listed selected ids are the tail's plus, when selected, the
      head's id, which the tail does not list. */
  lemma SelectedIdsCons(servers: seq<Server>, selected: set<int>)
    requires servers != [] && UniqueIds(servers)
    ensures var x := selected * IdSet(servers[1..]);
      servers[0].id !in x
      && selected * IdSet(servers) == if servers[0].id in selected then x + {servers[0].id} else x
  {
    UniqueTail(servers);
    IdSetCons(servers);
  }

  /** With unique ids the selected servers number exactly the selected ids that are listed. */
  lemma {:induction false} SelectedServersCount(servers: seq<Server>, selected: set<int>)
    requires UniqueIds(servers)
    ensures |SelectedServers(servers, selected)| == |selected * IdSet(servers)|
  {
    if servers == [] {
      assert selected * IdSet(servers) == {};
    } else {
      SelectedIdsCons(servers, selected);
      UniqueTail(servers);
      SelectedServersCount(servers[1..], selected);
    }
  }

  /** `getServersByIds(ids)`: the servers whose id is in the list, in store order; that is,
      the selected-server filter over the set of those ids. */
  function ServersByIds(servers: seq<Server>, ids: seq<int>): (r: seq<Server>)
    ensures IsSubsequence(r, servers)
    ensures forall x :: x in r <==> x in servers && x.id in ids
  {
    SelectedServers(servers, set i | i in ids)
  }

  /** Every copy of a selected server is kept and no copy of another one: the selection
      neither drops nor duplicates rows. */
  lemma {:induction false} SelectedServersKeepsCopies(servers: seq<Server>, selected: set<int>, x: Server)
    ensures Count(SelectedServers(servers, selected), x) == if x.id in selected then Count(servers, x) else 0
  {
    if servers != [] {
      SelectedServersKeepsCopies(servers[1..], selected, x);
      var rest := SelectedServers(servers[1..], selected);
      if servers[0].id in selected {
        assert ([servers[0]] + rest)[1..] == rest;
      }
    }
  }

  /** `getServerById(id)`: the first server with that id, if any. */
  function ServerById(servers: seq<Server>, id: int): (r: Option<Server>)
    ensures r.None? <==> FindIndex(servers, id) == -1
    ensures r.Some? ==> r.value == servers[FindIndex(servers, id)]
  {
    if servers == [] then None
    else if servers[0].id == id then Some(servers[0])
    else ServerById(servers[1..], id)
  }
}

=== FILE: seqs.dfy ===
/** Sequence vocabulary shared by the model: distinctness, order-preserving subsequences and
    the `Array.prototype.filter(v => v !== x)` removal the source uses in two places. */
module Seqs {

  function Min(a: int, b: int): int { if a <= b then a else b }

  function Max(a: int, b: int): int { if a >= b then a else b }

  /** `s.slice(start, end)` with JavaScript's treatment of negative and out-of-range ends. */
  function Slice<T>(s: seq<T>, start: int, end: int): (r: seq<T>)
    ensures 0 <= start <= end ==> r == s[Min(start, |s|)..Min(end, |s|)]
    ensures |r| <= |s|
  {
    var from := if start < 0 then Max(|s| + start, 0) else Min(start, |s|);
    var to := if end < 0 then Max(|s| + end, 0) else Min(end, |s|);
    if to <= from then [] else s[from..to]
  }

  /** No element occurs twice. */
  ghost predicate Distinct<T>(s: seq<T>) {
    forall i, j :: 0 <= i < j < |s| ==> s[i] != s[j]
  }

  /** `a` is `b` with some elements dropped and the rest kept in order. */
  ghost predicate IsSubsequence<T>(a: seq<T>, b: seq<T>)
    decreases |b|
  {
    a == [] || (b != [] && ((a[0] == b[0] && IsSubsequence(a[1..], b[1..])) || IsSubsequence(a, b[1..])))
  }

  lemma {:induction false} SubsequenceMembers<T>(a: seq<T>, b: seq<T>)
    requires IsSubsequence(a, b)
    ensures forall x :: x in a ==> x in b
    ensures |a| <= |b|
    decreases |b|
  {
    if a != [] {
      if a[0] == b[0] && IsSubsequence(a[1..], b[1..]) {
        SubsequenceMembers(a[1..], b[1..]);
        forall x | x in a ensures x in b {
          if x != a[0] {
            assert x in a[1..];
          }
        }
      } else {
        SubsequenceMembers(a, b[1..]);
      }
    }
  }

  /** Number of occurrences of `x` in `s`. */
  function Count<T(==)>(s: seq<T>, x: T): nat {
    if s == [] then 0 else (if s[0] == x then 1 else 0) + Count(s[1..], x)
  }

  lemma {:induction false} CountZero<T>(s: seq<T>, x: T)
    ensures Count(s, x) == 0 <==> x !in s
  {
    if s != [] {
      CountZero(s[1..], x);
      assert x in s <==> s[0] == x || x in s[1..];
    }
  }

  /** `s.filter(v => v !== x)`: every occurrence of `x` removed, the rest in order. */
  function RemoveAll<T(==,!new)>(s: seq<T>, x: T): (r: seq<T>)
    ensures x !in r
    ensures forall y :: y in r <==> y in s && y != x
    ensures IsSubsequence(r, s)
    ensures x !in s ==> r == s
  {
    if s == [] then []
    else if s[0] == x then RemoveAll(s[1..], x)
    else [s[0]] + RemoveAll(s[1..], x)
  }

  lemma {:induction false} RemoveAllKeepsDistinct<T(!new)>(s: seq<T>, x: T)
    requires Distinct(s)
    ensures Distinct(RemoveAll(s, x))
  {
    if s != [] {
      RemoveAllKeepsDistinct(s[1..], x);
      if s[0] != x {
        var rest := RemoveAll(s[1..], x);
        assert s[0] !in s[1..];
        assert s[0] !in rest;
        var r := [s[0]] + rest;
        forall i, j | 0 <= i < j < |r| ensures r[i] != r[j] {
          if i == 0 {
            assert r[j] == rest[j - 1];
          }
        }
      }
    }
  }

  /** A set without members is the empty set. */
  lemma NoMemberEmpty<T>(s: set<T>)
    requires forall x :: x !in s
    ensures s == {}
  {
    var e: set<T> := {};
    assert forall x :: x in s <==> x in e;
  }

  /** `Array.from(set)`: the members of a set, each once. The order JavaScript gives them
      (insertion order) is not modelled. */
  method SetToSeq(s: set<int>) returns (r: seq<int>)
    ensures |r| == |s|
    ensures forall x :: x in r <==> x in s
    ensures forall i, j :: 0 <= i < j < |r| ==> r[i] != r[j]
  {
    r := [];
    var rest := s;
    while rest != {}
      invariant rest <= s
      invariant forall x :: x in r <==> x in s && x !in rest
      invariant |r| + |rest| == |s|
      invariant forall i, j :: 0 <= i < j < |r| ==> r[i] != r[j]
      decreases |rest|
    {
      if forall x :: x !in rest {
        NoMemberEmpty(rest);
        assert false;
      }
      var x :| x in rest;
      r := r + [x];
      rest := rest - {x};
    }
  }
}

=== FILE: server_model.dfy ===
/** The `Server` record, its category enumerations and the status colour table
    (src/app/models/server.model.ts). */
module ServerModel {
  import opened Seqs
  import opened Text

  datatype ServerStatus = Running | Stopped | Maintenance | Error | Pending
  datatype ServerType = Apache | Nginx | IIS | NodeJs | Tomcat | CustomType
  datatype LicenseType = Enterprise | Standard | Community | Trial | Professional
  datatype HardwareType = Physical | Virtual | Cloud | Container | Hybrid
  datatype AssetType = Production | Development | Staging | Testing | QA | Integration | Demo | Backup

  /** The string literal each union member stands for. */
  function StatusName(s: ServerStatus): string {
    match s
    case Running => "Running"
    case Stopped => "Stopped"
    case Maintenance => "Maintenance"
    case Error => "Error"
    case Pending => "Pending"
  }

  function ServerTypeName(t: ServerType): string {
    match t
    case Apache => "Apache"
    case Nginx => "Nginx"
    case IIS => "IIS"
    case NodeJs => "Node.js"
    case Tomcat => "Tomcat"
    case CustomType => "Custom"
  }

  function LicenseName(l: LicenseType): string {
    match l
    case Enterprise => "Enterprise"
    case Standard => "Standard"
    case Community => "Community"
    case Trial => "Trial"
    case Professional => "Professional"
  }

  function HardwareName(h: HardwareType): string {
    match h
    case Physical => "Physical"
    case Virtual => "Virtual"
    case Cloud => "Cloud"
    case Container => "Container"
    case Hybrid => "Hybrid"
  }

  function AssetName(a: AssetType): string {
    match a
    case Production => "Production"
    case Development => "Development"
    case Staging => "Staging"
    case Testing => "Testing"
    case QA => "QA"
    case Integration => "Integration"
    case Demo => "Demo"
    case Backup => "Backup"
  }

  /** A managed server. `assetName` is a plain string in the record (the generator fills it
      from the asset names); `lastCommDate` is an ISO `YYYY-MM-DD` date string. */
  datatype Server = Server(
    id: int,
    serial: string,
    name: string,
    assetName: string,
    version: string,
    serverType: ServerType,
    license: LicenseType,
    hardware: HardwareType,
    status: ServerStatus,
    warningsCount: int,
    lastCommDate: string)

  /** Identifiers are unique across the record collection. */
  ghost predicate UniqueIds(servers: seq<Server>) {
    forall i, j :: 0 <= i < j < |servers| ==> servers[i].id != servers[j].id
  }

  /** Position of each member in the declaration order of the union. */
  function StatusIndex(s: ServerStatus): nat {
    match s
    case Running => 0
    case Stopped => 1
    case Maintenance => 2
    case Error => 3
    case Pending => 4
  }

  /** `SERVER_STATUSES`: every status once, in declaration order. */
  function ServerStatuses(): (r: seq<ServerStatus>)
    ensures |r| == 5
    ensures forall s: ServerStatus :: StatusIndex(s) < |r| && r[StatusIndex(s)] == s
    ensures forall i, j :: 0 <= i < j < |r| ==> StatusName(r[i]) != StatusName(r[j])
  {
    [Running, Stopped, Maintenance, Error, Pending]
  }

  function ServerTypeIndex(t: ServerType): nat {
    match t
    case Apache => 0
    case Nginx => 1
    case IIS => 2
    case NodeJs => 3
    case Tomcat => 4
    case CustomType => 5
  }

  /** `SERVER_TYPES`. */
  function ServerTypes(): (r: seq<ServerType>)
    ensures |r| == 6
    ensures forall t: ServerType :: ServerTypeIndex(t) < |r| && r[ServerTypeIndex(t)] == t
    ensures forall i, j :: 0 <= i < j < |r| ==> ServerTypeName(r[i]) != ServerTypeName(r[j])
  {
    [Apache, Nginx, IIS, NodeJs, Tomcat, CustomType]
  }

  function LicenseIndex(l: LicenseType): nat {
    match l
    case Enterprise => 0
    case Standard => 1
    case Community => 2
    case Trial => 3
    case Professional => 4
  }

  /** `LICENSE_TYPES`. */
  function LicenseTypes(): (r: seq<LicenseType>)
    ensures |r| == 5
    ensures forall l: LicenseType :: LicenseIndex(l) < |r| && r[LicenseIndex(l)] == l
    ensures forall i, j :: 0 <= i < j < |r| ==> LicenseName(r[i]) != LicenseName(r[j])
  {
    [Enterprise, Standard, Community, Trial, Professional]
  }

  function HardwareIndex(h: HardwareType): nat {
    match h
    case Physical => 0
    case Virtual => 1
    case Cloud => 2
    case Container => 3
    case Hybrid => 4
  }

  /** `HARDWARE_TYPES`. */
  function HardwareTypes(): (r: seq<HardwareType>)
    ensures |r| == 5
    ensures forall h: HardwareType :: HardwareIndex(h) < |r| && r[HardwareIndex(h)] == h
    ensures forall i, j :: 0 <= i < j < |r| ==> HardwareName(r[i]) != HardwareName(r[j])
  {
    [Physical, Virtual, Cloud, Container, Hybrid]
  }

  function AssetIndex(a: AssetType): nat {
    match a
    case Production => 0
    case Development => 1
    case Staging => 2
    case Testing => 3
    case QA => 4
    case Integration => 5
    case Demo => 6
    case Backup => 7
  }

  /** `ASSET_TYPES`. */
  function AssetTypes(): (r: seq<AssetType>)
    ensures |r| == 8
    ensures forall a: AssetType :: AssetIndex(a) < |r| && r[AssetIndex(a)] == a
    ensures forall i, j :: 0 <= i < j < |r| ==> AssetName(r[i]) != AssetName(r[j])
  {
    [Production, Development, Staging, Testing, QA, Integration, Demo, Backup]
  }

  /** The asset names as strings, the options the filter bar offers. */
  function AssetNames(): (r: seq<string>)
    ensures |r| == |AssetTypes()|
    ensures forall i :: 0 <= i < |r| ==> r[i] == AssetName(AssetTypes()[i])
  {
    seq(|AssetTypes()|, i requires 0 <= i < |AssetTypes()| => AssetName(AssetTypes()[i]))
  }

  datatype StatusColor = StatusColor(bg: string, text: string)

  /** `STATUS_COLORS`: background and text classes for each status. */
  function StatusColors(s: ServerStatus): (c: StatusColor)
    ensures (s == Stopped || s == Error) <==> c == StatusColor("bg-red-500/20", "text-red-400")
  {
    match s
    case Running => StatusColor("bg-green-500/20", "text-green-400")
    case Stopped => StatusColor("bg-red-500/20", "text-red-400")
    case Maintenance => StatusColor("bg-blue-500/20", "text-blue-400")
    case Error => StatusColor("bg-red-500/20", "text-red-400")
    case Pending => StatusColor("bg-yellow-500/20", "text-yellow-400")
  }

  /** Two statuses share their colours only when both are failure states. */
  lemma StatusColorsShared(s: ServerStatus, t: ServerStatus)
    requires s != t
    ensures StatusColors(s) == StatusColors(t) <==> {s, t} == {Stopped, Error}
  {
  }

  // ---------------------------------------------------------------------------
  // Property access by key: `server[key as keyof Server]`
  // ---------------------------------------------------------------------------

  /** What a property read yields: a string, a number, or `undefined` for a key the record
      does not have. */
  datatype FieldValue = Str(s: string) | Num(n: int) | Missing

  function Field(server: Server, key: string): (v: FieldValue)
    ensures v.Num? <==> key == "id" || key == "warningsCount"
    ensures v.Missing? <==> key !in FieldKeys()
  {
    if key == "id" then Num(server.id)
    else if key == "serial" then Str(server.serial)
    else if key == "name" then Str(server.name)
    else if key == "assetName" then Str(server.assetName)
    else if key == "version" then Str(server.version)
    else if key == "serverType" then Str(ServerTypeName(server.serverType))
    else if key == "license" then Str(LicenseName(server.license))
    else if key == "hardware" then Str(HardwareName(server.hardware))
    else if key == "status" then Str(StatusName(server.status))
    else if key == "warningsCount" then Num(server.warningsCount)
    else if key == "lastCommDate" then Str(server.lastCommDate)
    else Missing
  }

  /** The keys of the `Server` interface. */
  function FieldKeys(): seq<string> {
    ["id", "serial", "name", "assetName", "version", "serverType", "license", "hardware",
     "status", "warningsCount", "lastCommDate"]
  }

  /** `String(value)` as the comparator's fallback branch renders it. */
  function FieldText(v: FieldValue): (r: string)
    ensures v.Str? ==> r == v.s
    ensures v.Missing? ==> r == "undefined"
    ensures v.Num? ==> |r| >= 1 && (r[0] == '-' <==> v.n < 0)
    ensures v.Num? ==>
      var digits := if v.n < 0 then r[1..] else r;
      (forall i :: 0 <= i < |digits| ==> IsDigit(digits[i]))
      && DigitsValue(digits) == if v.n < 0 then -v.n else v.n
  {
    match v
    case Str(s) => s
    case Num(n) =>
      NatToStringRoundTrip(if n < 0 then -n else n);
      IntToString(n)
    case Missing => "undefined"
  }
}

=== FILE: stable_sort.dfy ===
/** A stable sort under a comparator that is a total preorder: the ordering that
    `Array.prototype.sort` guarantees, written as an insertion sort. */
module StableSort {

  /** `cmp(a, b)`, named so that the quantifiers of `TotalPreorder` fire only on the
      comparisons a proof mentions through it. */
  ghost function Cmp<T>(cmp: (T, T) -> int, a: T, b: T): int {
    cmp(a, b)
  }

  /** `cmp` is antisymmetric and its `<= 0` relation is transitive, as a sort comparator
      must be. */
  ghost predicate TotalPreorder<T(!new)>(cmp: (T, T) -> int) {
    (forall a, b :: Cmp(cmp, a, b) == -Cmp(cmp, b, a))
    && (forall a, b, c :: Cmp(cmp, a, b) <= 0 && Cmp(cmp, b, c) <= 0 ==> Cmp(cmp, a, c) <= 0)
  }

  lemma Antisymmetric<T(!new)>(cmp: (T, T) -> int, a: T, b: T)
    requires TotalPreorder(cmp)
    ensures cmp(a, b) == -cmp(b, a)
  {
    assert Cmp(cmp, a, b) == -Cmp(cmp, b, a);
  }

  lemma Transitive<T(!new)>(cmp: (T, T) -> int, a: T, b: T, c: T)
    requires TotalPreorder(cmp)
    requires cmp(a, b) <= 0 && cmp(b, c) <= 0
    ensures cmp(a, c) <= 0
  {
    assert Cmp(cmp, a, b) <= 0 && Cmp(cmp, b, c) <= 0;
  }

  /** No element compares greater than one after it. */
  ghost predicate SortedBy<T>(s: seq<T>, cmp: (T, T) -> int) {
    forall i, j :: 0 <= i < j < |s| ==> cmp(s[i], s[j]) <= 0
  }

  /** Inserts `x` after every leading element that does not compare greater than it. */
  function Insert<T>(x: T, s: seq<T>, cmp: (T, T) -> int): (r: seq<T>)
    ensures |r| == |s| + 1
  {
    if s == [] then [x]
    else if cmp(s[0], x) > 0 then [x] + s
    else [s[0]] + Insert(x, s[1..], cmp)
  }

  /** Adds the elements from first to last, each after the equal ones already placed. */
  function Sort<T>(s: seq<T>, cmp: (T, T) -> int): (r: seq<T>)
    ensures |r| == |s|
  {
    if s == [] then [] else Insert(s[|s| - 1], Sort(s[..|s| - 1], cmp), cmp)
  }

  lemma {:induction false} InsertPermutation<T>(x: T, s: seq<T>, cmp: (T, T) -> int)
    ensures multiset(Insert(x, s, cmp)) == multiset(s) + multiset{x}
  {
    if s == [] {
      assert Insert(x, s, cmp) == [x];
    } else if cmp(s[0], x) > 0 {
      assert Insert(x, s, cmp) == [x] + s;
      assert multiset([x] + s) == multiset{x} + multiset(s);
    } else {
      var t := Insert(x, s[1..], cmp);
      InsertPermutation(x, s[1..], cmp);
      assert Insert(x, s, cmp) == [s[0]] + t;
      assert multiset([s[0]] + t) == multiset{s[0]} + multiset(t);
      assert s == [s[0]] + s[1..];
      assert multiset(s) == multiset{s[0]} + multiset(s[1..]);
    }
  }

  /** The sort only reorders. */
  lemma {:induction false} SortPermutation<T>(s: seq<T>, cmp: (T, T) -> int)
    ensures multiset(Sort(s, cmp)) == multiset(s)
  {
    if s != [] {
      SortPermutation(s[..|s| - 1], cmp);
      InsertPermutation(s[|s| - 1], Sort(s[..|s| - 1], cmp), cmp);
      assert s == s[..|s| - 1] + [s[|s| - 1]];
    }
  }

  lemma SortedTail<T>(s: seq<T>, cmp: (T, T) -> int)
    requires s != [] && SortedBy(s, cmp)
    ensures SortedBy(s[1..], cmp)
  {
    forall i, j | 0 <= i < j < |s[1..]| ensures cmp(s[1..][i], s[1..][j]) <= 0 {
      assert s[1..][i] == s[i + 1] && s[1..][j] == s[j + 1];
    }
  }

  /** Every element of `s` compares at least as great as its head. */
  lemma HeadIsLeast<T>(s: seq<T>, y: T, cmp: (T, T) -> int)
    requires s != [] && SortedBy(s, cmp) && y in s
    ensures cmp(s[0], y) <= 0 || s[0] == y
  {
    var j :| 0 <= j < |s| && s[j] == y;
    if j > 0 {
      assert cmp(s[0], s[j]) <= 0;
    }
  }

  lemma {:induction false} InsertSorted<T(!new)>(x: T, s: seq<T>, cmp: (T, T) -> int)
    requires TotalPreorder(cmp) && SortedBy(s, cmp)
    ensures SortedBy(Insert(x, s, cmp), cmp)
  {
    if s != [] {
      var r := Insert(x, s, cmp);
      if cmp(s[0], x) > 0 {
        assert r == [x] + s;
        forall i, j | 0 <= i < j < |r| ensures cmp(r[i], r[j]) <= 0 {
          if i == 0 {
            assert r[j] == s[j - 1];
            Antisymmetric(cmp, x, s[0]);
            if j > 1 {
              Transitive(cmp, x, s[0], s[j - 1]);
            }
          } else {
            assert r[i] == s[i - 1] && r[j] == s[j - 1];
          }
        }
      } else {
        var t := Insert(x, s[1..], cmp);
        SortedTail(s, cmp);
        InsertSorted(x, s[1..], cmp);
        InsertPermutation(x, s[1..], cmp);
        assert r == [s[0]] + t;
        forall i, j | 0 <= i < j < |r| ensures cmp(r[i], r[j]) <= 0 {
          if i == 0 {
            var y := t[j - 1];
            assert r[j] == y;
            assert y in multiset(t);
            if y != x {
              assert y in multiset(s[1..]);
              assert y in s[1..];
              var k :| 0 <= k < |s[1..]| && s[1..][k] == y;
              assert s[k + 1] == y;
            }
          } else {
            assert r[i] == t[i - 1] && r[j] == t[j - 1];
          }
        }
      }
    }
  }

  lemma {:induction false} SortSorted<T(!new)>(s: seq<T>, cmp: (T, T) -> int)
    requires TotalPreorder(cmp)
    ensures SortedBy(Sort(s, cmp), cmp)
  {
    if s != [] {
      SortSorted(s[..|s| - 1], cmp);
      InsertSorted(s[|s| - 1], Sort(s[..|s| - 1], cmp), cmp);
    }
  }

  // ---------------------------------------------------------------------------
  // Stability: elements with equal keys keep their relative order
  // ---------------------------------------------------------------------------

  /** The elements of `s` that compare equal to `k`, in order. */
  function Tied<T>(s: seq<T>, k: T, cmp: (T, T) -> int): seq<T> {
    if s == [] then []
    else (if cmp(s[0], k) == 0 then [s[0]] else []) + Tied(s[1..], k, cmp)
  }

  lemma {:induction false} TiedAppend<T>(a: seq<T>, b: seq<T>, k: T, cmp: (T, T) -> int)
    ensures Tied(a + b, k, cmp) == Tied(a, k, cmp) + Tied(b, k, cmp)
  {
    if a != [] {
      assert (a + b)[0] == a[0];
      assert (a + b)[1..] == a[1..] + b;
      TiedAppend(a[1..], b, k, cmp);
      var h := if cmp(a[0], k) == 0 then [a[0]] else [];
      calc {
        Tied(a + b, k, cmp);
        h + Tied(a[1..] + b, k, cmp);
        h + (Tied(a[1..], k, cmp) + Tied(b, k, cmp));
        (h + Tied(a[1..], k, cmp)) + Tied(b, k, cmp);
      }
    } else {
      assert a + b == b;
    }
  }

  /** Nothing in `s` ties with `k` when `k` ties with `x` and all of `s` is above `x`. */
  lemma {:induction false} NoneTied<T(!new)>(s: seq<T>, x: T, k: T, cmp: (T, T) -> int)
    requires TotalPreorder(cmp)
    requires cmp(x, k) == 0
    requires forall y :: y in s ==> cmp(y, x) > 0
    ensures Tied(s, k, cmp) == []
  {
    if s != [] {
      assert s[0] in s;
      Antisymmetric(cmp, x, k);
      if cmp(s[0], k) <= 0 {
        Transitive(cmp, s[0], k, x);
      }
      assert forall y :: y in s[1..] ==> y in s;
      NoneTied(s[1..], x, k, cmp);
    }
  }

  lemma TiedCons<T>(x: T, s: seq<T>, k: T, cmp: (T, T) -> int)
    ensures Tied([x] + s, k, cmp) == (if cmp(x, k) == 0 then [x] else []) + Tied(s, k, cmp)
  {
    assert ([x] + s)[1..] == s;
  }

  /** A sorted list whose head is above `x` lies wholly above `x`. */
  lemma AllAbove<T(!new)>(s: seq<T>, x: T, cmp: (T, T) -> int)
    requires TotalPreorder(cmp) && SortedBy(s, cmp)
    requires s != [] && cmp(s[0], x) > 0
    ensures forall y :: y in s ==> cmp(y, x) > 0
  {
    forall y | y in s ensures cmp(y, x) > 0 {
      HeadIsLeast(s, y, cmp);
      if cmp(y, x) <= 0 && y != s[0] {
        Transitive(cmp, s[0], y, x);
      }
    }
  }

  lemma {:induction false} InsertTied<T(!new)>(x: T, s: seq<T>, k: T, cmp: (T, T) -> int)
    requires TotalPreorder(cmp) && SortedBy(s, cmp)
    ensures Tied(Insert(x, s, cmp), k, cmp) == Tied(s, k, cmp) + (if cmp(x, k) == 0 then [x] else [])
  {
    if s == [] {
      assert Insert(x, s, cmp) == [x] + [];
      TiedCons(x, [], k, cmp);
    } else if cmp(s[0], x) > 0 {
      assert Insert(x, s, cmp) == [x] + s;
      TiedCons(x, s, k, cmp);
      if cmp(x, k) == 0 {
        AllAbove(s, x, cmp);
        NoneTied(s, x, k, cmp);
      }
    } else {
      var t := Insert(x, s[1..], cmp);
      SortedTail(s, cmp);
      InsertTied(x, s[1..], k, cmp);
      assert Insert(x, s, cmp) == [s[0]] + t;
      TiedCons(s[0], t, k, cmp);
      TiedCons(s[0], s[1..], k, cmp);
      assert [s[0]] + s[1..] == s;
    }
  }

  lemma SortLast<T>(s: seq<T>, cmp: (T, T) -> int)
    requires s != []
    ensures Sort(s, cmp) == Insert(s[|s| - 1], Sort(s[..|s| - 1], cmp), cmp)
  {
  }

  lemma TiedSnoc<T>(a: seq<T>, x: T, k: T, cmp: (T, T) -> int)
    ensures Tied(a + [x], k, cmp) == Tied(a, k, cmp) + (if cmp(x, k) == 0 then [x] else [])
  {
    TiedAppend(a, [x], k, cmp);
    assert [x][1..] == [];
  }

  /** Adding one element to a sorted list keeps the ties of the unsorted list. */
  lemma InsertStep<T(!new)>(init: seq<T>, last: T, sorted: seq<T>, k: T, cmp: (T, T) -> int)
    requires TotalPreorder(cmp) && SortedBy(sorted, cmp)
    requires Tied(sorted, k, cmp) == Tied(init, k, cmp)
    ensures Tied(Insert(last, sorted, cmp), k, cmp) == Tied(init + [last], k, cmp)
  {
    InsertTied(last, sorted, k, cmp);
    TiedSnoc(init, last, k, cmp);
  }

  /** Elements that compare equal keep the order they had before sorting. */
  lemma {:induction false} SortStable<T(!new)>(s: seq<T>, k: T, cmp: (T, T) -> int)
    requires TotalPreorder(cmp)
    ensures Tied(Sort(s, cmp), k, cmp) == Tied(s, k, cmp)
  {
    if s != [] {
      var init, last := s[..|s| - 1], s[|s| - 1];
      SortLast(s, cmp);
      SortStable(init, k, cmp);
      SortSorted(init, cmp);
      InsertStep(init, last, Sort(init, cmp), k, cmp);
      assert s == init + [last];
    }
  }

  lemma SortStableAll<T(!new)>(s: seq<T>, cmp: (T, T) -> int)
    requires TotalPreorder(cmp)
    ensures forall k :: Tied(Sort(s, cmp), k, cmp) == Tied(s, k, cmp)
  {
    forall k {
      SortStable(s, k, cmp);
    }
  }
}

=== FILE: storage_service.dfy ===
/** The persisted table preferences (src/app/services/storage.service.ts): column order,
    filter visibility, search history and the "more filters" flag, kept under four fixed keys
    of the browser's key-value store. Outside a browser every read yields its default and every
    write is skipped. */
module StorageService {
  import opened Wrappers
  import opened Seqs
  import opened TableModel
  import opened FilterModel

  const ColumnOrderKey: string := "tableWidget_columnOrder"
  const FilterVisibilityKey: string := "tableWidget_filterVisibility"
  const SearchHistoryKey: string := "tableWidget_searchHistory"
  const MoreFiltersVisibleKey: string := "tableWidget_moreFiltersVisible"

  /** `Object.values(STORAGE_KEYS)`: the four keys, pairwise distinct. */
  function StorageKeys(): (r: seq<string>)
    ensures |r| == 4 && Distinct(r)
    ensures ColumnOrderKey in r && FilterVisibilityKey in r && SearchHistoryKey in r && MoreFiltersVisibleKey in r
  {
    [ColumnOrderKey, FilterVisibilityKey, SearchHistoryKey, MoreFiltersVisibleKey]
  }

  /** What a key holds: the decoded JSON of a column list, a visibility record or a history
      list, or the raw text the flag is stored as. */
  datatype StoredValue =
    | Columns(cols: seq<ColumnDefinition>)
    | Visibility(visibility: FilterVisibility)
    | History(history: seq<string>)
    | Text(text: string)

  /** `[query, ...history.filter(q => q !== query)].slice(0, 3)`: the query first, then the
      older entries without it, most recent first, at most three in all. */
  function AddToHistory(history: seq<string>, q: string): (r: seq<string>)
    ensures 1 <= |r| <= 3 && r[0] == q
    ensures q !in r[1..]
    ensures |r| == Min(3, 1 + |RemoveAll(history, q)|)
    ensures r[1..] == RemoveAll(history, q)[..|r| - 1]
  {
    var all := [q] + RemoveAll(history, q);
    var r := Slice(all, 0, 3);
    assert r == all[..Min(3, |all|)];
    assert r[1..] == RemoveAll(history, q)[..|r| - 1];
    r
  }

  /** The previous most recent entry, if different from the query, comes second. */
  lemma AddToHistoryPushesDown(history: seq<string>, q: string)
    requires history != [] && history[0] != q
    ensures AddToHistory(history, q)[1] == history[0]
  {
    assert RemoveAll(history, q) == [history[0]] + RemoveAll(history[1..], q);
  }

  /** A history without duplicates stays without duplicates. */
  lemma AddToHistoryKeepsDistinct(history: seq<string>, q: string)
    requires Distinct(history)
    ensures Distinct(AddToHistory(history, q))
  {
    RemoveAllKeepsDistinct(history, q);
    var r := AddToHistory(history, q);
    var rest := RemoveAll(history, q);
    forall i, j | 0 <= i < j < |r| ensures r[i] != r[j] {
      if i == 0 {
        assert r[j] in r[1..];
      } else {
        assert r[i] == rest[i - 1] && r[j] == rest[j - 1];
      }
    }
  }

  /** Recording the same query twice in a row records it once. */
  lemma AddToHistoryIdempotent(history: seq<string>, q: string)
    ensures AddToHistory(AddToHistory(history, q), q) == AddToHistory(history, q)
  {
    var r := AddToHistory(history, q);
    assert RemoveAll(r, q) == r[1..] by {
      assert r == [q] + r[1..];
      assert RemoveAll(r, q) == RemoveAll(r[1..], q);
    }
    assert [q] + r[1..] == r;
  }

  /** The service with its key-value store. */
  class Storage {
    /** Whether the service runs in a browser (`isPlatformBrowser`). */
    const isBrowser: bool
    /** The key-value store, with values already decoded from their JSON text. */
    var entries: map<string, StoredValue>

    constructor(isBrowser: bool, entries: map<string, StoredValue>)
      ensures this.isBrowser == isBrowser && this.entries == entries
    {
      this.isBrowser := isBrowser;
      this.entries := entries;
    }

    /** `getColumnOrder`: the stored list, or `null`. */
    function GetColumnOrder(): (r: Option<seq<ColumnDefinition>>)
      reads this`entries
      ensures !isBrowser || ColumnOrderKey !in entries ==> r == None
      ensures r.Some? ==> isBrowser && ColumnOrderKey in entries && entries[ColumnOrderKey] == Columns(r.value)
    {
      if isBrowser && ColumnOrderKey in entries && entries[ColumnOrderKey].Columns? then
        Some(entries[ColumnOrderKey].cols)
      else None
    }

    /** `getFilterVisibility`: the stored record, or every filter visible. */
    function GetFilterVisibility(): (r: FilterVisibility)
      reads this`entries
      ensures !isBrowser || FilterVisibilityKey !in entries ==> r == DefaultFilterVisibility()
    {
      if isBrowser && FilterVisibilityKey in entries && entries[FilterVisibilityKey].Visibility? then
        entries[FilterVisibilityKey].visibility
      else DefaultFilterVisibility()
    }

    /** `getSearchHistory`: the stored list, or the empty list. */
    function GetSearchHistory(): (r: seq<string>)
      reads this`entries
      ensures !isBrowser || SearchHistoryKey !in entries ==> r == []
      ensures r != [] ==> isBrowser && SearchHistoryKey in entries && entries[SearchHistoryKey] == History(r)
    {
      if isBrowser && SearchHistoryKey in entries && entries[SearchHistoryKey].History? then
        entries[SearchHistoryKey].history
      else []
    }

    /** `getMoreFiltersVisible`: whether the stored text is exactly `"true"`. */
    function GetMoreFiltersVisible(): (r: bool)
      reads this`entries
      ensures !isBrowser || MoreFiltersVisibleKey !in entries ==> r == false
    {
      isBrowser && MoreFiltersVisibleKey in entries && entries[MoreFiltersVisibleKey] == Text("true")
    }

    /** With nothing stored, every read yields its default. */
    lemma EmptyStoreDefaults()
      requires entries == map[]
      ensures GetColumnOrder() == None
      ensures GetFilterVisibility() == DefaultFilterVisibility()
      ensures GetSearchHistory() == []
      ensures !GetMoreFiltersVisible()
    {
    }

    method SetColumnOrder(cols: seq<ColumnDefinition>)
      modifies this`entries
      ensures entries == if isBrowser then old(entries)[ColumnOrderKey := Columns(cols)] else old(entries)
      ensures isBrowser ==> GetColumnOrder() == Some(cols)
    {
      if isBrowser {
        entries := entries[ColumnOrderKey := Columns(cols)];
      }
    }

    method SetFilterVisibility(visibility: FilterVisibility)
      modifies this`entries
      ensures entries == if isBrowser then old(entries)[FilterVisibilityKey := Visibility(visibility)] else old(entries)
      ensures isBrowser ==> GetFilterVisibility() == visibility
    {
      if isBrowser {
        entries := entries[FilterVisibilityKey := Visibility(visibility)];
      }
    }

    method SetSearchHistory(history: seq<string>)
      modifies this`entries
      ensures entries == if isBrowser then old(entries)[SearchHistoryKey := History(history)] else old(entries)
      ensures isBrowser ==> GetSearchHistory() == history
    {
      if isBrowser {
        entries := entries[SearchHistoryKey := History(history)];
      }
    }

    /** `addToSearchHistory`: computes the new list from the stored one, stores it and
        returns it. */
    method AddToSearchHistory(q: string) returns (updated: seq<string>)
      modifies this`entries
      ensures updated == AddToHistory(old(GetSearchHistory()), q)
      ensures entries == if isBrowser then old(entries)[SearchHistoryKey := History(updated)] else old(entries)
      ensures isBrowser ==> GetSearchHistory() == updated
    {
      var history := GetSearchHistory();
      updated := AddToHistory(history, q);
      SetSearchHistory(updated);
    }

    /** `setMoreFiltersVisible`: stores `String(visible)`. */
    method SetMoreFiltersVisible(visible: bool)
      modifies this`entries
      ensures entries == if isBrowser then old(entries)[MoreFiltersVisibleKey := Text(if visible then "true" else "false")]
                         else old(entries)
      ensures GetMoreFiltersVisible() == (isBrowser && visible)
    {
      if isBrowser {
        entries := entries[MoreFiltersVisibleKey := Text(if visible then "true" else "false")];
      }
    }

    /** `clearAll`: removes the four keys and nothing else. */
    method ClearAll()
      modifies this`entries
      ensures entries == if isBrowser then old(entries) - {ColumnOrderKey, FilterVisibilityKey, SearchHistoryKey, MoreFiltersVisibleKey}
                         else old(entries)
      ensures GetColumnOrder() == None && GetFilterVisibility() == DefaultFilterVisibility()
      ensures GetSearchHistory() == [] && !GetMoreFiltersVisible()
    {
      if isBrowser {
        entries := entries - {ColumnOrderKey, FilterVisibilityKey, SearchHistoryKey, MoreFiltersVisibleKey};
      }
    }
  }
}

=== FILE: table_model.dfy ===
/** Column definitions, sort and pagination state and their defaults
    (src/app/models/table.model.ts). */
module TableModel {
  import opened Wrappers
  import opened Seqs
  import ServerModel

  /** A table column. `id` names a `Server` property, `caption` is the source's `label` (a
      reserved word here); an omitted `editable` reads as false.
      The optional `width` and `visible` members are not read by the table logic. */
  datatype ColumnDefinition = ColumnDefinition(id: string, caption: string, sortable: bool, editable: bool)

  /** `DEFAULT_COLUMNS`: the ten record properties in display order, all sortable, only the
      name editable. */
  function DefaultColumns(): (r: seq<ColumnDefinition>)
    ensures |r| == 10
    ensures r[0].id == "name" && r[9].id == "lastCommDate"
    ensures forall i, j :: 0 <= i < j < |r| ==> r[i].id != r[j].id
    ensures forall i :: 0 <= i < |r| ==> r[i].sortable
    ensures forall i :: 0 <= i < |r| ==> (r[i].editable <==> r[i].id == "name")
    ensures forall i :: 0 <= i < |r| ==> r[i].id in ServerModel.FieldKeys() && r[i].id != "id"
  {
    [ ColumnDefinition("name", "Name", true, true),
      ColumnDefinition("serial", "Serial", true, false),
      ColumnDefinition("status", "Status", true, false),
      ColumnDefinition("assetName", "Asset", true, false),
      ColumnDefinition("serverType", "Server Type", true, false),
      ColumnDefinition("hardware", "Hardware", true, false),
      ColumnDefinition("license", "License", true, false),
      ColumnDefinition("version", "Version", true, false),
      ColumnDefinition("warningsCount", "Warnings", true, false),
      ColumnDefinition("lastCommDate", "Last Comm Date", true, false) ]
  }

  /** `'asc' | 'desc'`; the `null` member of the union is the `None` of an `Option`. */
  datatype SortDirection = Asc | Desc

  datatype SortState = SortState(column: Option<string>, direction: Option<SortDirection>)

  datatype PaginationState = PaginationState(currentPage: int, rowsPerPage: int, totalItems: int)

  /** `ROWS_PER_PAGE_OPTIONS`. */
  function RowsPerPageOptions(): (r: seq<int>)
    ensures |r| == 4
    ensures forall i :: 0 <= i < |r| ==> r[i] > 0
    ensures forall i, j :: 0 <= i < j < |r| ==> r[i] < r[j]
  {
    [10, 25, 50, 100]
  }

  /** `DEFAULT_PAGINATION`. */
  function DefaultPagination(): PaginationState {
    PaginationState(1, 10, 0)
  }

  /** `DEFAULT_SORT`: no column, no direction. */
  function DefaultSort(): SortState {
    SortState(None, None)
  }

  /** The default page size is one of the offered sizes, and the default state is on the
      first page of an empty table. */
  lemma DefaultPaginationOffered()
    ensures DefaultPagination().rowsPerPage in RowsPerPageOptions()
    ensures DefaultPagination().currentPage == 1 && DefaultPagination().totalItems == 0
  {
    assert RowsPerPageOptions()[0] == 10;
  }

  /** The default sort is inactive. */
  lemma DefaultSortInactive()
    ensures DefaultSort().column.None? && DefaultSort().direction.None?
  {
  }
}

=== FILE: table_pagination.dfy ===
/** The page-number strip under the table
    (src/app/components/data-table/table-pagination/table-pagination.component.ts, and the
    identical `pageNumbers` of src/app/components/data-table/data-table.component.ts): every
    page when there are at most five, otherwise a window of at most seven entries with '...'
    standing for the pages left out. */
module TablePagination {
  import opened StateStore

  /** An entry of the strip: a page number or the '...' marker. */
  datatype PageEntry = PageNo(n: int) | Ellipsis

  /** What the strip promises for `totalPages` pages while on `currentPage`: exactly `1..n`
      for at most five pages; otherwise from 1 to `totalPages`, at most seven entries, page
      numbers in range and strictly increasing, '...' present, and the current page shown
      when it is a page. Two page numbers side by side are consecutive, and a '...' sits
      between two page numbers that skip at least one page. The predicate fixes the shape of
      the strip, not which middle pages appear: `LeadingWindow`, `TrailingWindow` and
      `MiddleWindow` state the exact strip of each branch. */
  ghost predicate IsPageWindow(pages: seq<PageEntry>, totalPages: int, currentPage: int) {
    |pages| >= 1 && pages[0] == PageNo(1) && pages[|pages| - 1] == PageNo(totalPages)
    && |pages| <= 7
    && (forall i :: 0 <= i < |pages| && pages[i].PageNo? ==> 1 <= pages[i].n <= totalPages)
    && (forall i, j :: 0 <= i < j < |pages| && pages[i].PageNo? && pages[j].PageNo? ==> pages[i].n < pages[j].n)
    && (forall i :: 0 <= i < |pages| - 1 && pages[i].PageNo? && pages[i + 1].PageNo? ==> pages[i + 1].n == pages[i].n + 1)
    && (forall i :: 0 <= i < |pages| && pages[i] == Ellipsis ==>
          0 < i < |pages| - 1 && pages[i - 1].PageNo? && pages[i + 1].PageNo? && pages[i + 1].n > pages[i - 1].n + 1)
    && (1 <= currentPage <= totalPages ==> PageNo(currentPage) in pages)
    && (Ellipsis in pages <==> totalPages > 5)
    && (totalPages <= 5 ==> |pages| == totalPages && forall i :: 0 <= i < |pages| ==> pages[i] == PageNo(i + 1))
  }

  /** `pageNumbers`, for the page count the store reports (never below 1). */
  method PageWindow(totalPages: int, currentPage: int) returns (pages: seq<PageEntry>)
    requires totalPages >= 1
    ensures IsPageWindow(pages, totalPages, currentPage)
  {
    pages := [];
    if totalPages <= 5 {
      for i := 1 to totalPages + 1
        invariant |pages| == i - 1
        invariant forall k :: 0 <= k < |pages| ==> pages[k] == PageNo(k + 1)
      {
        pages := pages + [PageNo(i)];
      }
      EveryPageWindow(pages, totalPages, currentPage);
    } else if currentPage <= 3 {
      pages := pages + [PageNo(1), PageNo(2), PageNo(3), PageNo(4), Ellipsis, PageNo(totalPages)];
      assert pages == [PageNo(1), PageNo(2), PageNo(3), PageNo(4), Ellipsis, PageNo(totalPages)];
      LeadingWindow(totalPages, currentPage);
    } else if currentPage >= totalPages - 2 {
      pages := pages + [PageNo(1), Ellipsis, PageNo(totalPages - 3), PageNo(totalPages - 2),
                        PageNo(totalPages - 1), PageNo(totalPages)];
      assert pages == [PageNo(1), Ellipsis, PageNo(totalPages - 3), PageNo(totalPages - 2),
                       PageNo(totalPages - 1), PageNo(totalPages)];
      TrailingWindow(totalPages, currentPage);
    } else {
      pages := pages + [PageNo(1), Ellipsis, PageNo(currentPage - 1), PageNo(currentPage),
                        PageNo(currentPage + 1), Ellipsis, PageNo(totalPages)];
      assert pages == [PageNo(1), Ellipsis, PageNo(currentPage - 1), PageNo(currentPage),
                       PageNo(currentPage + 1), Ellipsis, PageNo(totalPages)];
      MiddleWindow(totalPages, currentPage);
    }
  }

  /** Up to five pages: every page, in order. */
  lemma EveryPageWindow(pages: seq<PageEntry>, totalPages: int, currentPage: int)
    requires 1 <= totalPages <= 5 && |pages| == totalPages
    requires forall k :: 0 <= k < |pages| ==> pages[k] == PageNo(k + 1)
    ensures IsPageWindow(pages, totalPages, currentPage)
  {
    assert pages[0] == PageNo(1);
    assert Ellipsis !in pages by {
      forall k | 0 <= k < |pages| ensures pages[k] != Ellipsis { }
    }
    if 1 <= currentPage <= totalPages {
      assert pages[currentPage - 1] == PageNo(currentPage);
    }
  }

  /** Near the first page: the first four pages, '...', the last page. */
  lemma LeadingWindow(totalPages: int, currentPage: int)
    requires totalPages > 5 && currentPage <= 3
    ensures IsPageWindow([PageNo(1), PageNo(2), PageNo(3), PageNo(4), Ellipsis, PageNo(totalPages)],
                         totalPages, currentPage)
  {
    var pages := [PageNo(1), PageNo(2), PageNo(3), PageNo(4), Ellipsis, PageNo(totalPages)];
    forall i | 0 <= i < |pages|
      ensures pages[i] == if i == 4 then Ellipsis else PageNo(if i == 5 then totalPages else i + 1)
    {
      if i == 0 {} else if i == 1 {} else if i == 2 {} else if i == 3 {} else if i == 4 {}
    }
    if 1 <= currentPage {
      assert pages[currentPage - 1] == PageNo(currentPage);
    }
  }

  /** Near the last page: the first page, '...', the last four pages. */
  lemma TrailingWindow(totalPages: int, currentPage: int)
    requires totalPages > 5 && 3 < currentPage && currentPage >= totalPages - 2
    ensures IsPageWindow([PageNo(1), Ellipsis, PageNo(totalPages - 3), PageNo(totalPages - 2),
                          PageNo(totalPages - 1), PageNo(totalPages)], totalPages, currentPage)
  {
    var pages := [PageNo(1), Ellipsis, PageNo(totalPages - 3), PageNo(totalPages - 2),
                  PageNo(totalPages - 1), PageNo(totalPages)];
    assert forall i :: 0 <= i < |pages| && pages[i] == Ellipsis ==> i == 1;
    if currentPage <= totalPages {
      assert pages[currentPage - totalPages + 5] == PageNo(currentPage);
    }
  }

  /** In between: the first page, '...', the current page and its neighbours, '...', the last. */
  lemma MiddleWindow(totalPages: int, currentPage: int)
    requires totalPages > 5 && 3 < currentPage < totalPages - 2
    ensures IsPageWindow([PageNo(1), Ellipsis, PageNo(currentPage - 1), PageNo(currentPage),
                          PageNo(currentPage + 1), Ellipsis, PageNo(totalPages)], totalPages, currentPage)
  {
    var pages := [PageNo(1), Ellipsis, PageNo(currentPage - 1), PageNo(currentPage),
                  PageNo(currentPage + 1), Ellipsis, PageNo(totalPages)];
    assert forall i :: 0 <= i < |pages| && pages[i] == Ellipsis ==> i == 1 || i == 5;
    assert pages[3] == PageNo(currentPage);
  }

  /** The pagination bar. */
  class TablePaginationComponent {
    const store: TableStateStore

    constructor(store: TableStateStore)
      ensures this.store == store
    {
      this.store := store;
    }

    /** `pageNumbers` for the store's page count and current page. */
    method PageNumbers() returns (pages: seq<PageEntry>)
      requires store.Valid()
      ensures IsPageWindow(pages, store.PageCount(), store.pagination.currentPage)
    {
      pages := PageWindow(store.PageCount(), store.pagination.currentPage);
    }
  }
}

=== FILE: table_state_store.dfy ===
/** The table's state store (src/app/store/table-state.store.ts): the records, the query state
    (filters, sort, pagination, columns), the selection, the persisted preferences and the
    transient UI state, each a field that the store's actions replace. The derived views are
    the functions of `Derivation` applied to the current fields. */
module StateStore {
  import opened Wrappers
  import opened Seqs
  import opened Text
  import opened ServerModel
  import opened TableModel
  import opened FilterModel
  import opened Derivation
  import opened Selection
  import opened QueryState
  import opened StorageService

  datatype Position = Position(x: int, y: int)

  /** `UIState`: which dropdown is open, the hovered row, the row whose name is being edited,
      and the context menu's position and target ids. */
  datatype UIState = UIState(
    openDropdown: Option<string>,
    hoveredRowId: Option<int>,
    editingCellId: Option<int>,
    contextMenuPosition: Option<Position>,
    contextMenuTargetIds: seq<int>)

  /** `DEFAULT_UI_STATE`: no dropdown open, no row hovered or edited, the context menu hidden
      with no targets. */
  function DefaultUIState(): (r: UIState)
    ensures r.openDropdown == None && r.hoveredRowId == None && r.editingCellId == None
    ensures r.contextMenuPosition == None && r.contextMenuTargetIds == []
  {
    UIState(None, None, None, None, [])
  }

  /** `toggleDropdown(d)`: closes `d` when it is the open one, otherwise opens it. */
  function ToggleOpen(open: Option<string>, d: string): (r: Option<string>)
    ensures r == None <==> open == Some(d)
    ensures r != None ==> r == Some(d)
  {
    if open == Some(d) then None else Some(d)
  }

  /** Toggling the same dropdown twice from closed, or from itself open, comes back. */
  lemma ToggleDropdownTwice(open: Option<string>, d: string)
    requires open == None || open == Some(d)
    ensures ToggleOpen(ToggleOpen(open, d), d) == open
  {
  }

  /** Where the context menu opens: at the pointer under test, otherwise 200 pixels to the
      left of it and 10 below. */
  function MenuPosition(x: int, y: int, isTest: bool): (p: Position)
    ensures isTest ==> p == Position(x, y)
    ensures !isTest ==> p.x + 200 == x && p.y - 10 == y
  {
    if isTest then Position(x, y) else Position(x - 200, y + 10)
  }

  /** `updateServerName`'s update: the servers with that id get the new name; nothing else
      changes. */
  function RenameServer(servers: seq<Server>, id: int, name: string): (r: seq<Server>)
    ensures |r| == |servers|
    ensures forall k :: 0 <= k < |r| ==> r[k].(name := servers[k].name) == servers[k]
    ensures forall k :: 0 <= k < |r| && servers[k].id == id ==> r[k].name == name
    ensures forall k :: 0 <= k < |r| && servers[k].id != id ==> r[k] == servers[k]
  {
    seq(|servers|, k requires 0 <= k < |servers| =>
      if servers[k].id == id then servers[k].(name := name) else servers[k])
  }

  /** Renaming keeps every id in place, hence id uniqueness and every id lookup. */
  lemma RenameKeepsIds(servers: seq<Server>, id: int, name: string, other: int)
    ensures UniqueIds(servers) ==> UniqueIds(RenameServer(servers, id, name))
    ensures FindIndex(RenameServer(servers, id, name), other) == FindIndex(servers, other)
  {
    var r := RenameServer(servers, id, name);
    assert forall k :: 0 <= k < |r| ==> r[k].id == servers[k].id;
  }

  /** After a rename the record found by id carries the new name. */
  lemma RenameThenLookup(servers: seq<Server>, id: int, name: string)
    requires FindIndex(servers, id) >= 0
    ensures ServerById(RenameServer(servers, id, name), id) == Some(servers[FindIndex(servers, id)].(name := name))
  {
    RenameKeepsIds(servers, id, name, id);
  }

  lemma RenameCons(s: Server, rest: seq<Server>, id: int, name: string)
    ensures RenameServer([s] + rest, id, name)
            == [if s.id == id then s.(name := name) else s] + RenameServer(rest, id, name)
  {
  }

  /** Without a search the name takes no part in filtering, so a rename changes neither
      which servers are listed nor how many. */
  lemma {:induction false} RenameWithoutSearch(servers: seq<Server>, id: int, name: string, f: ActiveFilters)
    requires f.search == ""
    ensures FilteredServers(RenameServer(servers, id, name), f) == RenameServer(FilteredServers(servers, f), id, name)
    ensures |FilteredServers(RenameServer(servers, id, name), f)| == |FilteredServers(servers, f)|
  {
    if servers != [] {
      var s0, tail := servers[0], servers[1..];
      var t0 := if s0.id == id then s0.(name := name) else s0;
      assert servers == [s0] + tail;
      RenameCons(s0, tail, id, name);
      var r := RenameServer(servers, id, name);
      assert r[0] == t0 && r[1..] == RenameServer(tail, id, name);
      assert Passes(t0, f) == Passes(s0, f);
      RenameWithoutSearch(tail, id, name, f);
      var ft := FilteredServers(tail, f);
      if Passes(s0, f) {
        RenameCons(s0, ft, id, name);
      }
    }
  }

  /** A server with only an id and a name. */
  function Probe(id: int, name: string): Server {
    Server(id, "", name, "", "", Apache, Standard, Physical, Running, 0, "")
  }

  /** A rename under an active search can take the current page out of range: with one row
      per page and both servers matching "alpha", page 2 exists; renaming server 2 to "beta"
      leaves a single page, and no action resets the page. */
  lemma RenameCanStrandPage()
    ensures var before := [Probe(1, "alpha"), Probe(2, "alpha")];
      var f := DefaultFilters().(search := "alpha");
      TotalPages(|FilteredServers(before, f)|, 1) == 2
      && TotalPages(|FilteredServers(RenameServer(before, 2, "beta"), f)|, 1) == 1
  {
    var f := DefaultFilters().(search := "alpha");
    var a1, a2, b2 := Probe(1, "alpha"), Probe(2, "alpha"), Probe(2, "beta");
    assert Lower("alpha") == "alpha";
    assert Lower("beta") == "beta";
    assert Lower("") == "";
    assert Contains("alpha", "alpha") by { assert "alpha"[..5] == "alpha"; }
    assert Passes(a1, f) && Passes(a2, f) && !Passes(b2, f);
    var before := [a1, a2];
    assert before[1..] == [a2] && [a2][1..] == [];
    assert FilteredServers(before, f) == before;
    RenameCons(a1, [a2], 2, "beta");
    RenameCons(a2, [], 2, "beta");
    var after := RenameServer(before, 2, "beta");
    assert after == [a1, b2];
    assert after[1..] == [b2] && [b2][1..] == [];
    assert FilteredServers(after, f) == [a1];
  }

  class TableStateStore {
    var servers: seq<Server>
    var filters: ActiveFilters
    var sort: SortState
    var pagination: PaginationState
    var columns: seq<ColumnDefinition>
    var selectedIds: set<int>
    var searchHistory: seq<string>
    var filterVisibility: FilterVisibility
    var moreFiltersVisible: bool
    var assetSearchQuery: string
    var uiState: UIState
    /** Set by tests: the context menu then opens exactly at the pointer. */
    var isTest: bool
    const storage: Storage

    /** The page number is at least 1 and pages hold at least one row. */
    predicate Valid()
      reads this`pagination
    {
      pagination.currentPage >= 1 && pagination.rowsPerPage >= 1
    }

    /** The first time the store is built: `generated` is the generator's record set. The
        persisted preferences are read back; a stored column list wins over the defaults. The
        first run of the three persisting effects then writes the column order, the filter
        visibility and the more-filters flag back to storage. */
    constructor(storage: Storage, generated: seq<Server>)
      modifies storage`entries
      ensures Valid()
      ensures this.storage == storage && servers == generated
      ensures filters == DefaultFilters() && sort == DefaultSort()
      ensures pagination == DefaultPagination().(totalItems := |generated|)
      ensures columns == old(storage.GetColumnOrder()).GetOr(DefaultColumns())
      ensures selectedIds == {} && searchHistory == old(storage.GetSearchHistory())
      ensures filterVisibility == old(storage.GetFilterVisibility())
      ensures moreFiltersVisible == old(storage.GetMoreFiltersVisible())
      ensures assetSearchQuery == "" && uiState == DefaultUIState() && !isTest
      ensures storage.entries == if storage.isBrowser then
                                   old(storage.entries)[ColumnOrderKey := Columns(columns)]
                                                       [FilterVisibilityKey := Visibility(filterVisibility)]
                                                       [MoreFiltersVisibleKey := Text(if moreFiltersVisible then "true" else "false")]
                                 else old(storage.entries)
    {
      this.storage := storage;
      servers := generated;
      filters := DefaultFilters();
      sort := DefaultSort();
      pagination := DefaultPagination().(totalItems := |generated|);
      columns := storage.GetColumnOrder().GetOr(DefaultColumns());
      selectedIds := {};
      searchHistory := storage.GetSearchHistory();
      filterVisibility := storage.GetFilterVisibility();
      moreFiltersVisible := storage.GetMoreFiltersVisible();
      assetSearchQuery := "";
      uiState := DefaultUIState();
      isTest := false;
      new;
      PersistPreferences();
    }

    /** A run of the three persisting effects: the column order, the filter visibility and the
        more-filters flag are written to storage. */
    method PersistPreferences()
      modifies storage`entries
      ensures storage.entries == if storage.isBrowser then
                                   old(storage.entries)[ColumnOrderKey := Columns(columns)]
                                                       [FilterVisibilityKey := Visibility(filterVisibility)]
                                                       [MoreFiltersVisibleKey := Text(if moreFiltersVisible then "true" else "false")]
                                 else old(storage.entries)
      ensures storage.isBrowser ==> storage.GetColumnOrder() == Some(columns) && storage.GetFilterVisibility() == filterVisibility
      ensures storage.GetMoreFiltersVisible() == (storage.isBrowser && moreFiltersVisible)
    {
      storage.SetColumnOrder(columns);
      storage.SetFilterVisibility(filterVisibility);
      storage.SetMoreFiltersVisible(moreFiltersVisible);
    }

    // -------------------------------------------------------------------------
    // Derived views
    // -------------------------------------------------------------------------

    function Filtered(): (r: seq<Server>)
      reads this`servers, this`filters
      ensures IsSubsequence(r, servers)
      ensures forall x :: x in r <==> x in servers && Matches(x, filters)
    {
      FilteredServers(servers, filters)
    }

    function Sorted(): (r: seq<Server>)
      reads this`servers, this`filters, this`sort
      ensures multiset(r) == multiset(Filtered())
    {
      SortedServers(Filtered(), sort)
    }

    function Page(): (r: seq<Server>)
      requires Valid()
      reads this`servers, this`filters, this`sort, this`pagination
      ensures |r| <= pagination.rowsPerPage
      ensures PageStart(pagination.currentPage, pagination.rowsPerPage) >= |Filtered()| ==> r == []
    {
      Paginated(Sorted(), pagination.currentPage, pagination.rowsPerPage)
    }

    function PageCount(): (r: int)
      requires Valid()
      reads this`servers, this`filters, this`pagination
      ensures r >= 1 && |Filtered()| <= r * pagination.rowsPerPage
    {
      TotalPages(|Filtered()|, pagination.rowsPerPage)
    }

    /** The current page is one of the pages the filtered list has. */
    predicate PageInRange()
      requires Valid()
      reads this`servers, this`filters, this`pagination
    {
      pagination.currentPage <= PageCount()
    }

    function SelectionState(): (r: PageSelection)
      requires Valid()
      reads this`servers, this`filters, this`sort, this`pagination, this`selectedIds
      ensures r.selectedCount == |selectedIds|
      ensures !(r.allSelected && r.someSelected)
      ensures r.allSelected ==> Page() != []
    {
      PageSelectionState(Page(), selectedIds)
    }

    // -------------------------------------------------------------------------
    // Filter actions: each resets the page to 1
    // -------------------------------------------------------------------------

    method SetSearchQuery(query: string)
      requires Valid()
      modifies this`filters, this`pagination
      ensures filters == old(filters).(search := query)
      ensures pagination == old(pagination).(currentPage := 1)
      ensures Valid() && PageInRange()
    {
      filters := filters.(search := query);
      ResetToFirstPage();
    }

    /** `addToSearchHistory`: a query that trims to nothing is ignored; otherwise the trimmed
        query is recorded in the persisted history, and the store keeps the new list. */
    method AddToSearchHistory(query: string)
      modifies this`searchHistory, storage`entries
      ensures Trim(query) == "" ==> searchHistory == old(searchHistory) && storage.entries == old(storage.entries)
      ensures Trim(query) != "" ==> searchHistory == AddToHistory(old(storage.GetSearchHistory()), Trim(query))
      ensures Trim(query) != "" && storage.isBrowser ==> storage.GetSearchHistory() == searchHistory
      ensures Trim(query) != "" ==>
        storage.entries == if storage.isBrowser then old(storage.entries)[SearchHistoryKey := History(searchHistory)]
                           else old(storage.entries)
    {
      var q := Trim(query);
      if q != "" {
        RecordHistory(q);
      }
    }

    /** The recording half of `addToSearchHistory`, for a query already trimmed: the stored
        history gains `q`, and the store keeps the list it wrote. */
    method RecordHistory(q: string)
      modifies this`searchHistory, storage`entries
      ensures searchHistory == AddToHistory(old(storage.GetSearchHistory()), q)
      ensures storage.entries == if storage.isBrowser then old(storage.entries)[SearchHistoryKey := History(searchHistory)]
                                 else old(storage.entries)
      ensures storage.isBrowser ==> storage.GetSearchHistory() == searchHistory
    {
      var updated := storage.AddToSearchHistory(q);
      searchHistory := updated;
    }

    method SetMultiSelectFilter(g: FilterGroup, values: seq<string>)
      requires Valid()
      modifies this`filters, this`pagination
      ensures filters == WithGroup(old(filters), g, values)
      ensures pagination == old(pagination).(currentPage := 1)
      ensures Valid() && PageInRange()
    {
      filters := WithGroup(filters, g, values);
      ResetToFirstPage();
    }

    method ToggleFilterValue(g: FilterGroup, value: string)
      requires Valid()
      modifies this`filters, this`pagination
      ensures filters == WithGroup(old(filters), g, ToggleValue(GroupValues(old(filters), g), value))
      ensures value in GroupValues(filters, g) <==> value !in GroupValues(old(filters), g)
      ensures pagination == old(pagination).(currentPage := 1)
      ensures Valid() && PageInRange()
    {
      filters := WithGroup(filters, g, ToggleValue(GroupValues(filters, g), value));
      ResetToFirstPage();
    }

    method SetDateRange(from: Option<string>, to: Option<string>)
      requires Valid()
      modifies this`filters, this`pagination
      ensures filters == old(filters).(dateFrom := from, dateTo := to)
      ensures pagination == old(pagination).(currentPage := 1)
      ensures Valid() && PageInRange()
    {
      filters := filters.(dateFrom := from, dateTo := to);
      ResetToFirstPage();
    }

    /** `setDatePreset`: 'all' clears both bounds and 'custom' does nothing. Any other preset
        sets the range from `presetStart`, the ISO day the preset's window starts on, to
        `today`; both come from the clock. */
    method SetDatePreset(preset: DatePreset, presetStart: string, today: string)
      requires Valid()
      modifies this`filters, this`pagination
      ensures preset == Custom ==> filters == old(filters) && pagination == old(pagination)
      ensures preset == All ==> filters == old(filters).(dateFrom := None, dateTo := None)
      ensures preset != All && preset != Custom ==>
        filters == old(filters).(dateFrom := Some(presetStart), dateTo := Some(today))
      ensures preset != Custom ==> pagination == old(pagination).(currentPage := 1)
      ensures Valid()
    {
      if preset == All {
        SetDateRange(None, None);
        return;
      }
      if preset == Custom {
        return;
      }
      SetDateRange(Some(presetStart), Some(today));
    }

    method SetAssetSearchQuery(query: string)
      modifies this`assetSearchQuery
      ensures assetSearchQuery == query
    {
      assetSearchQuery := query;
    }

    /** `clearAllFilters`: default filters, empty asset search, first page; every server is
        listed again. */
    method ClearAllFilters()
      requires Valid()
      modifies this`filters, this`assetSearchQuery, this`pagination
      ensures filters == DefaultFilters() && assetSearchQuery == ""
      ensures pagination == old(pagination).(currentPage := 1)
      ensures Filtered() == servers && !HasActiveFilters(filters)
      ensures Valid() && PageInRange()
    {
      filters := DefaultFilters();
      assetSearchQuery := "";
      ResetToFirstPage();
      FilterDefaultIsIdentity(servers);
    }

    // -------------------------------------------------------------------------
    // Filter visibility
    // -------------------------------------------------------------------------

    // The persisting effects write the new visibility, or the new more-filters flag, back to
    // storage after each change; the methods below make that write themselves.

    method ToggleFilterVisibility(k: VisibilityKey)
      modifies this`filterVisibility, storage`entries
      ensures filterVisibility == WithVisible(old(filterVisibility), k, !Visible(old(filterVisibility), k))
      ensures storage.entries == if storage.isBrowser then old(storage.entries)[FilterVisibilityKey := Visibility(filterVisibility)]
                                 else old(storage.entries)
      ensures storage.isBrowser ==> storage.GetFilterVisibility() == filterVisibility
    {
      filterVisibility := WithVisible(filterVisibility, k, !Visible(filterVisibility, k));
      storage.SetFilterVisibility(filterVisibility);
    }

    method SetFilterVisibility(k: VisibilityKey, visible: bool)
      modifies this`filterVisibility, storage`entries
      ensures filterVisibility == WithVisible(old(filterVisibility), k, visible)
      ensures storage.entries == if storage.isBrowser then old(storage.entries)[FilterVisibilityKey := Visibility(filterVisibility)]
                                 else old(storage.entries)
      ensures storage.isBrowser ==> storage.GetFilterVisibility() == filterVisibility
    {
      filterVisibility := WithVisible(filterVisibility, k, visible);
      storage.SetFilterVisibility(filterVisibility);
    }

    method ToggleMoreFilters()
      modifies this`moreFiltersVisible, storage`entries
      ensures moreFiltersVisible == !old(moreFiltersVisible)
      ensures storage.entries == if storage.isBrowser then old(storage.entries)[MoreFiltersVisibleKey := Text(if moreFiltersVisible then "true" else "false")]
                                 else old(storage.entries)
      ensures storage.GetMoreFiltersVisible() == (storage.isBrowser && moreFiltersVisible)
    {
      moreFiltersVisible := !moreFiltersVisible;
      storage.SetMoreFiltersVisible(moreFiltersVisible);
    }

    // -------------------------------------------------------------------------
    // Sort
    // -------------------------------------------------------------------------

    method ToggleSort(col: string)
      modifies this`sort
      ensures sort == QueryState.ToggleSort(old(sort), col)
    {
      sort := QueryState.ToggleSort(sort, col);
    }

    method SetSort(col: Option<string>, direction: Option<SortDirection>)
      modifies this`sort
      ensures sort == SortState(col, direction)
    {
      sort := SortState(col, direction);
    }

    // -------------------------------------------------------------------------
    // Pagination
    // -------------------------------------------------------------------------

    /** `setPage`: the requested page clamped to `1..totalPages`. */
    method SetPage(page: int)
      requires Valid()
      modifies this`pagination
      ensures pagination == old(pagination).(currentPage := ClampPage(page, old(PageCount())))
      ensures Valid() && PageInRange()
    {
      var total := PageCount();
      pagination := pagination.(currentPage := ClampPage(page, total));
    }

    method NextPage()
      requires Valid()
      modifies this`pagination
      ensures Valid() && PageInRange()
      ensures pagination.currentPage == ClampPage(old(pagination.currentPage) + 1, PageCount())
      ensures old(pagination.currentPage) == PageCount() ==> pagination == old(pagination)
      ensures old(pagination.currentPage) < PageCount() ==> pagination.currentPage == old(pagination.currentPage) + 1
    {
      SetPage(pagination.currentPage + 1);
    }

    method PrevPage()
      requires Valid()
      modifies this`pagination
      ensures Valid() && PageInRange()
      ensures pagination.currentPage == ClampPage(old(pagination.currentPage) - 1, PageCount())
      ensures old(pagination.currentPage) == 1 ==> pagination == old(pagination)
      ensures 1 < old(pagination.currentPage) <= PageCount() ==> pagination.currentPage == old(pagination.currentPage) - 1
    {
      SetPage(pagination.currentPage - 1);
    }

    method FirstPage()
      requires Valid()
      modifies this`pagination
      ensures pagination == old(pagination).(currentPage := 1)
      ensures Valid() && PageInRange()
    {
      SetPage(1);
    }

    method LastPage()
      requires Valid()
      modifies this`pagination
      ensures Valid() && PageInRange()
      ensures pagination == old(pagination).(currentPage := PageCount())
    {
      SetPage(PageCount());
    }

    /** `setRowsPerPage`: the page size changes and the page goes back to 1. */
    method SetRowsPerPage(rows: int)
      requires Valid() && rows >= 1
      modifies this`pagination
      ensures pagination == old(pagination).(rowsPerPage := rows, currentPage := 1)
      ensures Valid() && PageInRange()
    {
      pagination := pagination.(rowsPerPage := rows, currentPage := 1);
    }

    method ResetToFirstPage()
      requires Valid()
      modifies this`pagination
      ensures pagination == old(pagination).(currentPage := 1)
      ensures Valid() && PageInRange()
    {
      pagination := pagination.(currentPage := 1);
    }

    // -------------------------------------------------------------------------
    // Columns
    // -------------------------------------------------------------------------

    /** `reorderColumns`: moves one column and writes the new order to storage. */
    method ReorderColumns(fromIndex: int, toIndex: int)
      requires SpliceIndex(fromIndex, |columns|) < |columns|
      modifies this`columns, storage`entries
      ensures columns == Reorder(old(columns), fromIndex, toIndex)
      ensures storage.entries == if storage.isBrowser then old(storage.entries)[ColumnOrderKey := Columns(columns)]
                                 else old(storage.entries)
    {
      var updated := Reorder(columns, fromIndex, toIndex);
      storage.SetColumnOrder(updated);
      columns := updated;
    }

    /** `reorderColumnById`: moves the dragged column onto the target's position when both
        ids are present. */
    method ReorderColumnById(fromId: string, toId: string)
      modifies this`columns, storage`entries
      ensures columns == ReorderById(old(columns), fromId, toId)
      ensures ColumnIndex(old(columns), fromId) == -1 || ColumnIndex(old(columns), toId) == -1 ==>
        storage.entries == old(storage.entries)
      ensures ColumnIndex(old(columns), fromId) >= 0 && ColumnIndex(old(columns), toId) >= 0 && storage.isBrowser ==>
        storage.GetColumnOrder() == Some(columns)
      ensures ColumnIndex(old(columns), fromId) >= 0 && ColumnIndex(old(columns), toId) >= 0 ==>
        storage.entries == if storage.isBrowser then old(storage.entries)[ColumnOrderKey := Columns(columns)]
                           else old(storage.entries)
    {
      var fromIndex := ColumnIndex(columns, fromId);
      var toIndex := ColumnIndex(columns, toId);
      if fromIndex != -1 && toIndex != -1 {
        ReorderColumns(fromIndex, toIndex);
      }
    }

    // -------------------------------------------------------------------------
    // Selection
    // -------------------------------------------------------------------------

    method ToggleSelection(id: int)
      modifies this`selectedIds
      ensures selectedIds == ToggleId(old(selectedIds), id)
    {
      selectedIds := ToggleId(selectedIds, id);
    }

    /** `selectRange`: adds the ids of the filtered rows between the two ids' positions. */
    method SelectRange(fromId: int, toId: int)
      modifies this`selectedIds
      ensures selectedIds == RangeSelection(old(selectedIds), Filtered(), fromId, toId)
    {
      var list := Filtered();
      var fromIndex := FindIndex(list, fromId);
      var toIndex := FindIndex(list, toId);
      if fromIndex == -1 || toIndex == -1 {
        return;
      }
      var start, end := fromIndex, toIndex;
      if toIndex < fromIndex {
        start, end := toIndex, fromIndex;
      }
      selectedIds := AddIdsBetween(selectedIds, list, start, end);
    }

    /** `selectAllOnPage`: adds the ids of the current page. */
    method SelectAllOnPage()
      requires Valid()
      modifies this`selectedIds
      ensures selectedIds == old(selectedIds) + PageIds(Page())
      ensures Page() != [] ==> SelectionState().allSelected
    {
      var page := Page();
      selectedIds := AddPageIds(selectedIds, page);
      if page != [] {
        SelectPageSelectsAll(page, old(selectedIds));
      }
    }

    /** `deselectAllOnPage`: removes the ids of the current page. */
    method DeselectAllOnPage()
      requires Valid()
      modifies this`selectedIds
      ensures selectedIds == old(selectedIds) - PageIds(Page())
      ensures !SelectionState().allSelected && !SelectionState().someSelected
    {
      var page := Page();
      selectedIds := RemovePageIds(selectedIds, page);
      DeselectPageClearsPage(page, old(selectedIds));
    }

    /** `toggleSelectAll`: on a non-empty page it flips whether the page is all selected. */
    method ToggleSelectAll()
      requires Valid()
      modifies this`selectedIds
      ensures selectedIds == ToggleAll(Page(), old(selectedIds))
      ensures Page() != [] ==> SelectionState().allSelected == !old(SelectionState().allSelected)
    {
      if SelectionState().allSelected {
        DeselectAllOnPage();
      } else {
        SelectAllOnPage();
      }
      if Page() != [] {
        ToggleAllFlips(Page(), old(selectedIds));
      }
    }

    method ClearSelection()
      modifies this`selectedIds
      ensures selectedIds == {}
    {
      selectedIds := {};
    }

    // -------------------------------------------------------------------------
    // UI state
    // -------------------------------------------------------------------------

    method SetOpenDropdown(dropdown: Option<string>)
      modifies this`uiState
      ensures uiState == old(uiState).(openDropdown := dropdown)
    {
      uiState := uiState.(openDropdown := dropdown);
    }

    method ToggleDropdown(dropdown: string)
      modifies this`uiState
      ensures uiState == old(uiState).(openDropdown := ToggleOpen(old(uiState.openDropdown), dropdown))
    {
      uiState := uiState.(openDropdown := ToggleOpen(uiState.openDropdown, dropdown));
    }

    method CloseAllDropdowns()
      modifies this`uiState
      ensures uiState == old(uiState).(openDropdown := None)
    {
      uiState := uiState.(openDropdown := None);
    }

    method SetHoveredRow(id: Option<int>)
      modifies this`uiState
      ensures uiState == old(uiState).(hoveredRowId := id)
    {
      uiState := uiState.(hoveredRowId := id);
    }

    method SetEditingCell(id: Option<int>)
      modifies this`uiState
      ensures uiState == old(uiState).(editingCellId := id)
    {
      uiState := uiState.(editingCellId := id);
    }

    method ShowContextMenu(x: int, y: int, targetIds: seq<int>)
      modifies this`uiState
      ensures uiState == old(uiState).(contextMenuPosition := Some(MenuPosition(x, y, isTest)),
                                       contextMenuTargetIds := targetIds)
    {
      uiState := uiState.(contextMenuPosition := Some(MenuPosition(x, y, isTest)), contextMenuTargetIds := targetIds);
    }

    method HideContextMenu()
      modifies this`uiState
      ensures uiState == old(uiState).(contextMenuPosition := None, contextMenuTargetIds := [])
    {
      uiState := uiState.(contextMenuPosition := None, contextMenuTargetIds := []);
    }

    // -------------------------------------------------------------------------
    // Data
    // -------------------------------------------------------------------------

    /** `updateServerName`: renames the servers with that id. The page is not re-clamped; it
        stays in range when no search is active. */
    method UpdateServerName(id: int, name: string)
      requires Valid()
      modifies this`servers
      ensures servers == RenameServer(old(servers), id, name)
      ensures filters.search == "" && old(PageInRange()) ==> PageInRange()
    {
      if filters.search == "" {
        RenameWithoutSearch(servers, id, name, filters);
      }
      servers := RenameServer(servers, id, name);
    }

    /** `loadLargeDataset`: `generated` replaces the records; the total is the new count, the
        selection is emptied and the page goes back to 1. */
    method LoadLargeDataset(generated: seq<Server>)
      requires Valid()
      modifies this`servers, this`pagination, this`selectedIds
      ensures servers == generated && selectedIds == {}
      ensures pagination == old(pagination).(totalItems := |generated|, currentPage := 1)
      ensures Valid() && PageInRange()
    {
      servers := generated;
      pagination := pagination.(totalItems := |servers|);
      ClearSelection();
      ResetToFirstPage();
    }
  }
}

=== FILE: table_widget.dfy ===
/** The container component (src/app/components/table-widget/table-widget.component.ts): it
    forwards the table's action and edit events and exports the listed rows as CSV. */
module TableWidget {
  import opened Seqs
  import opened Text
  import opened ServerModel
  import opened TableModel
  import opened FilterModel
  import opened ActionModel
  import opened Derivation
  import opened Selection
  import opened StateStore

  /** `value ?? ''` as `join` renders it: a missing property is empty, a number its decimal
      text. */
  function CsvCell(v: FieldValue): string {
    match v
    case Str(s) => s
    case Num(n) => IntToString(n)
    case Missing => ""
  }

  /** The cells of one server's row, one per column, in column order. */
  function CsvCells(server: Server, cols: seq<ColumnDefinition>): (r: seq<string>)
    ensures |r| == |cols|
    ensures forall i :: 0 <= i < |cols| ==> r[i] == CsvCell(Field(server, cols[i].id))
  {
    seq(|cols|, i requires 0 <= i < |cols| => CsvCell(Field(server, cols[i].id)))
  }

  function CsvRow(server: Server, cols: seq<ColumnDefinition>): string {
    Join(CsvCells(server, cols), ",")
  }

  /** The column captions, in column order. */
  function Captions(cols: seq<ColumnDefinition>): (r: seq<string>)
    ensures |r| == |cols|
    ensures forall i :: 0 <= i < |cols| ==> r[i] == cols[i].caption
  {
    seq(|cols|, i requires 0 <= i < |cols| => cols[i].caption)
  }

  function CsvHeader(cols: seq<ColumnDefinition>): string {
    Join(Captions(cols), ",")
  }

  /** One row per server, in order. */
  function CsvRows(servers: seq<Server>, cols: seq<ColumnDefinition>): (r: seq<string>)
    ensures |r| == |servers|
    ensures forall k :: 0 <= k < |servers| ==> r[k] == CsvRow(servers[k], cols)
  {
    seq(|servers|, k requires 0 <= k < |servers| => CsvRow(servers[k], cols))
  }

  /** The exported text: the header line, then one line per server. */
  function Csv(servers: seq<Server>, cols: seq<ColumnDefinition>): string {
    Join([CsvHeader(cols)] + CsvRows(servers, cols), "\n")
  }

  /** The rows `onExport` writes: the selected servers when there is a selection, whether
      or not the filters list them; otherwise the servers the filters list. Both keep the
      store's order. */
  function ExportRows(servers: seq<Server>, f: ActiveFilters, selected: set<int>): (r: seq<Server>)
    ensures IsSubsequence(r, servers)
    ensures forall x :: x in r <==> x in servers && (if selected == {} then Matches(x, f) else x.id in selected)
  {
    if |selected| > 0 then SelectedServers(servers, selected) else FilteredServers(servers, f)
  }

  /** Without a selection or an active filter every server is exported. */
  lemma ExportAllByDefault(servers: seq<Server>)
    ensures ExportRows(servers, DefaultFilters(), {}) == servers
  {
    FilterDefaultIsIdentity(servers);
  }

  /** No cell of the row holds `c`. */
  ghost predicate CellsFree(server: Server, cols: seq<ColumnDefinition>, c: char) {
    forall i :: 0 <= i < |cols| ==> c !in CsvCell(Field(server, cols[i].id))
  }

  /** Numbers are written with digits and a minus sign only, so they never hold a separator. */
  lemma NumberCellsFree(n: int)
    ensures ',' !in IntToString(n) && '\n' !in IntToString(n)
  {
    var s := IntToString(n);
    forall i | 0 <= i < |s| ensures s[i] != ',' && s[i] != '\n' {
      assert IsDigit(s[i]) || s[i] == '-';
    }
  }

  /** Reading the header back on commas gives the captions, when no caption holds a comma. */
  lemma CsvHeaderFields(cols: seq<ColumnDefinition>)
    requires |cols| >= 1
    requires forall i :: 0 <= i < |cols| ==> ',' !in cols[i].caption
    ensures Split(CsvHeader(cols), ',') == Captions(cols)
  {
    SplitJoin(Captions(cols), ',');
  }

  /** Reading a row back on commas gives one cell per column, when no cell holds a comma. */
  lemma CsvRowFields(server: Server, cols: seq<ColumnDefinition>)
    requires |cols| >= 1
    requires CellsFree(server, cols, ',')
    ensures Split(CsvRow(server, cols), ',') == CsvCells(server, cols)
  {
    SplitJoin(CsvCells(server, cols), ',');
  }

  /** Reading the export back on line breaks gives the header and then one line per server,
      when no caption and no cell holds a line break. */
  lemma CsvLines(servers: seq<Server>, cols: seq<ColumnDefinition>)
    requires forall i :: 0 <= i < |cols| ==> '\n' !in cols[i].caption
    requires forall k :: 0 <= k < |servers| ==> CellsFree(servers[k], cols, '\n')
    ensures Split(Csv(servers, cols), '\n') == [CsvHeader(cols)] + CsvRows(servers, cols)
    ensures |Split(Csv(servers, cols), '\n')| == |servers| + 1
  {
    var lines := [CsvHeader(cols)] + CsvRows(servers, cols);
    JoinExcludes(Captions(cols), ",", '\n');
    forall k | 0 <= k < |servers| ensures '\n' !in CsvRow(servers[k], cols) {
      JoinExcludes(CsvCells(servers[k], cols), ",", '\n');
    }
    forall k | 0 <= k < |lines| ensures '\n' !in lines[k] {
      if k > 0 {
        assert lines[k] == CsvRow(servers[k - 1], cols);
      }
    }
    SplitJoin(lines, '\n');
  }

  class TableWidgetComponent {
    const store: TableStateStore
    /** Events emitted on `action`, `edit` and `export`, oldest first. */
    var actionEvents: seq<TableActionEvent>
    var editEvents: seq<InlineEditEvent>
    var exportEvents: nat
    /** The CSV files offered for download as `servers-export.csv`, oldest first. */
    var downloads: seq<string>

    constructor(store: TableStateStore)
      ensures this.store == store
      ensures actionEvents == [] && editEvents == [] && exportEvents == 0 && downloads == []
    {
      this.store := store;
      actionEvents := [];
      editEvents := [];
      exportEvents := 0;
      downloads := [];
    }

    method OnAction(event: TableActionEvent)
      modifies this`actionEvents
      ensures actionEvents == old(actionEvents) + [event]
    {
      actionEvents := actionEvents + [event];
    }

    method OnEdit(event: InlineEditEvent)
      modifies this`editEvents
      ensures editEvents == old(editEvents) + [event]
    {
      editEvents := editEvents + [event];
    }

    /** `onExport`: builds the CSV of the exported rows over the current columns, offers it
        for download and emits `export`. */
    method OnExport() returns (csv: string)
      modifies this`downloads, this`exportEvents
      ensures csv == Csv(ExportRows(store.servers, store.filters, store.selectedIds), store.columns)
      ensures downloads == old(downloads) + [csv]
      ensures exportEvents == old(exportEvents) + 1
    {
      var servers := if |store.selectedIds| > 0 then SelectedServers(store.servers, store.selectedIds)
                     else store.Filtered();
      var columns := store.columns;
      var headers := Join(Captions(columns), ",");
      var rows := seq(|servers|, k requires 0 <= k < |servers| => Join(CsvCells(servers[k], columns), ","));
      assert rows == CsvRows(servers, columns);
      csv := Join([headers] + rows, "\n");
      downloads := downloads + [csv];
      exportEvents := exportEvents + 1;
    }
  }
}

=== FILE: text.dfy ===
/** The string operations of the JavaScript runtime that the core relies on: lower-casing,
    `includes`, `trim`, string ordering, `Array.prototype.join`, and the decimal rendering of
    numbers that template strings and `join` perform. */
module Text {

  // ---------------------------------------------------------------------------
  // Lower-casing (ASCII letters only)
  // ---------------------------------------------------------------------------

  function LowerChar(c: char): char {
    if 'A' <= c <= 'Z' then (c as int + 32) as char else c
  }

  /** `s.toLowerCase()` restricted to ASCII letters. */
  function Lower(s: string): (r: string)
    ensures |r| == |s|
    ensures forall i :: 0 <= i < |s| ==> r[i] == LowerChar(s[i])
  {
    seq(|s|, i requires 0 <= i < |s| => LowerChar(s[i]))
  }

  lemma LowerIdempotent(s: string)
    ensures Lower(Lower(s)) == Lower(s)
  {
  }

  // ---------------------------------------------------------------------------
  // Substring search
  // ---------------------------------------------------------------------------

  /** `needle` occurs in `hay` starting at index `i`. */
  ghost predicate OccursAt(hay: string, needle: string, i: int) {
    0 <= i <= |hay| - |needle| && hay[i..i + |needle|] == needle
  }

  /** `hay.includes(needle)`. */
  function Contains(hay: string, needle: string): (b: bool)
    ensures b <==> exists i :: OccursAt(hay, needle, i)
    decreases |hay|
  {
    if |needle| > |hay| then false
    else if hay[..|needle|] == needle then
      assert OccursAt(hay, needle, 0);
      true
    else
      var b := Contains(hay[1..], needle);
      assert forall i :: OccursAt(hay[1..], needle, i) ==> OccursAt(hay, needle, i + 1);
      assert forall i :: OccursAt(hay, needle, i) && i > 0 ==> OccursAt(hay[1..], needle, i - 1);
      b
  }

  // ---------------------------------------------------------------------------
  // trim
  // ---------------------------------------------------------------------------

  /** The code points ECMAScript counts as WhiteSpace or LineTerminator, which `trim` strips. */
  predicate IsWhitespace(c: char) {
    var n := c as int;
    n == 0x09 || n == 0x0A || n == 0x0B || n == 0x0C || n == 0x0D || n == 0x20 || n == 0xA0
    || n == 0x1680 || (0x2000 <= n <= 0x200A) || n == 0x2028 || n == 0x2029 || n == 0x202F
    || n == 0x205F || n == 0x3000 || n == 0xFEFF
  }

  ghost predicate AllWhitespace(s: string) {
    forall i :: 0 <= i < |s| ==> IsWhitespace(s[i])
  }

  function TrimStart(s: string): (r: string)
    ensures |r| <= |s| && r == s[|s| - |r|..]
    ensures AllWhitespace(s[..|s| - |r|])
    ensures r == [] || !IsWhitespace(r[0])
  {
    if |s| > 0 && IsWhitespace(s[0]) then
      var r := TrimStart(s[1..]);
      assert s[..|s| - |r|] == [s[0]] + s[1..][..|s| - 1 - |r|];
      r
    else s
  }

  function TrimEnd(s: string): (r: string)
    ensures |r| <= |s| && r == s[..|r|]
    ensures AllWhitespace(s[|r|..])
    ensures r == [] || !IsWhitespace(r[|r| - 1])
  {
    if |s| > 0 && IsWhitespace(s[|s| - 1]) then
      var r := TrimEnd(s[..|s| - 1]);
      assert s[|r|..] == s[..|s| - 1][|r|..] + [s[|s| - 1]];
      r
    else s
  }

  /** `s.trim()`: the longest slice of `s` without leading or trailing white space. */
  function Trim(s: string): (r: string)
    ensures |r| <= |s|
  {
    TrimEnd(TrimStart(s))
  }

  /** What `trim` promises: the result is empty exactly for a blank string, has no white
      space at either end, and is the slice of the input left after removing a blank prefix
      and a blank suffix. */
  lemma TrimSpec(s: string)
    ensures Trim(s) == [] <==> AllWhitespace(s)
    ensures Trim(s) == [] || (!IsWhitespace(Trim(s)[0]) && !IsWhitespace(Trim(s)[|Trim(s)| - 1]))
    ensures exists i :: OccursAt(s, Trim(s), i) && AllWhitespace(s[..i]) && AllWhitespace(s[i + |Trim(s)|..])
  {
    var k := TrimIsSlice(s);
    TrimEmptyOnlyIfBlank(s);
    TrimEmptyIfBlank(s);
  }

  /** The trimmed text sits at position `k`, after a blank prefix and before a blank suffix. */
  lemma TrimIsSlice(s: string) returns (k: nat)
    ensures OccursAt(s, Trim(s), k) && AllWhitespace(s[..k]) && AllWhitespace(s[k + |Trim(s)|..])
  {
    var t := TrimStart(s);
    k := |s| - |t|;
    var r := TrimEnd(t);
    assert r == Trim(s);
    assert s[k..] == t;
    assert OccursAt(s, r, k) by {
      SuffixSlices(s, k, |r|);
    }
    assert AllWhitespace(s[k + |r|..]) by {
      SuffixSlices(s, k, |r|);
    }
  }

  /** Slicing the suffix of `s` that starts at `k` is slicing `s` shifted by `k`. */
  lemma SuffixSlices(s: string, k: nat, n: nat)
    requires k + n <= |s|
    ensures s[k..][..n] == s[k..k + n]
    ensures s[k..][n..] == s[k + n..]
  {
  }

  lemma TrimEmptyOnlyIfBlank(s: string)
    ensures TrimEnd(TrimStart(s)) == [] ==> AllWhitespace(s)
  {
    var t := TrimStart(s);
    if t == [] {
      assert s[..|s|] == s;
    } else {
      // A non-blank remainder starts with a non-blank character that `TrimEnd` keeps.
      assert TrimEnd(t) != [];
    }
  }

  lemma TrimEmptyIfBlank(s: string)
    ensures AllWhitespace(s) ==> TrimEnd(TrimStart(s)) == []
  {
    var t := TrimStart(s);
    var r := TrimEnd(t);
    if r != [] {
      assert s[|s| - |t|] == r[0];
    }
  }

  lemma TrimIdempotent(s: string)
    ensures Trim(Trim(s)) == Trim(s)
  {
    var r := Trim(s);
    if r != [] {
      assert TrimStart(r) == r;
      assert TrimEnd(r) == r;
    }
  }

  // ---------------------------------------------------------------------------
  // String order
  // ---------------------------------------------------------------------------

  /** Lexicographic comparison by code point: -1, 0 or 1. It stands for
      `String.prototype.localeCompare`, and `CompareStrings(a, b) < 0` for the `<` operator. */
  function CompareStrings(a: string, b: string): (c: int)
    ensures -1 <= c <= 1
  {
    if a == [] && b == [] then 0
    else if a == [] then -1
    else if b == [] then 1
    else if a[0] < b[0] then -1
    else if a[0] > b[0] then 1
    else CompareStrings(a[1..], b[1..])
  }

  /** `a < b` on strings. */
  predicate StrLess(a: string, b: string) {
    CompareStrings(a, b) < 0
  }

  lemma {:induction false} CompareStringsAntisymmetric(a: string, b: string)
    ensures CompareStrings(a, b) == -CompareStrings(b, a)
  {
    if a != [] && b != [] && a[0] == b[0] {
      CompareStringsAntisymmetric(a[1..], b[1..]);
    }
  }

  lemma {:induction false} CompareStringsZero(a: string, b: string)
    ensures CompareStrings(a, b) == 0 <==> a == b
  {
    if a != [] && b != [] && a[0] == b[0] {
      CompareStringsZero(a[1..], b[1..]);
      assert a == [a[0]] + a[1..];
      assert b == [b[0]] + b[1..];
    }
  }

  lemma {:induction false} CompareStringsTransitive(a: string, b: string, c: string)
    requires CompareStrings(a, b) <= 0 && CompareStrings(b, c) <= 0
    ensures CompareStrings(a, c) <= 0
  {
    if a != [] && b != [] && c != [] && a[0] == b[0] && b[0] == c[0] {
      CompareStringsTransitive(a[1..], b[1..], c[1..]);
    }
  }

  // ---------------------------------------------------------------------------
  // join and its inverse
  // ---------------------------------------------------------------------------

  /** `parts.join(sep)`. */
  function Join(parts: seq<string>, sep: string): string {
    if |parts| == 0 then ""
    else if |parts| == 1 then parts[0]
    else parts[0] + sep + Join(parts[1..], sep)
  }

  /** A character that is in no part and not in the separator is not in the join. */
  lemma {:induction false} JoinExcludes(parts: seq<string>, sep: string, c: char)
    requires c !in sep
    requires forall k :: 0 <= k < |parts| ==> c !in parts[k]
    ensures c !in Join(parts, sep)
  {
    if |parts| > 1 {
      JoinExcludes(parts[1..], sep, c);
    }
  }

  /** `s.split(c)` for a one-character separator. */
  function Split(s: string, c: char): (r: seq<string>)
    ensures |r| >= 1
  {
    if s == [] then [""]
    else if s[0] == c then [""] + Split(s[1..], c)
    else
      var rest := Split(s[1..], c);
      [[s[0]] + rest[0]] + rest[1..]
  }

  lemma {:induction false} SplitNoSeparator(s: string, c: char)
    requires c !in s
    ensures Split(s, c) == [s]
  {
    if s != [] {
      SplitNoSeparator(s[1..], c);
      assert [s[0]] + s[1..] == s;
    }
  }

  lemma {:induction false} SplitAfterSeparator(a: string, c: char, rest: string)
    requires c !in a
    ensures Split(a + [c] + rest, c) == [a] + Split(rest, c)
  {
    if a == [] {
      assert a + [c] + rest == [c] + rest;
      assert ([c] + rest)[1..] == rest;
    } else {
      var s := a + [c] + rest;
      assert s[0] == a[0];
      assert s[1..] == a[1..] + [c] + rest;
      SplitAfterSeparator(a[1..], c, rest);
      assert [a[0]] + a[1..] == a;
    }
  }

  /** Splitting a join on its separator gives back the parts, when no part holds the separator. */
  lemma {:induction false} SplitJoin(parts: seq<string>, c: char)
    requires |parts| >= 1
    requires forall k :: 0 <= k < |parts| ==> c !in parts[k]
    ensures Split(Join(parts, [c]), c) == parts
  {
    if |parts| == 1 {
      SplitNoSeparator(parts[0], c);
    } else {
      SplitJoin(parts[1..], c);
      SplitAfterSeparator(parts[0], c, Join(parts[1..], [c]));
      assert [parts[0]] + parts[1..] == parts;
    }
  }

  // ---------------------------------------------------------------------------
  // Numbers as text
  // ---------------------------------------------------------------------------

  predicate IsDigit(c: char) { '0' <= c <= '9' }

  function DigitChar(d: nat): char
    requires d < 10
  {
    ('0' as int + d) as char
  }

  /** `String(n)` for a non-negative integer: its decimal digits, no leading zeros. */
  function NatToString(n: nat): (s: string)
    ensures |s| >= 1
    ensures forall i :: 0 <= i < |s| ==> IsDigit(s[i])
    ensures |s| > 1 ==> s[0] != '0'
  {
    if n < 10 then [DigitChar(n)] else NatToString(n / 10) + [DigitChar(n % 10)]
  }

  /** The value of a string of decimal digits. */
  function DigitsValue(s: string): nat
    requires forall i :: 0 <= i < |s| ==> IsDigit(s[i])
  {
    if s == [] then 0
    else
      assert IsDigit(s[|s| - 1]);
      10 * DigitsValue(s[..|s| - 1]) + (s[|s| - 1] as int - '0' as int)
  }

  /** Reading back the decimal rendering of `n` gives `n`. */
  lemma {:induction false} NatToStringRoundTrip(n: nat)
    ensures DigitsValue(NatToString(n)) == n
  {
    if n >= 10 {
      NatToStringRoundTrip(n / 10);
      var s := NatToString(n);
      assert s[..|s| - 1] == NatToString(n / 10);
    }
  }

  /** `String(n)` for any integer. */
  function IntToString(n: int): (s: string)
    ensures |s| >= 1
    ensures forall i :: 0 <= i < |s| ==> IsDigit(s[i]) || s[i] == '-'
  {
    if n < 0 then "-" + NatToString(-n) else NatToString(n)
  }
}

=== FILE: wrappers.dfy ===
/** The nullable values of the source (`T | null`, optional members) as an option type. */
module Wrappers {

  datatype Option<+T> = None | Some(value: T) {

    /** The value, or `default` when there is none (the source's `x ?? default`). */
    function GetOr(default: T): T {
      match this
      case Some(v) => v
      case None => default
    }
  }
}
